=== FILE: README.md ===
# Nepal location API: read routes, field guard and hierarchy seed

A Dafny model of the core of `bun-location-api`. This is a read-only HTTP
service over two tables, `countries` and `admin_divisions`, plus the one-off
script that seeds Nepal's province → district → city hierarchy. The model
covers:

- **Field projection guard** (`Fields`): `parseSelectFields` reduces a
  comma-separated `field` parameter to names from the eleven-name `field`
  whitelist. An empty result falls back to a per-route default list.
- **Nepal routes** (`NpLocation`):
  - the province, district and city listings, and the `fun` child query
    behind the last two;
  - the two `/np/search/:type` routes, which call a store search procedure
    and pick keys from each row it returns.
- **Generic read routes**:
  - `DivisionsRoute`: list and by-id;
  - `SearchRoute`: the global substring search;
  - `CountriesRoute`: list and by-id.

  Each handler is a pure function from its path and query parameters to a
  response. A response is `Listing(rows, columns)`, `Single(row, columns)` or
  `Failure(status, message)`.
- **Queries** (`Query`, `Patterns`, `Store`): a query is a conjunction of
  predicates, an optional order column and an optional limit. It is evaluated
  over an in-memory table as filter, then sort, then take. `LIKE`/`ILIKE`
  patterns get their `%`/`_` semantics. As the REST layer does for its
  `like`/`ilike` operators, a `*` in a route's pattern is read as `%` first. `.single()` yields `PGRST116` unless
  exactly one row matches.
- **Seed script** (`DevVars`, `Seeding`, `SeedingProofs`):
  - the `.dev.vars` loader;
  - the `PROVINCES` table;
  - `ensureNepal` on a country table;
  - `main`'s insertion loop, modelled as a fold that threads the
    province-code map, the district-key map and the inserted rows.

  `SeedingProofs` proves what a completed run leaves behind.

The store is replaced by values:
- a table (`seq` of records) together with an optional store fault;
- for the search procedures, a function parameter;
- for the seed's inserts, a rejection oracle and consecutive ids.

JavaScript's `Number()` is `Numbers.ParseNumber`, a partial parse into `real`
(`""` reads as 0).

Behaviour worth knowing, as the code has it:
- A `level` or `parent_id` that parses to a negative or fractional number is
  accepted. Only an unparseable one is rejected.
- The parent-scoped Nepal search always prepends `rest` to the picked keys,
  whatever the type.
- The country list filters on `is_deleted` only, not on `is_active`.
- The province listing has no limit.
- Seeded paths start with the literal `np`.
- The Nepal listings' `search` prefix is case-sensitive (`.like`, np-location.ts:95, :127).
- `ensureNepal` reuses a row only when exactly one live `NP` row exists and
  its id is non-zero. Otherwise it inserts another country row.

## Model

| member | source | states |
|---|---|---|
| Fields.SelectList | src/routes/np/np-location.ts:50-70 | Absent or empty input gives the fallback unchanged. Otherwise the result is exactly the whitelisted trimmed tokens, in input order, duplicates kept. With no such token it is the fallback. Only whitelisted names come out, and the result is never empty. |
| Fields.ParseSelectFields | src/routes/np/np-location.ts:50-70 | The comma-joined selection splits back into the selected list, so callers that `split(",")` it get the list. |
| Fields.WhitelistNamesColumns | src/routes/np/np-location.ts:31-43 | Every whitelisted name is a column of `admin_divisions` and holds no comma. |
| Fields.AdmittedCounts | src/routes/np/np-location.ts:58-62 | The filter keeps each admitted name as often as it occurs and drops every other name. |
| Fields.AdmittedInOrder | src/routes/np/np-location.ts:58-62 | The filtered names are a subsequence of the tokens. |
| Fields.SelectAllValid | src/routes/np/np-location.ts:58-69 | Text whose every token is whitelisted selects its trimmed tokens. |
| Fields.TokensOfWhitelisted | src/routes/np/np-location.ts:158 | A non-empty whitelisted list, joined with commas, tokenizes back to itself. |
| Fields.WithRest | src/routes/np/np-location.ts:158-160 | Text with `,rest` appended selects the text's whitelisted tokens followed by `rest`, so the fallback never applies. |
| Fields.InheritedFieldSelected | src/routes/np/np-location.ts:47-49 | Under the `in` test as written, `field=constructor` selects `constructor`, which is not a column. The intended guard gives the fallback. |
| NpLocation.LevelOf | src/routes/np/np-location.ts:13-17 | Exactly `province`, `district` and `city` have a level, and it lies between 1 and 3. |
| NpLocation.LevelOfInjective | src/routes/np/np-location.ts:13-17 | Distinct types have distinct levels. |
| NpLocation.TypeGuardAsWritten | src/routes/np/np-location.ts:180-183 | The `levelStru[type]` guard passes exactly the three types and the names inherited from `Object.prototype`. An own entry gives the intended level. |
| NpLocation.InheritedTypePasses | src/routes/np/np-location.ts:224-227 | `constructor` passes the type guard as written although it has no level. |
| NpLocation.FieldParam | src/routes/np/np-location.ts:77 | The `field` parameter is trimmed when present and stays absent otherwise. |
| NpLocation.NamePrefix | src/routes/np/np-location.ts:94-96 | The name filter applies exactly when `search` is present, non-empty and at most 10 characters. |
| NpLocation.ScopeRow | src/routes/np/np-location.ts:117-128 | A row meets the child query's predicates exactly when it has the parent, the level and country 1, is not deleted, and matches the name pattern when one applies. |
| NpLocation.PlainNamePrefix | src/routes/np/np-location.ts:126-128 | A name prefix free of `%`, `_`, `\` and `*` keeps exactly the rows whose name starts with it. |
| NpLocation.ScopeSound | src/routes/np/np-location.ts:117-129 | Every listed row is in scope. |
| NpLocation.ScopeComplete | src/routes/np/np-location.ts:117-129 | Below the limit, every in-scope row is listed, as often as stored. |
| NpLocation.ScopeCutAfter | src/routes/np/np-location.ts:124-129 | An in-scope row left out by the limit sorts after every listed row. |
| NpLocation.ListIn | src/routes/np/np-location.ts:98-103 | A store fault gives 500 with its message. Otherwise the listing has the selected columns and answers the scope. |
| NpLocation.Province | src/routes/np/np-location.ts:73-104 | Columns are the whitelisted fields asked for, else the province default. Rows are the live level-1 rows of country 1, matching the prefix when it applies, ordered by name. A store fault gives 500. |
| NpLocation.ChildList | src/routes/np/np-location.ts:112-131 | The `fun` query: rows under `pid` at the level in country 1, at most 8, ordered by name, with the parsed field selection. |
| NpLocation.District | src/routes/np/np-location.ts:132-148 | A non-numeric parent id gives 400 `Invalid id` before any query. Otherwise the result is the level-2 child listing. |
| NpLocation.City | src/routes/np/np-location.ts:150-166 | A non-numeric parent id gives 400. Otherwise columns are the whitelisted fields asked for followed by `rest`, and rows are the level-3 child listing. |
| NpLocation.CityDefaultColumns | src/routes/np/np-location.ts:158-160 | Without `field`, the city columns are the default list plus `rest`. |
| NpLocation.CityOnlyRest | src/routes/np/np-location.ts:158-160 | A `field` with no whitelisted token selects only `rest`. |
| NpLocation.UnusedSearchIgnored | src/routes/np/np-location.ts:126-128 | A `search` that is missing, empty or longer than 10 characters changes none of the three listings. |
| NpLocation.DefaultTextSelectsDefault | src/routes/np/np-location.ts:220-222 | `defaultSelect.toString()` selects the default list itself. |
| NpLocation.Pick | src/routes/np/np-location.ts:195-201 | The picked object holds exactly the keys in both the list and the row, with the row's values. |
| NpLocation.PickAll | src/routes/np/np-location.ts:194-202 | Each returned row is picked in place, one output per input. |
| NpLocation.Finish | src/routes/np/np-location.ts:203-206 | A procedure error gives 500 with its message. Otherwise every row is picked. |
| NpLocation.StoreErrorThrows | src/routes/np/np-location.ts:194-205 | As written, a procedure error throws in `data.map` before the check. The intended answer is the 500 failure. On success both agree. |
| NpLocation.UnscopedKeysFacts | src/routes/np/np-location.ts:196 | `rest` is picked exactly for type `city` or when asked for. Every other key is whitelisted or the empty string. |
| NpLocation.ScopedKeysFacts | src/routes/np/np-location.ts:241 | The parent-scoped search always picks `rest`, then the selection, all whitelisted. |
| NpLocation.NpSearch | src/routes/np/np-location.ts:169-207 | A short `q` gives 400, checked before the type. An unknown type gives 400. Otherwise the procedure gets the trimmed text, the level, country 1 and limit 8. Its error gives 500, and its rows come back picked. |
| NpLocation.NpSearchUnder | src/routes/np/np-location.ts:208-252 | Checks run in order: the parent id (400), then `q` (400), then the type (400). The procedure also gets the parent id, and its rows are picked with `rest`. |
| DivisionsRoute.ParseListParams | src/routes/divisions.ts:11-41 | A request is accepted exactly when its country id, level and parent id are all valid. Errors come in order: bad country id, bad level, bad parent id. A level filters only when supplied. `null` means no parent, an absent parent id means any parent, a numeric one means that parent, and `""` reads as 0. An empty path prefix is none. |
| DivisionsRoute.ParseLevel | src/routes/divisions.ts:28-34 | An absent level filters nothing. A supplied level is rejected with "Invalid level" exactly when `Number` gives NaN for it. Otherwise it filters on that number. |
| DivisionsRoute.ParseParent | src/routes/divisions.ts:35-41 | `null` selects rows without a parent, and an absent parent id selects any parent. Any other text is rejected with "Invalid parent_id" exactly when `Number` gives NaN for it; otherwise it filters on that number, so `""` filters on parent 0. |
| DivisionsRoute.ListQueryScope | src/routes/divisions.ts:22-44 | A row meets the composed filters exactly when it is in the list scope. |
| DivisionsRoute.PlainPrefixScope | src/routes/divisions.ts:42-44 | A path prefix free of `%`, `_`, `\` and `*` is a plain string prefix, with no `>` boundary. |
| DivisionsRoute.ListDivisions | src/routes/divisions.ts:10-52 | Invalid parameters give 400 with the first message. A store fault gives 500. Otherwise the response is every in-scope division, only those, as often as stored, ordered by name. |
| DivisionsRoute.EmptyPrefixIsNoPrefix | src/routes/divisions.ts:42-44 | `path_prefix=` lists the same as no prefix. |
| DivisionsRoute.ByIdWhere | src/routes/divisions.ts:64-70 | The by-id query matches on id, on country and on not being deleted, jointly. |
| DivisionsRoute.DivisionById | src/routes/divisions.ts:54-77 | Either id non-numeric gives 400. A returned division has both ids, is live and is stored. With no live match the answer is 404 (`PGRST116`), and other store errors give 500. |
| DivisionsRoute.OtherCountryNotFound | src/routes/divisions.ts:64-73 | A division of another country is never returned under this country: the answer is 404. |
| SearchRoute.SearchText | src/routes/search.ts:11-15 | `q` is accepted exactly when its trimmed text has at least two characters, and the trimmed text is used. |
| SearchRoute.CountryScope | src/routes/search.ts:25-28 | The country filter applies exactly when `country_id` is present and numeric. |
| SearchRoute.SearchQueryScope | src/routes/search.ts:18-28 | A row meets the query exactly when it is live, its name or path matches `%q%` ignoring case, and it is in the country if one is given. |
| SearchRoute.SearchSound | src/routes/search.ts:18-30 | Every returned row is in search scope. |
| SearchRoute.SearchComplete | src/routes/search.ts:18-30 | With fewer than 20 rows returned, every row in scope is returned. |
| SearchRoute.SearchCutAfter | src/routes/search.ts:23-30 | A row in scope left out sorts by path after every returned row. |
| SearchRoute.Search | src/routes/search.ts:10-36 | A short `q` gives 400. A store fault gives 500. Otherwise the search columns and rows are in scope, ordered by path, at most 20. |
| SearchRoute.UnparseableCountryIgnored | src/routes/search.ts:25-28 | A non-numeric `country_id` is ignored, not rejected. |
| SearchRoute.PlainTextScope | src/routes/search.ts:22 | For text free of `%`, `_`, `\` and `*`, the filter is case-insensitive substring containment in name or path. |
| CountriesRoute.ListCountries | src/routes/countries.ts:10-22 | A store fault gives 500. Otherwise the response is exactly the non-deleted countries, as often as stored, ordered by name. |
| CountriesRoute.ByIdWhere | src/routes/countries.ts:32-37 | The by-id query matches on id and on not being deleted. |
| CountriesRoute.CountryById | src/routes/countries.ts:24-44 | A non-numeric id gives 400. A returned country has that id, is live and is stored. No live match gives 404, and other store errors give 500. |
| Store.FetchSingle | src/routes/divisions.ts:64-70 | `.single()` yields a row only when exactly one row matches. Otherwise it yields `PGRST116`. |
| Store.PinnedLookup | src/routes/countries.ts:32-37 | A lookup pinned to an id returns only stored matching rows, nothing when none match, and the single match when ids are unique. |
| Query.Eval | src/routes/search.ts:18-30 | Filter, order, limit. Rows satisfy the filters, are sorted and bounded, and none is invented. Without a cut every match is returned. A cut drops only rows sorting after the returned ones. |
| Query.EvalCutAfter | src/routes/search.ts:23-30 | A matching row missing from an ordered result sorts after each returned row. |
| Query.Matching | src/routes/divisions.ts:22-26 | The filter keeps each row that satisfies all predicates, as often as stored, and no other. |
| Query.SortOn | src/routes/divisions.ts:46 | Ordering yields a sorted permutation of its input. |
| Query.Project | src/routes/divisions.ts:24 | A projected row has only selected keys and carries every selected column's value. |
| Patterns.LikePrefix | src/routes/divisions.ts:43 | `s LIKE q%` for wildcard-free `q` holds exactly when `q` is a prefix of `s`. |
| Patterns.LikeContains | src/routes/search.ts:22 | `s LIKE %q%` for wildcard-free `q` holds exactly when `s` contains `q`. |
| Patterns.ILikeContains | src/routes/search.ts:22 | `ILIKE %q%` is substring containment ignoring case. |
| Patterns.StarAsPercent | src/routes/divisions.ts:43 | The REST layer's pattern rewrite keeps the length and turns exactly the `*` characters into `%`. |
| Patterns.StarIsPercent | src/routes/divisions.ts:43 | A `*` in a route's pattern acts as `%`: `k*%` matches exactly the strings that start with `k`. |
| Patterns.FilterLikePrefix | src/routes/divisions.ts:43 | A route's `q%` filter, for `q` free of `%`, `_`, `\` and `*`, holds exactly when `q` is a prefix of the value. |
| Patterns.FilterILikeContains | src/routes/search.ts:22 | A route's `%q%` case-insensitive filter, for `q` free of wildcards and `*`, is substring containment ignoring case. |
| Numbers.ParseNumberFacts | src/routes/divisions.ts:12-15 | Blank text reads as 0. A parsed number has a digit, and text with a letter is rejected. |
| Numbers.ParseNumberOfIntText | src/routes/divisions.ts:12 | The decimal text of any integer parses back to that integer, exactly (see "Left out" on doubles). |
| DevVars.StripQuotes | scripts/seed-nepal.ts:24 | Text with no quote at either end is kept. A quote at both ends strips one from each. |
| DevVars.ParseLine | scripts/seed-nepal.ts:19-24 | Blank lines, `#` lines and lines whose first `=` is missing or first are skipped. A key is non-empty, trimmed and free of `=`. |
| DevVars.ParseKeyValue | scripts/seed-nepal.ts:21-24 | `key=rhs` splits at that `=` into the key and the trimmed, unquoted right-hand side. |
| DevVars.ParseAssignment | scripts/seed-nepal.ts:21-24 | `KEY=value` reads back as the assignment. |
| DevVars.ParseQuotedAssignment | scripts/seed-nepal.ts:24 | `KEY="value"` reads back as the value between the quotes. |
| DevVars.AssignFacts | scripts/seed-nepal.ts:25 | A line sets an unset or empty variable, keeps a non-empty one, and changes nothing else. |
| DevVars.KeepsSetVariables | scripts/seed-nepal.ts:25 | A variable already set to a non-empty value survives the whole file. |
| DevVars.OnlyAssignedKeys | scripts/seed-nepal.ts:18-26 | A variable that appears was assigned by some line of the file. |
| DevVars.OtherKeysUntouched | scripts/seed-nepal.ts:18-26 | A variable no line assigns keeps its presence and its value. |
| DevVars.FirstAssignmentWins | scripts/seed-nepal.ts:25 | For an unset variable, the first line giving it a non-empty value wins over later lines. |
| Seeding.ProvinceOf | scripts/seed-nepal.ts:46-54 | Exactly the keys `1` to `7` are provinces. Each has code `NP-P` plus the key and a non-empty lower-case name. |
| Seeding.ProvinceCodesDistinct | scripts/seed-nepal.ts:46-54 | Distinct province keys have distinct codes. |
| Seeding.InheritedProvincePasses | scripts/seed-nepal.ts:109-110 | As written, `PROVINCES["toString"]` passes the guard although it is no province. |
| Seeding.DistrictKeyProvince | scripts/seed-nepal.ts:107-108 | Rows sharing a district key share the province code. |
| Seeding.NameLocal | scripts/seed-nepal.ts:171 | An empty native name is stored as null, and any other is kept. |
| Seeding.CityRest | scripts/seed-nepal.ts:166 | A city's `rest` holds exactly `wards` and `admType`. |
| Seeding.EnsureProvince | scripts/seed-nepal.ts:114-135 | After the step the province key is recorded. |
| Seeding.EnsureDistrict | scripts/seed-nepal.ts:137-160 | After the step the district key is recorded. |
| Seeding.UnknownProvinceSkipped | scripts/seed-nepal.ts:109-110 | A row with an unknown province code changes nothing. |
| Seeding.SeedRowAppends | scripts/seed-nepal.ts:106-183 | One data row only appends, and at most three rows. |
| Seeding.AbortMessages | scripts/seed-nepal.ts:133-181 | A failed run's message is `Insert province`, `Insert district` or `Insert city` with the name and the store's error. |
| Seeding.LiveNepal | scripts/seed-nepal.ts:57-62 | The lookup sees exactly the non-deleted `NP` countries. |
| Seeding.EnsureNepal | scripts/seed-nepal.ts:56-85 | A lookup that succeeds and finds a single live Nepal row with a non-zero id reuses that row and inserts nothing. In every other case one Nepal row with the next id is appended, unless the insert fails, and then the error is `Insert country: ...`. |
| Seeding.EnsureNepalIdempotent | scripts/seed-nepal.ts:57-84 | Starting with no Nepal row, one run inserts it and a second run reuses it without inserting. |
| Seeding.DuplicatesGrow | scripts/seed-nepal.ts:57-64 | Once two live Nepal rows exist, every run inserts a further one. |
| Seeding.ExitCode | scripts/seed-nepal.ts:188-191 | The exit status is 0 exactly for a completed seed, and 1 otherwise. |
| Seeding.RunSeed | scripts/seed-nepal.ts:88-102 | Missing credentials after loading `.dev.vars` end the script. With credentials, the script fails exactly when the country step fails, with that step's message. Otherwise the country table is the one that step leaves and the loop runs under the id it returns. |
| Seeding.RerunReusesCountry | scripts/seed-nepal.ts:56-102 | On a store with no live Nepal row, a first run inserts the country and seeds under its id. A second run on the resulting table adds no country row and seeds under the same id. |
| Seeding.EnvironmentWins | scripts/seed-nepal.ts:89-92 | Credentials already in the environment are the ones used. |
| SeedingProofs.KeysMeaning | scripts/seed-nepal.ts:107-110 | A key is among the data set's province (district) keys exactly when some known-province row has it. |
| SeedingProofs.ProvinceStep | scripts/seed-nepal.ts:114-135 | The province step keeps the seeding invariant. |
| SeedingProofs.DistrictStep | scripts/seed-nepal.ts:137-160 | The district step keeps the seeding invariant. |
| SeedingProofs.CityStep | scripts/seed-nepal.ts:162-182 | The city step keeps the seeding invariant and counts one city per row with wards. |
| SeedingProofs.SeedInvariant | scripts/seed-nepal.ts:106-183 | Every prefix of a run that has not aborted satisfies the seeding invariant. |
| SeedingProofs.Completed | scripts/seed-nepal.ts:106-183 | A completed run satisfies the invariant on the whole data set. |
| SeedingProofs.EveryKeyRecorded | scripts/seed-nepal.ts:106-160 | A province (district) key is recorded exactly when a row with a known province carries it. |
| SeedingProofs.ProvincesOnce | scripts/seed-nepal.ts:114-135 | Province rows have distinct codes. Each recorded key's row is the table's province, at level 1 with no parent and path `np>name`. |
| SeedingProofs.DistrictsOnce | scripts/seed-nepal.ts:137-160 | Each district row belongs to exactly one recorded key, and each recorded key's row is a level-2 row. Every known-province data row's district row has that row's own province as parent. When the data set names each district one way, that row's name is the lower-cased `district_name`. |
| SeedingProofs.EveryRowLinked | scripts/seed-nepal.ts:114-182 | Every inserted row has the next id, the country, and is live. Non-provinces sit under an earlier row one level up. |
| SeedingProofs.PathsFollowParents | scripts/seed-nepal.ts:165 | When rows sharing a district key agree on its name, every path is the parent's path plus `>name`. |
| SeedingProofs.CityPerWardRow | scripts/seed-nepal.ts:162-182 | A completed run inserts one city per known-province row with a ward count, and no other. The cities follow those data rows one to one and in order: the k-th city row is the k-th such row's city. Each is built from its data row: under that row's district id, with its lower-cased name, its path through province and district, its ward count and administrative type in `rest`, its local name, and the id of its position. |
| SeedingProofs.CitiesInOrderInvariant | scripts/seed-nepal.ts:106-183 | After every prefix of the data set the run gets through, the city rows match that prefix's rows with a known province and a ward count, one to one and in order. |

## Left out

- HTTP plumbing is not modelled: routing, CORS, the Worker export and client construction.
- Async execution, reading `.dev.vars` and `data.json`, console output and `process.exit` are not modelled. The file is a parameter, and the exit is `Seeding.ExitCode`.
- The store's search procedures rank and limit rows in unseen code, so they are function parameters. Nothing is assumed about their order or count.
- Numbers.ParseNumber: the result is an exact `real`, where `Number()` rounds to the nearest IEEE double. Integers beyond 2^53 and long fractions therefore read differently: `9007199254740993` is 9007199254740992 in JavaScript.
- Numbers.ParseNumberOfIntText: the round trip holds for the exact parse only. Under double rounding it holds only for integers of magnitude at most 2^53.
- Numbers.ParseNumber: exponents, hexadecimal, octal and binary forms and `Infinity` are read as unparseable, so the model rejects a few ids that JavaScript accepts.
- Query.SortOn: collation is code-point order. Lower-casing, for `ILIKE` and for the seed's names, is ASCII only. Locale rules are not modelled.
- SearchRoute.Search: `q` is spliced unescaped into the `.or(...)` filter string. A `q` holding `,` or `.` would change that filter. The model uses the intended two `ILIKE` conditions.
- `.eq("parent_id", null)` is modelled as an `IS NULL` test.
- A `LIKE` pattern ending in a lone `\` matches nothing, where PostgreSQL reports an error. The routes always append `%`, so they never build one: a prefix ending in `\` escapes that `%` instead, in the model as in the store.
- String lengths are counted in code points, not UTF-16 code units. This matters only for the 10-character and 2-character bounds on non-BMP text.
- `process.env` names inherited from `Object.prototype` are not modelled. The environment is a plain map.
- `maybeSingle`'s lookup error is ignored, as in the source: a failed lookup leads to an insert.
- Data-set fields the loop never reads are dropped: `locallevel_fullcode`, `country_code`, `locallevel_code`.
- A seeded division's `timezone` is taken as null, and a province's or district's `rest` as null.
- Re-running the seed duplicates every division, because both key maps start empty. Only the country row is reused (`Seeding.EnsureNepalIdempotent`).
- SeedingProofs.PathsFollowParents: requires that rows sharing a district key name it the same way. The city path uses the current row's district name, not the stored district's.

## Findings

| source | as written | input that shows it | evidently intended | confidence | as-written member | corrected member |
|---|---|---|---|---|---|---|
| src/routes/np/np-location.ts:47-49 | `key in field` also admits names inherited from `Object.prototype` | `field=constructor` selects the non-column `constructor` instead of the fallback | only the eleven whitelisted names pass | not executed | Fields.InheritedFieldSelected | Fields.SelectList |
| src/routes/np/np-location.ts:180-183 | `levelStru[type]` is truthy for inherited names | `/np/search/constructor?q=ab` passes the type check | unknown types give 400 `invalid type` | not executed | NpLocation.InheritedTypePasses | NpLocation.LevelOf |
| src/routes/np/np-location.ts:194-205 | `data.map` runs before `error` is checked | a procedure error (data null) throws instead of answering | a 500 with the store's message | not executed | NpLocation.StoreErrorThrows | NpLocation.Finish |
| scripts/seed-nepal.ts:109-110 | `PROVINCES[key]` is truthy for inherited names | a row with `province_code` `toString` is not skipped | only keys `1` to `7` are provinces | not executed | Seeding.InheritedProvincePasses | Seeding.ProvinceOf |

=== FILE: countries.dfy ===
/** `GET /countries` and `GET /countries/{countryId}`. */
module CountriesRoute {
  import opened Results
  import opened Records
  import opened Numbers
  import opened Query
  import opened Store

  /** The columns both routes select. */
  const CountryColumns: seq<string> :=
    ["id", "name", "name_local", "iso_code", "icon", "structure", "continent", "timezone", "is_active"]

  /** Non-deleted countries, ordered by name. */
  const ListQuery := Query(CountryColumns, [NotDeleted], Some(Name), None)

  /** `GET /countries`. */
  function ListCountries(db: Db): (r: Response<Country>)
    ensures db.fault.Some? ==> r == Failure(500, db.fault.value.message)
    ensures db.fault.None? ==> r.Listing? && r.columns == CountryColumns
    // only non-deleted countries, ordered by name
    ensures r.Listing? ==> forall i :: 0 <= i < |r.rows| ==> !r.rows[i].isDeleted
    ensures r.Listing? ==> SortedOn(r.rows, CountryField, Name)
    // and every one of them, as often as it is stored
    ensures r.Listing? ==> forall c :: multiset(r.rows)[c] == if c.isDeleted then 0 else multiset(db.countries)[c]
  {
    ListedLive(db.countries);
    ListResponse(Fetch(ListQuery, db.countries, CountryField, db.fault), CountryColumns)
  }

  /** The list query keeps exactly the non-deleted countries. */
  lemma ListScope(c: Country)
    ensures Satisfies(ListQuery.where, CountryField, c) <==> !c.isDeleted
  {
    assert ListQuery.where[0] == NotDeleted;
  }

  /** What the list query returns from a table. */
  lemma ListedLive(rows: seq<Country>)
    ensures var found := Eval(ListQuery, rows, CountryField);
            && (forall i :: 0 <= i < |found| ==> !found[i].isDeleted)
            && SortedOn(found, CountryField, Name)
            && forall c :: multiset(found)[c] == if c.isDeleted then 0 else multiset(rows)[c]
  {
    var found := Eval(ListQuery, rows, CountryField);
    forall c
      ensures Satisfies(ListQuery.where, CountryField, c) <==> !c.isDeleted
    {
      ListScope(c);
    }
  }

  /** The query of the by-id route: the id, and not deleted. */
  function ByIdQuery(id: real): Query {
    Query(CountryColumns, [Eq(Id, Num(id)), NotDeleted], None, None)
  }

  /** `GET /countries/{countryId}`. */
  function CountryById(countryId: string, db: Db): (r: Response<Country>)
    // a non-numeric id is rejected before any query
    ensures ParseNumber(countryId).None? ==> r == Failure(400, InvalidCountryIdMessage)
    // a returned country has the requested id, is not deleted and is stored
    ensures r.Single? ==> ParseNumber(countryId) == Some(r.row.id as real) && !r.row.isDeleted && r.row in db.countries
    // no live country with that id: 404
    ensures ParseNumber(countryId).Some? && db.fault.None?
            && (forall c :: c in db.countries ==> c.isDeleted || c.id as real != ParseNumber(countryId).value) ==>
              r == Failure(404, NotFoundMessage)
    // with unique ids, the live country with that id is returned
    ensures ParseNumber(countryId).Some? && db.fault.None? && UniqueIds(db.countries, CountryField) ==>
              forall c :: c in db.countries && !c.isDeleted && c.id as real == ParseNumber(countryId).value ==>
                r == Single(c, CountryColumns)
    // store errors: PGRST116 is a 404, anything else a 500 with the store's message
    ensures ParseNumber(countryId).Some? && db.fault.Some? ==>
              r == if db.fault.value.code == NoSingleRow then Failure(404, NotFoundMessage)
                   else Failure(500, db.fault.value.message)
    ensures r.Failure? ==> r.status in {400, 404, 500}
  {
    match ParseNumber(countryId)
    case None => Failure(400, InvalidCountryIdMessage)
    case Some(id) =>
      var q := ByIdQuery(id);
      ByIdWhere(id);
      PinnedLookup(q, db.countries, CountryField, Num(id));
      SingleResponse(FetchSingle(q, db.countries, CountryField, db.fault), CountryColumns)
  }

  /** The by-id conjunction: the id, and not deleted. */
  lemma ByIdWhere(id: real)
    ensures forall c :: Satisfies(ByIdQuery(id).where, CountryField, c) <==> !c.isDeleted && c.id as real == id
  {
    var q := ByIdQuery(id);
    forall c
      ensures Satisfies(q.where, CountryField, c) <==> !c.isDeleted && c.id as real == id
    {
      assert q.where[0] == Eq(Id, Num(id)) && q.where[1] == NotDeleted;
    }
  }
}

=== FILE: dev_vars.dfy ===
/** The seed script's `.dev.vars` loader: `KEY=value` lines are copied into
    the process environment, without overwriting a variable that is already
    set to something non-empty. */
module DevVars {
  import opened Results
  import opened Text

  /** The process environment. */
  type Env = map<string, string>

  predicate IsQuote(c: char) {
    c == '"' || c == '\''
  }

  /** `replace(/^["']|["']$/g, "")`: one quote character is removed from the
      start and one from the end, independently of each other. */
  function StripQuotes(v: string): (r: string)
    ensures |v| > 0 && !IsQuote(v[0]) && !IsQuote(v[|v| - 1]) ==> r == v
    ensures |v| >= 2 && IsQuote(v[0]) && IsQuote(v[|v| - 1]) ==> r == v[1..|v| - 1]
  {
    var a := if |v| > 0 && IsQuote(v[0]) then v[1..] else v;
    if |a| > 0 && IsQuote(a[|a| - 1]) then a[..|a| - 1] else a
  }

  /** One line as an assignment: None for a blank line, a comment, or a line
      whose first `=` is missing or first; otherwise the trimmed key before
      the first `=` and the trimmed, unquoted value after it. */
  function ParseLine(line: string): (r: Option<(string, string)>)
    ensures Trim(line) == "" ==> r.None?
    ensures Trim(line) != "" && Trim(line)[0] == '#' ==> r.None?
    ensures IndexOf(Trim(line), '=') <= 0 ==> r.None?
    // a key is never empty, never holds '=', and carries no surrounding white space
    ensures r.Some? ==> r.value.0 != "" && '=' !in r.value.0 && Trim(r.value.0) == r.value.0
  {
    var t := Trim(line);
    KeyFactsAt(t);
    ParseTrimmed(t)
  }

  /** `ParseLine` on the trimmed line. */
  function ParseTrimmed(t: string): Option<(string, string)> {
    if t == "" || t[0] == '#' then None
    else
      var eq := IndexOf(t, '=');
      if eq <= 0 then None
      else
        var key := Trim(t[..eq]);
        if key == "" then None else Some((key, StripQuotes(Trim(t[eq + 1..]))))
  }

  lemma KeyFactsAt(t: string)
    ensures t != "" && IndexOf(t, '=') > 0 ==>
              && '=' !in Trim(t[..IndexOf(t, '=')])
              && Trim(Trim(t[..IndexOf(t, '=')])) == Trim(t[..IndexOf(t, '=')])
  {
    if t != "" && IndexOf(t, '=') > 0 {
      KeyFacts(t, IndexOf(t, '='));
    }
  }

  /** The trimmed text before the first '=' holds no '=' and is trimmed. */
  lemma KeyFacts(t: string, eq: int)
    requires 0 < eq < |t| && t[eq] == '=' && '=' !in t[..eq]
    ensures '=' !in Trim(t[..eq])
    ensures Trim(Trim(t[..eq])) == Trim(t[..eq])
  {
    var k := t[..eq];
    var key := Trim(k);
    TrimIdempotent(k);
  }

  /** A parsed assignment applied to the environment: the key is set only
      when it is unset or empty (`!process.env[key]`). */
  function Assign(env: Env, a: Option<(string, string)>): Env {
    match a
    case None => env
    case Some((k, v)) => if k !in env || env[k] == "" then env[k := v] else env
  }

  /** What one assignment does: an unset or empty variable takes the value,
      a variable holding a non-empty value keeps it, and nothing else
      changes. */
  lemma AssignFacts(env: Env, a: Option<(string, string)>, k: string)
    ensures k in env && env[k] != "" ==> k in Assign(env, a) && Assign(env, a)[k] == env[k]
    ensures a.Some? && k == a.value.0 && (k !in env || env[k] == "") ==> k in Assign(env, a) && Assign(env, a)[k] == a.value.1
    ensures a.None? || k != a.value.0 ==> (k in Assign(env, a) <==> k in env) && (k in env ==> Assign(env, a)[k] == env[k])
  {
  }

  /** The assignments in order. */
  function AssignAll(env: Env, xs: seq<Option<(string, string)>>): Env
    decreases |xs|
  {
    if |xs| == 0 then env else AssignAll(Assign(env, xs[0]), xs[1..])
  }

  /** Each line of the file, parsed. */
  function Parsed(lines: seq<string>): (r: seq<Option<(string, string)>>)
    ensures |r| == |lines| && forall i :: 0 <= i < |lines| ==> r[i] == ParseLine(lines[i])
  {
    seq(|lines|, i requires 0 <= i < |lines| => ParseLine(lines[i]))
  }

  /** `loadDevVars`: the file's lines applied in order; a missing file leaves
      the environment as it is. */
  function LoadDevVars(file: Option<string>, env: Env): Env {
    match file
    case None => env
    case Some(text) => AssignAll(env, Parsed(Split(text, '\n')))
  }

  /** Assigns `k`. */
  predicate Sets(a: Option<(string, string)>, k: string) {
    a.Some? && a.value.0 == k
  }

  /** A variable already set to a non-empty value is never overwritten. */
  lemma {:induction false} KeepsSetVariables(env: Env, xs: seq<Option<(string, string)>>, k: string)
    requires k in env && env[k] != ""
    ensures k in AssignAll(env, xs) && AssignAll(env, xs)[k] == env[k]
    decreases |xs|
  {
    if |xs| > 0 {
      AssignFacts(env, xs[0], k);
      KeepsSetVariables(Assign(env, xs[0]), xs[1..], k);
    }
  }

  /** A key absent before and present afterwards was assigned by one of
      the lines, whose index is returned. */
  lemma {:induction false} OnlyAssignedKeys(env: Env, xs: seq<Option<(string, string)>>, k: string) returns (i: nat)
    requires k in AssignAll(env, xs) && k !in env
    ensures i < |xs| && Sets(xs[i], k)
    decreases |xs|
  {
    if |xs| == 0 {
      assert false;
    }
    AssignFacts(env, xs[0], k);
    if k in Assign(env, xs[0]) {
      i := 0;
    } else {
      var j := OnlyAssignedKeys(Assign(env, xs[0]), xs[1..], k);
      assert xs[1..][j] == xs[j + 1];
      i := j + 1;
    }
  }

  /** Assignments to other keys leave `k` alone. */
  lemma {:induction false} OtherKeysUntouched(env: Env, xs: seq<Option<(string, string)>>, k: string)
    requires forall i :: 0 <= i < |xs| ==> !Sets(xs[i], k)
    ensures (k in AssignAll(env, xs) <==> k in env)
    ensures k in env ==> AssignAll(env, xs)[k] == env[k]
    decreases |xs|
  {
    if |xs| > 0 {
      assert !Sets(xs[0], k);
      AssignFacts(env, xs[0], k);
      OtherKeysUntouched(Assign(env, xs[0]), xs[1..], k);
    }
  }

  lemma {:induction false} AssignAllAppend(env: Env, a: seq<Option<(string, string)>>, b: seq<Option<(string, string)>>)
    ensures AssignAll(env, a + b) == AssignAll(AssignAll(env, a), b)
    decreases |a|
  {
    if |a| > 0 {
      assert (a + b)[0] == a[0] && (a + b)[1..] == a[1..] + b;
      AssignAllAppend(Assign(env, a[0]), a[1..], b);
    } else {
      assert a + b == b;
    }
  }

  /** For a variable not set before, the first line assigning it a non-empty
      value wins over every later line. */
  lemma FirstAssignmentWins(env: Env, xs: seq<Option<(string, string)>>, n: nat, k: string, v: string)
    requires k !in env || env[k] == ""
    requires n < |xs| && forall i :: 0 <= i < n ==> !Sets(xs[i], k)
    requires xs[n] == Some((k, v)) && v != ""
    ensures k in AssignAll(env, xs) && AssignAll(env, xs)[k] == v
  {
    assert xs == xs[..n] + [xs[n]] + xs[n + 1..];
    AssignAllAppend(env, xs[..n] + [xs[n]], xs[n + 1..]);
    AssignAllAppend(env, xs[..n], [xs[n]]);
    OtherKeysUntouched(env, xs[..n], k);
    var mid := AssignAll(env, xs[..n]);
    assert AssignAll(mid, [xs[n]]) == Assign(mid, xs[n]);
    AssignFacts(mid, xs[n], k);
    KeepsSetVariables(Assign(mid, xs[n]), xs[n + 1..], k);
  }

  /** A line made of a key, `=` and a right-hand side that does not end in
      white space splits at that `=`. */
  lemma ParseKeyValue(k: string, rhs: string)
    requires k != "" && '=' !in k && Trim(k) == k && k[0] != '#'
    requires |rhs| > 0 ==> !IsSpace(rhs[|rhs| - 1])
    ensures ParseLine(k + "=" + rhs) == Some((k, StripQuotes(Trim(rhs))))
  {
    var line := k + "=" + rhs;
    TrimOfTrimmed(k);
    LineTrimmed(k, "=" + rhs);
    assert line[..|k|] == k && line[|k|] == '=';
    IndexOfFirst(line, k);
    assert line[|k| + 1..] == rhs;
    ParseLineAt(line, k, rhs);
  }

  /** A trimmed line whose first '=' follows the key `k` parses as `k` and
      the unquoted right-hand side. */
  lemma ParseLineAt(t: string, k: string, rhs: string)
    requires Trim(t) == t && |k| < |t| && t[0] != '#'
    requires IndexOf(t, '=') == |k| && t[..|k|] == k && t[|k| + 1..] == rhs
    requires k != "" && Trim(k) == k
    ensures ParseLine(t) == Some((k, StripQuotes(Trim(rhs))))
  {
    ParseLineOfTrimmed(t);
    ParseTrimmedAt(t, k, rhs);
  }

  lemma ParseLineOfTrimmed(t: string)
    requires Trim(t) == t
    ensures ParseLine(t) == ParseTrimmed(t)
  {
  }

  lemma ParseTrimmedAt(t: string, k: string, rhs: string)
    requires |k| < |t| && t[0] != '#'
    requires IndexOf(t, '=') == |k| && t[..|k|] == k && t[|k| + 1..] == rhs
    requires k != "" && Trim(k) == k
    ensures ParseTrimmed(t) == Some((k, StripQuotes(Trim(rhs))))
  {
    ParseTrimmedSplit(t, |k|);
  }

  /** A trimmed line with its first '=' at `eq` and a non-empty key splits
      there. */
  lemma ParseTrimmedSplit(t: string, eq: int)
    requires t != "" && t[0] != '#' && IndexOf(t, '=') == eq && eq > 0 && Trim(t[..eq]) != ""
    ensures ParseTrimmed(t) == Some((Trim(t[..eq]), StripQuotes(Trim(t[eq + 1..]))))
  {
  }

  /** `KEY=value` reads back as the assignment, for a key that is trimmed,
      non-empty, free of '=' and not a comment, and a value with no
      surrounding white space and no quote at either end. */
  lemma ParseAssignment(k: string, v: string)
    requires k != "" && '=' !in k && Trim(k) == k && k[0] != '#'
    requires Trim(v) == v && (|v| > 0 ==> !IsQuote(v[0]) && !IsQuote(v[|v| - 1]))
    ensures ParseLine(k + "=" + v) == Some((k, v))
  {
    ParseKeyValue(k, v);
    assert StripQuotes(v) == v;
  }

  /** `KEY="value"` reads back as the assignment whatever the value holds
      between the quotes. */
  lemma ParseQuotedAssignment(k: string, v: string)
    requires k != "" && '=' !in k && Trim(k) == k && k[0] != '#'
    ensures ParseLine(k + "=\"" + v + "\"") == Some((k, v))
  {
    var quoted := "\"" + v + "\"";
    Quoted(k, v);
    ParseKeyValue(k, quoted);
    Unquoted(v);
  }

  lemma Quoted(k: string, v: string)
    ensures k + "=\"" + v + "\"" == k + "=" + ("\"" + v + "\"")
  {
  }

  lemma Unquoted(v: string)
    ensures StripQuotes(Trim("\"" + v + "\"")) == v
  {
    var quoted := "\"" + v + "\"";
    TrimOfTrimmed(quoted);
    assert quoted[1..|quoted| - 1] == v;
  }

  /** A key that does not start with white space, followed by text that
      does not end with it, needs no trimming. */
  lemma LineTrimmed(k: string, rest: string)
    requires k != "" && Trim(k) == k && |rest| > 0 && !IsSpace(rest[|rest| - 1])
    ensures Trim(k + rest) == k + rest
  {
    assert !IsSpace(k[0]);
    TrimOfTrimmed(k + rest);
  }

  lemma IndexOfFirst(line: string, k: string)
    requires |k| < |line| && line[..|k|] == k && line[|k|] == '=' && '=' !in k
    ensures IndexOf(line, '=') == |k|
  {
    var i := IndexOf(line, '=');
    assert '=' in line;
  }
}

=== FILE: divisions.dfy ===
/** `GET /countries/{countryId}/divisions` and
    `GET /countries/{countryId}/divisions/{divisionId}`. */
module DivisionsRoute {
  import opened Results
  import opened Records
  import opened Numbers
  import opened Patterns
  import opened Query
  import opened Store

  /** The columns both routes select (`SELECT_DIVISIONS`). */
  const DivisionColumns: seq<string> :=
    ["id", "country_id", "parent_id", "name", "name_local", "code", "type",
     "level", "path", "timezone", "rest", "is_active"]

  const InvalidLevelMessage := "Invalid level"
  const InvalidParentIdMessage := "Invalid parent_id"

  /** The `parent_id` filter: none, "has no parent" (`parent_id=null`), or
      one parent. */
  datatype ParentFilter = AnyParent | NoParent | ParentIs(id: real)

  /** The list route's parameters once validated; `pathPrefix` is present
      only when it was given and non-empty. */
  datatype ListParams = ListParams(countryId: real, level: Option<real>, parent: ParentFilter, pathPrefix: Option<string>)

  /** Validation of the list route, which checks, in this order: the
      country id, then the level, then the parent id. */
  function ParseListParams(countryId: string, level: Option<string>, parentId: Option<string>, pathPrefix: Option<string>): (r: Result<ListParams, string>)
    ensures ParseNumber(countryId).None? ==> r == Err(InvalidCountryIdMessage)
    ensures ParseNumber(countryId).Some? && level.Some? && ParseNumber(level.value).None? ==> r == Err(InvalidLevelMessage)
    ensures ParseNumber(countryId).Some? && (level.None? || ParseNumber(level.value).Some?)
            && parentId.Some? && parentId.value != "null" && ParseNumber(parentId.value).None? ==>
              r == Err(InvalidParentIdMessage)
    // the accepted values are the parsed ones; only a supplied level filters
    ensures r.Ok? ==> Some(r.value.countryId) == ParseNumber(countryId)
    ensures r.Ok? ==> (r.value.level.Some? <==> level.Some?) && (level.Some? ==> r.value.level == ParseNumber(level.value))
    // the literal text "null" asks for top-level divisions; an empty parent id reads as 0
    ensures r.Ok? ==> (parentId.None? <==> r.value.parent == AnyParent)
    ensures r.Ok? ==> (parentId == Some("null") <==> r.value.parent == NoParent)
    ensures r.Ok? && parentId == Some("") ==> r.value.parent == ParentIs(0.0)
    ensures r.Ok? && parentId.Some? && parentId.value != "null" ==> r.value.parent == ParentIs(ParseNumber(parentId.value).value)
    // a request is accepted exactly when each of its three numbers is valid
    ensures r.Ok? <==> ParseNumber(countryId).Some? && ParseLevel(level).Ok? && ParseParent(parentId).Ok?
    // an empty prefix is no prefix
    ensures r.Ok? ==> r.value.pathPrefix == if pathPrefix == Some("") then None else pathPrefix
  {
    match ParseNumber(countryId)
    case None => Err(InvalidCountryIdMessage)
    case Some(cid) =>
      match ParseLevel(level)
      case Err(e) => Err(e)
      case Ok(lvl) =>
        match ParseParent(parentId)
        case Err(e) => Err(e)
        case Ok(parent) => Ok(ListParams(cid, lvl, parent, if pathPrefix == Some("") then None else pathPrefix))
  }

  /** The `level` filter: absent, or the parsed number. */
  function ParseLevel(level: Option<string>): (r: Result<Option<real>, string>)
    ensures level.None? ==> r == Ok(None)
    ensures level.Some? ==> (r.Err? <==> ParseNumber(level.value).None?)
    ensures r.Err? ==> r.error == InvalidLevelMessage
    ensures r.Ok? && level.Some? ==> r.value == ParseNumber(level.value)
  {
    match level
    case None => Ok(None)
    case Some(s) => if ParseNumber(s).None? then Err(InvalidLevelMessage) else Ok(ParseNumber(s))
  }

  /** The `parent_id` filter: absent, the literal `null`, or the parsed
      number; `""` reads as 0. */
  function ParseParent(parentId: Option<string>): (r: Result<ParentFilter, string>)
    ensures parentId.None? ==> r == Ok(AnyParent)
    ensures parentId == Some("null") ==> r == Ok(NoParent)
    ensures parentId.Some? && parentId.value != "null" ==>
              && (r.Err? <==> ParseNumber(parentId.value).None?)
              && (r.Ok? ==> r.value == ParentIs(ParseNumber(parentId.value).value))
    ensures parentId == Some("") ==> r == Ok(ParentIs(0.0))
    ensures r.Err? ==> r.error == InvalidParentIdMessage
  {
    ParseNumberOfBlank();
    match parentId
    case None => Ok(AnyParent)
    case Some(s) =>
      if s == "null" then Ok(NoParent)
      else if ParseNumber(s).None? then Err(InvalidParentIdMessage)
      else Ok(ParentIs(ParseNumber(s).value))
  }

  /** The rows the list route means: of the country, not deleted, and
      meeting each supplied filter. The prefix goes into a `LIKE` pattern as
      given, so a `%` or `_` in it is a wildcard; a prefix without them
      selects exactly the paths that start with it (`Patterns.LikePrefix`). */
  predicate InListScope(p: ListParams, d: AdminDivision) {
    && d.countryId as real == p.countryId
    && !d.isDeleted
    && (p.level.Some? ==> d.level as real == p.level.value)
    && ParentMatches(p.parent, d)
    && (p.pathPrefix.Some? ==> FilterLike(p.pathPrefix.value + "%", d.path))
  }

  predicate ParentMatches(f: ParentFilter, d: AdminDivision) {
    match f
    case AnyParent => true
    case NoParent => d.parentId.None?
    case ParentIs(id) => d.parentId.Some? && d.parentId.value as real == id
  }

  function LevelPreds(p: ListParams): seq<Pred> {
    match p.level
    case None => []
    case Some(l) => [Eq(Level, Num(l))]
  }

  function ParentPreds(p: ListParams): seq<Pred> {
    match p.parent
    case AnyParent => []
    case NoParent => [IsNull(ParentId)]
    case ParentIs(id) => [Eq(ParentId, Num(id))]
  }

  function PrefixPreds(p: ListParams): seq<Pred> {
    match p.pathPrefix
    case None => []
    case Some(s) => [Like(Path, s + "%")]
  }

  /** The filters the list route chains onto its query. */
  function ListQuery(p: ListParams): Query {
    Query(DivisionColumns,
          [Eq(CountryId, Num(p.countryId)), NotDeleted] + LevelPreds(p) + ParentPreds(p) + PrefixPreds(p),
          Some(Name), None)
  }

  /** The chained filters select exactly the rows in scope. */
  lemma ListQueryScope(p: ListParams)
    ensures forall d :: Satisfies(ListQuery(p).where, DivisionField, d) <==> InListScope(p, d)
  {
    forall d
      ensures Satisfies(ListQuery(p).where, DivisionField, d) <==> InListScope(p, d)
    {
      ListRowScope(p, d);
    }
  }

  lemma ListRowScope(p: ListParams, d: AdminDivision)
    ensures Satisfies(ListQuery(p).where, DivisionField, d) <==> InListScope(p, d)
  {
    var base: seq<Pred> := [Eq(CountryId, Num(p.countryId)), NotDeleted];
    SatisfiesAppend(base + LevelPreds(p) + ParentPreds(p), PrefixPreds(p), DivisionField, d);
    SatisfiesAppend(base + LevelPreds(p), ParentPreds(p), DivisionField, d);
    SatisfiesAppend(base, LevelPreds(p), DivisionField, d);
    BaseScope(p, d);
    LevelScope(p, d);
    ParentScope(p, d);
    PrefixScope(p, d);
  }

  lemma BaseScope(p: ListParams, d: AdminDivision)
    ensures Satisfies([Eq(CountryId, Num(p.countryId)), NotDeleted], DivisionField, d) <==>
              d.countryId as real == p.countryId && !d.isDeleted
  {
    var base: seq<Pred> := [Eq(CountryId, Num(p.countryId)), NotDeleted];
    assert base[0] == Eq(CountryId, Num(p.countryId)) && base[1] == NotDeleted;
    assert base[1..][1..] == [];
  }

  lemma LevelScope(p: ListParams, d: AdminDivision)
    ensures Satisfies(LevelPreds(p), DivisionField, d) <==> (p.level.Some? ==> d.level as real == p.level.value)
  {
    if p.level.Some? {
      assert LevelPreds(p)[0] == Eq(Level, Num(p.level.value));
      assert LevelPreds(p)[1..] == [];
    }
  }

  lemma ParentScope(p: ListParams, d: AdminDivision)
    ensures Satisfies(ParentPreds(p), DivisionField, d) <==> ParentMatches(p.parent, d)
  {
    if p.parent != AnyParent {
      assert ParentPreds(p)[0] == if p.parent == NoParent then IsNull(ParentId) else Eq(ParentId, Num(p.parent.id));
      assert ParentPreds(p)[1..] == [];
    }
  }

  lemma PrefixScope(p: ListParams, d: AdminDivision)
    ensures Satisfies(PrefixPreds(p), DivisionField, d) <==> (p.pathPrefix.Some? ==> FilterLike(p.pathPrefix.value + "%", d.path))
  {
    if p.pathPrefix.Some? {
      assert PrefixPreds(p)[0] == Like(Path, p.pathPrefix.value + "%");
      assert PrefixPreds(p)[1..] == [];
    }
  }

  /** A prefix free of wildcards keeps exactly the paths that start with it. */
  lemma PlainPrefixScope(p: ListParams, d: AdminDivision)
    requires p.pathPrefix.Some? && NoWildcards(p.pathPrefix.value)
    ensures InListScope(p, d) <==> InListScope(p.(pathPrefix := None), d) && p.pathPrefix.value <= d.path
  {
    FilterLikePrefix(p.pathPrefix.value, d.path);
  }

  /** `GET /countries/{countryId}/divisions`. */
  function ListDivisions(countryId: string, level: Option<string>, parentId: Option<string>, pathPrefix: Option<string>, db: Db): (r: Response<AdminDivision>)
    // invalid parameters: a 400 carrying the first validation message
    ensures ParseListParams(countryId, level, parentId, pathPrefix).Err? ==>
              r == Failure(400, ParseListParams(countryId, level, parentId, pathPrefix).error)
    ensures ParseListParams(countryId, level, parentId, pathPrefix).Ok? && db.fault.Some? ==>
              r == Failure(500, db.fault.value.message)
    ensures ParseListParams(countryId, level, parentId, pathPrefix).Ok? && db.fault.None? ==>
              r.Listing? && r.columns == DivisionColumns
    // every division in scope, only those, as often as stored, ordered by name
    ensures r.Listing? ==>
              var p := ParseListParams(countryId, level, parentId, pathPrefix).value;
              && (forall i :: 0 <= i < |r.rows| ==> InListScope(p, r.rows[i]))
              && (forall d :: multiset(r.rows)[d] == if InListScope(p, d) then multiset(db.divisions)[d] else 0)
              && SortedOn(r.rows, DivisionField, Name)
  {
    match ParseListParams(countryId, level, parentId, pathPrefix)
    case Err(msg) => Failure(400, msg)
    case Ok(p) =>
      ListQueryScope(p);
      ListResponse(Fetch(ListQuery(p), db.divisions, DivisionField, db.fault), DivisionColumns)
  }

  /** An empty `path_prefix` answers as an absent one. */
  lemma EmptyPrefixIsNoPrefix(countryId: string, level: Option<string>, parentId: Option<string>, db: Db)
    ensures ListDivisions(countryId, level, parentId, Some(""), db) == ListDivisions(countryId, level, parentId, None, db)
  {
    assert ParseListParams(countryId, level, parentId, Some("")) == ParseListParams(countryId, level, parentId, None);
  }

  /** The by-id query: the division id, the country id, and not deleted. */
  function ByIdQuery(cid: real, did: real): Query {
    Query(DivisionColumns, [Eq(Id, Num(did)), Eq(CountryId, Num(cid)), NotDeleted], None, None)
  }

  /** The by-id rows: that id, in that country, not deleted. */
  predicate IsLiveMatch(cid: real, did: real, d: AdminDivision) {
    d.id as real == did && d.countryId as real == cid && !d.isDeleted
  }

  lemma ByIdWhere(cid: real, did: real)
    ensures forall d :: Satisfies(ByIdQuery(cid, did).where, DivisionField, d) <==> IsLiveMatch(cid, did, d)
  {
    var q := ByIdQuery(cid, did);
    forall d
      ensures Satisfies(q.where, DivisionField, d) <==> IsLiveMatch(cid, did, d)
    {
      assert q.where[0] == Eq(Id, Num(did)) && q.where[1] == Eq(CountryId, Num(cid)) && q.where[2] == NotDeleted;
    }
  }

  /** `GET /countries/{countryId}/divisions/{divisionId}`. */
  function DivisionById(countryId: string, divisionId: string, db: Db): (r: Response<AdminDivision>)
    // either id non-numeric: one shared 400
    ensures ParseNumber(countryId).None? || ParseNumber(divisionId).None? ==> r == Failure(400, InvalidIdMessage)
    // a returned division has both requested ids, is not deleted and is stored
    ensures r.Single? ==>
              && ParseNumber(divisionId) == Some(r.row.id as real)
              && ParseNumber(countryId) == Some(r.row.countryId as real)
              && !r.row.isDeleted && r.row in db.divisions
    // no live division with that id in that country: 404
    ensures ParseNumber(countryId).Some? && ParseNumber(divisionId).Some? && db.fault.None?
            && (forall d :: d in db.divisions ==> !IsLiveMatch(ParseNumber(countryId).value, ParseNumber(divisionId).value, d)) ==>
              r == Failure(404, NotFoundMessage)
    // with unique ids, the live division is returned
    ensures ParseNumber(countryId).Some? && ParseNumber(divisionId).Some? && db.fault.None? && UniqueIds(db.divisions, DivisionField) ==>
              forall d :: d in db.divisions && IsLiveMatch(ParseNumber(countryId).value, ParseNumber(divisionId).value, d) ==>
                r == Single(d, DivisionColumns)
    ensures ParseNumber(countryId).Some? && ParseNumber(divisionId).Some? && db.fault.Some? ==>
              r == if db.fault.value.code == NoSingleRow then Failure(404, NotFoundMessage)
                   else Failure(500, db.fault.value.message)
  {
    if ParseNumber(countryId).None? || ParseNumber(divisionId).None? then Failure(400, InvalidIdMessage)
    else
      var cid := ParseNumber(countryId).value;
      var did := ParseNumber(divisionId).value;
      var q := ByIdQuery(cid, did);
      ByIdWhere(cid, did);
      PinnedLookup(q, db.divisions, DivisionField, Num(did));
      SingleResponse(FetchSingle(q, db.divisions, DivisionField, db.fault), DivisionColumns)
  }

  /** A division is only reachable under its own country: asking for it under
      another country is a 404. */
  lemma OtherCountryNotFound(countryId: string, divisionId: string, db: Db, d: AdminDivision)
    requires ParseNumber(countryId).Some? && db.fault.None? && UniqueIds(db.divisions, DivisionField)
    requires d in db.divisions && ParseNumber(divisionId) == Some(d.id as real)
    requires ParseNumber(countryId).value != d.countryId as real
    ensures DivisionById(countryId, divisionId, db) == Failure(404, NotFoundMessage)
  {
    var cid := ParseNumber(countryId).value;
    var did := d.id as real;
    forall e | e in db.divisions
      ensures !IsLiveMatch(cid, did, e)
    {
      var i :| 0 <= i < |db.divisions| && db.divisions[i] == e;
      var j :| 0 <= j < |db.divisions| && db.divisions[j] == d;
      if e.id as real == did {
        assert DivisionField(e, Id) == DivisionField(d, Id);
        assert i == j;
      }
    }
  }
}

=== FILE: fields.dfy ===
/** The field projection guard of the Nepal routes: a caller-supplied,
    comma-separated field list is reduced to names from a fixed whitelist, and
    an empty outcome falls back to a route-specific default list. */
module Fields {
  import opened Results
  import opened Text
  import opened Records

  /** The eleven selectable fields (the `field` table). */
  const Whitelist: seq<string> :=
    ["id", "country_id", "parent_id", "name", "name_local", "code", "type",
     "level", "path", "timezone", "rest"]

  /** The intended membership test: one of the eleven names. */
  predicate IsFieldKey(k: string) {
    k in Whitelist
  }

  /** Every whitelisted name is a column of `admin_divisions`, and none
      contains the list separator. */
  lemma WhitelistNamesColumns(k: string)
    requires IsFieldKey(k)
    ensures ColumnNamed(k).Some? && DivisionField(AnyDivision, ColumnNamed(k).value).Some?
    ensures ',' !in k
  {
  }

  /** A witness row; `DivisionField` is defined on a column for every row or
      for none. */
  const AnyDivision := AdminDivision(0, 0, None, "", None, None, "", 0, "", None, None, false, false, false)

  /** Names a plain JavaScript object inherits from `Object.prototype`, which
      the `in` operator also reports as present. */
  const InheritedNames: set<string> :=
    {"constructor", "__proto__", "hasOwnProperty", "isPrototypeOf",
     "propertyIsEnumerable", "toString", "valueOf", "toLocaleString",
     "__defineGetter__", "__defineSetter__", "__lookupGetter__", "__lookupSetter__"}

  /** Which membership test the guard applies. */
  datatype Guard =
    | Intended   // only the eleven whitelisted names
    | AsWritten  // `key in field`, which also admits inherited names

  predicate Admits(g: Guard, k: string) {
    match g
    case Intended => IsFieldKey(k)
    case AsWritten => IsFieldKey(k) || k in InheritedNames
  }

  /** The input's comma-separated tokens, each trimmed. */
  function Tokens(input: string): (r: seq<string>)
    ensures |r| == |Split(input, ',')|
    ensures forall i :: 0 <= i < |r| ==> r[i] == Trim(Split(input, ',')[i])
  {
    TrimEach(Split(input, ','))
  }

  function TrimEach(xs: seq<string>): (r: seq<string>)
    ensures |r| == |xs|
    ensures forall i :: 0 <= i < |r| ==> r[i] == Trim(xs[i])
  {
    if |xs| == 0 then [] else [Trim(xs[0])] + TrimEach(xs[1..])
  }

  /** `a` is `b` with some elements removed, order kept. */
  predicate IsSubsequence(a: seq<string>, b: seq<string>)
    decreases |b|
  {
    |a| == 0 || (|b| > 0 && (if a[0] == b[0] then IsSubsequence(a[1..], b[1..]) else IsSubsequence(a, b[1..])))
  }

  /** The tokens the guard admits, in order, duplicates kept. The empty token
      is never admitted, so `parseSelectFields`' separate filter for empty
      tokens is subsumed. */
  function Admitted(g: Guard, ts: seq<string>): (r: seq<string>)
    ensures forall i :: 0 <= i < |r| ==> Admits(g, r[i])
    ensures |r| <= |ts|
  {
    if |ts| == 0 then []
    else
      var rest := Admitted(g, ts[1..]);
      if Admits(g, ts[0]) then [ts[0]] + rest else rest
  }

  /** Each admitted name is kept as often as it occurs; every other name is
      dropped. */
  lemma {:induction false} AdmittedCounts(g: Guard, ts: seq<string>)
    ensures forall k :: multiset(Admitted(g, ts))[k] == if Admits(g, k) then multiset(ts)[k] else 0
  {
    if |ts| > 0 {
      AdmittedCounts(g, ts[1..]);
      assert ts == [ts[0]] + ts[1..];
    }
  }

  /** The admitted names keep their input order. */
  lemma {:induction false} AdmittedInOrder(g: Guard, ts: seq<string>)
    ensures IsSubsequence(Admitted(g, ts), ts)
  {
    if |ts| > 0 {
      AdmittedInOrder(g, ts[1..]);
    }
  }

  /** The selection `parseSelectFields` computes, as a list, under either
      guard. `fallback` holds admitted names (its type is FieldKey[]). */
  function SelectListUnder(g: Guard, input: Option<string>, fallback: seq<string>): (r: seq<string>)
    requires forall i :: 0 <= i < |fallback| ==> IsFieldKey(fallback[i])
    ensures forall i :: 0 <= i < |r| ==> Admits(g, r[i])
  {
    if input.None? || input.value == "" then fallback
    else
      var valid := Admitted(g, Tokens(input.value));
      if |valid| == 0 then fallback else valid
  }

  /** `parseSelectFields` with the intended eleven-name whitelist. */
  function SelectList(input: Option<string>, fallback: seq<string>): (r: seq<string>)
    requires forall i :: 0 <= i < |fallback| ==> IsFieldKey(fallback[i])
    // absent or empty input: the fallback, unchanged
    ensures input.None? || input.value == "" ==> r == fallback
    // only whitelisted names ever come out
    ensures forall i :: 0 <= i < |r| ==> IsFieldKey(r[i])
    // never an empty selection
    ensures |fallback| > 0 ==> |r| > 0
    // some token is whitelisted: exactly those tokens, trimmed, in order, duplicates kept
    ensures input.Some? && input.value != "" && (exists t :: t in Tokens(input.value) && IsFieldKey(t)) ==>
              && IsSubsequence(r, Tokens(input.value))
              && forall k :: IsFieldKey(k) ==> multiset(r)[k] == multiset(Tokens(input.value))[k]
    // no token is whitelisted: the fallback
    ensures input.Some? && (forall t :: t in Tokens(input.value) ==> !IsFieldKey(t)) ==> r == fallback
  {
    if input.Some? && input.value != "" then
      AdmittedWhenSomeTokenValid(Tokens(input.value));
      AdmittedCounts(Intended, Tokens(input.value));
      AdmittedInOrder(Intended, Tokens(input.value));
      SelectListUnder(Intended, input, fallback)
    else
      SelectListUnder(Intended, input, fallback)
  }

  /** The admitted list is empty exactly when no token is whitelisted. */
  lemma AdmittedWhenSomeTokenValid(ts: seq<string>)
    ensures (exists t :: t in ts && IsFieldKey(t)) <==> |Admitted(Intended, ts)| > 0
  {
    var valid := Admitted(Intended, ts);
    AdmittedCounts(Intended, ts);
    if t :| t in ts && IsFieldKey(t) {
      assert multiset(ts)[t] > 0;
      assert multiset(valid)[t] > 0;
    }
    if |valid| > 0 {
      assert multiset(valid)[valid[0]] > 0;
      assert valid[0] in ts;
    }
  }

  /** `parseSelectFields` itself: the selection joined with commas. */
  function ParseSelectFields(input: Option<string>, fallback: seq<string>): (r: string)
    requires forall i :: 0 <= i < |fallback| ==> IsFieldKey(fallback[i])
    ensures |fallback| > 0 ==> Split(r, ',') == SelectList(input, fallback)
  {
    var names := SelectList(input, fallback);
    if |fallback| > 0 then
      NoSeparatorInSelection(names);
      SplitOfJoin(names, ',');
      Join(names, ',')
    else
      Join(names, ',')
  }

  lemma NoSeparatorInSelection(names: seq<string>)
    requires forall i :: 0 <= i < |names| ==> IsFieldKey(names[i])
    ensures forall i :: 0 <= i < |names| ==> ',' !in names[i]
  {
    forall i | 0 <= i < |names|
      ensures ',' !in names[i]
    {
      WhitelistNamesColumns(names[i]);
    }
  }

  lemma {:induction false} TrimEachAppend(a: seq<string>, b: seq<string>)
    ensures TrimEach(a + b) == TrimEach(a) + TrimEach(b)
  {
    if |a| == 0 {
      assert a + b == b;
    } else {
      assert (a + b)[0] == a[0] && (a + b)[1..] == a[1..] + b;
      TrimEachAppend(a[1..], b);
    }
  }

  /** The guard filters each part of a concatenation on its own. */
  lemma {:induction false} AdmittedAppend(g: Guard, a: seq<string>, b: seq<string>)
    ensures Admitted(g, a + b) == Admitted(g, a) + Admitted(g, b)
  {
    if |a| == 0 {
      assert a + b == b;
    } else {
      AdmittedAppend(g, a[1..], b);
      AdmittedAppendStep(g, a, b);
    }
  }

  /** The step of `AdmittedAppend`: one more name in front of `a`. */
  lemma AdmittedAppendStep(g: Guard, a: seq<string>, b: seq<string>)
    requires |a| > 0 && Admitted(g, a[1..] + b) == Admitted(g, a[1..]) + Admitted(g, b)
    ensures Admitted(g, a + b) == Admitted(g, a) + Admitted(g, b)
  {
    var head: seq<string> := if Admits(g, a[0]) then [a[0]] else [];
    ConsAppend(a, b);
    AdmittedCons(g, a + b);
    AdmittedCons(g, a);
    Associative(head, Admitted(g, a[1..]), Admitted(g, b));
  }

  lemma ConsAppend<T>(a: seq<T>, b: seq<T>)
    requires |a| > 0
    ensures (a + b)[0] == a[0] && (a + b)[1..] == a[1..] + b
  {
  }

  lemma Associative<T>(x: seq<T>, y: seq<T>, z: seq<T>)
    ensures x + (y + z) == (x + y) + z
  {
  }

  lemma AdmittedCons(g: Guard, ts: seq<string>)
    requires |ts| > 0
    ensures Admitted(g, ts) == (if Admits(g, ts[0]) then [ts[0]] else []) + Admitted(g, ts[1..])
  {
  }

  /** A list the guard admits throughout passes through unchanged. */
  lemma {:induction false} AdmittedAll(g: Guard, ts: seq<string>)
    requires forall i :: 0 <= i < |ts| ==> Admits(g, ts[i])
    ensures Admitted(g, ts) == ts
  {
    if |ts| > 0 {
      AdmittedAll(g, ts[1..]);
    }
  }

  /** `SelectList` is the selection under the intended guard. */
  lemma SelectListIsUnder(input: Option<string>, fallback: seq<string>)
    requires forall i :: 0 <= i < |fallback| ==> IsFieldKey(fallback[i])
    ensures SelectList(input, fallback) == SelectListUnder(Intended, input, fallback)
  {
  }

  /** Field text with `,rest` appended selects the text's whitelisted names,
      in order, followed by `rest`; the fallback can no longer apply. */
  lemma WithRest(base: string, fallback: seq<string>)
    requires forall i :: 0 <= i < |fallback| ==> IsFieldKey(fallback[i])
    ensures SelectList(Some(base + ",rest"), fallback) == Admitted(Intended, Tokens(base)) + ["rest"]
  {
    SelectListIsUnder(Some(base + ",rest"), fallback);
    TokensWithRest(base);
    AdmittedWithRest(Tokens(base));
  }

  lemma TokensWithRest(base: string)
    ensures Tokens(base + ",rest") == Tokens(base) + ["rest"]
  {
    assert base + ",rest" == base + [','] + "rest";
    SplitAround(base, "rest", ',');
    SplitWithoutSeparator("rest", ',');
    TrimOfTrimmed("rest");
    TrimEachAppend(Split(base, ','), ["rest"]);
    assert TrimEach(["rest"]) == ["rest"];
  }

  lemma AdmittedWithRest(ts: seq<string>)
    ensures Admitted(Intended, ts + ["rest"]) == Admitted(Intended, ts) + ["rest"]
  {
    AdmittedAppend(Intended, ts, ["rest"]);
    assert Admitted(Intended, ["rest"]) == ["rest"];
  }

  /** A whitelisted list, comma-joined, splits back into itself. */
  lemma TokensOfWhitelisted(names: seq<string>)
    requires |names| > 0 && forall i :: 0 <= i < |names| ==> IsFieldKey(names[i])
    ensures Tokens(Join(names, ',')) == names && Join(names, ',') != ""
  {
    WhitelistedPieces(names);
    TokensOfJoined(names);
  }

  /** Field text whose every token is whitelisted selects its tokens. */
  lemma SelectAllValid(s: string, fallback: seq<string>)
    requires s != "" && forall i :: 0 <= i < |Tokens(s)| ==> IsFieldKey(Tokens(s)[i])
    requires forall i :: 0 <= i < |fallback| ==> IsFieldKey(fallback[i])
    ensures SelectList(Some(s), fallback) == Tokens(s)
  {
    SelectListIsUnder(Some(s), fallback);
    AdmittedAll(Intended, Tokens(s));
  }

  lemma WhitelistedPieces(names: seq<string>)
    requires forall i :: 0 <= i < |names| ==> IsFieldKey(names[i])
    ensures forall i :: 0 <= i < |names| ==> ',' !in names[i] && Trim(names[i]) == names[i] && names[i] != ""
  {
    forall i | 0 <= i < |names|
      ensures ',' !in names[i] && Trim(names[i]) == names[i] && names[i] != ""
    {
      WhitelistNamesColumns(names[i]);
      WhitelistTrimmed(names[i]);
    }
  }

  /** Whitelisted names have no surrounding white space. */
  lemma WhitelistTrimmed(k: string)
    requires IsFieldKey(k)
    ensures Trim(k) == k && k != ""
  {
    TrimOfTrimmed(k);
  }

  lemma TokensOfJoined(names: seq<string>)
    requires |names| > 0
    requires forall i :: 0 <= i < |names| ==> ',' !in names[i] && Trim(names[i]) == names[i] && names[i] != ""
    ensures Tokens(Join(names, ',')) == names
    ensures Join(names, ',') != ""
  {
    SplitOfJoin(names, ',');
    var ts := Tokens(Join(names, ','));
    assert forall i :: 0 <= i < |ts| ==> ts[i] == names[i];
  }

  /** The guard as written lets an inherited name through: `fields=constructor`
      selects `constructor`, which is no column, instead of falling back. */
  lemma InheritedFieldSelected(fallback: seq<string>)
    requires forall i :: 0 <= i < |fallback| ==> IsFieldKey(fallback[i])
    ensures SelectListUnder(AsWritten, Some("constructor"), fallback) == ["constructor"]
    ensures ColumnNamed("constructor").None? && !IsFieldKey("constructor")
    ensures SelectList(Some("constructor"), fallback) == fallback
  {
    var k := "constructor";
    SingleToken(k);
    NotWhitelisted(k);
    SingleSelection(AsWritten, k, fallback);
    SingleSelection(Intended, k, fallback);
  }

  /** A single-token field text selects that token when the guard admits it
      and the fallback otherwise. */
  lemma SingleSelection(g: Guard, k: string, fallback: seq<string>)
    requires forall i :: 0 <= i < |fallback| ==> IsFieldKey(fallback[i])
    requires k != "" && Tokens(k) == [k]
    ensures SelectListUnder(g, Some(k), fallback) == if Admits(g, k) then [k] else fallback
  {
    AdmittedCons(g, [k]);
  }

  /** A name without separator or surrounding white space is one token. */
  lemma SingleToken(k: string)
    requires ',' !in k && |k| > 0 && !IsSpace(k[0]) && !IsSpace(k[|k| - 1])
    ensures Tokens(k) == [k]
  {
    SplitWithoutSeparator(k, ',');
    TrimOfTrimmed(k);
  }

  lemma NotWhitelisted(k: string)
    requires k == "constructor"
    ensures !IsFieldKey(k) && ColumnNamed(k).None? && k in InheritedNames
  {
    assert k[0] == 'c' && k[1] == 'o';
  }
}

=== FILE: np_location.dfy ===
/** The Nepal routes (`/province`, `/district/{parentId}`, `/city/{parentId}`,
    `/search/{type}` and `/search/{type}/{parentId}`): listings of one level of
    the hierarchy of country 1, with a caller-chosen field projection and an
    optional name prefix, and a search that delegates to a store procedure and
    projects its rows. */
module NpLocation {
  import opened Results
  import opened Text
  import opened Records
  import opened Numbers
  import opened Patterns
  import opened Query
  import opened Store
  import opened Fields
  import SearchRoute

  /** Rows per child listing and per search (`LIMIT`). */
  const Limit: nat := 8
  /** The country every Nepal route is pinned to (`cid`). */
  const NepalId := 1
  /** Longest search text still used as a name prefix. */
  const MaxNamePrefix := 10
  const InvalidTypeMessage := "invalid type"

  const ProvinceLevel := 1
  const DistrictLevel := 2
  const CityLevel := 3

  /** The province route's default projection. */
  const ProvinceFallback: seq<string> := ["id", "country_id", "code", "level", "name"]
  /** The default projection of the child and search routes (`defaultSelect`). */
  const DefaultSelect: seq<string> := ["id", "country_id", "level", "name"]
  /** `defaultSelect.toString()`. */
  const DefaultSelectText := "id,country_id,level,name"

  /** The type table (`levelStru`): each route type and its level. */
  function LevelOf(kind: string): (r: Option<int>)
    ensures r.Some? <==> kind in {"province", "district", "city"}
    ensures r.Some? ==> ProvinceLevel <= r.value <= CityLevel
  {
    if kind == "province" then Some(ProvinceLevel)
    else if kind == "district" then Some(DistrictLevel)
    else if kind == "city" then Some(CityLevel)
    else None
  }

  /** Distinct types have distinct levels. */
  lemma LevelOfInjective(a: string, b: string)
    requires LevelOf(a).Some? && LevelOf(a) == LevelOf(b)
    ensures a == b
  {
  }

  /** What `levelStru[type]` yields as written: an own entry, a member
      inherited from `Object.prototype`, or undefined. */
  datatype LevelLookup = Own(level: int) | Inherited | Absent

  function LevelLookupAsWritten(kind: string): LevelLookup {
    match LevelOf(kind)
    case Some(l) => Own(l)
    case None => if kind in InheritedNames then Inherited else Absent
  }

  /** `!level` rejects only undefined: own levels are 1 to 3, and inherited
      members are functions or objects, all truthy. */
  predicate PassesTypeGuard(l: LevelLookup) {
    !l.Absent?
  }

  /** As written, the type guard lets through the three types and every
      inherited name; the intended table admits only the three types. */
  lemma TypeGuardAsWritten(kind: string)
    ensures PassesTypeGuard(LevelLookupAsWritten(kind)) <==> LevelOf(kind).Some? || kind in InheritedNames
    ensures LevelLookupAsWritten(kind).Own? ==> LevelOf(kind) == Some(LevelLookupAsWritten(kind).level)
  {
  }

  /** `type=constructor` passes the guard as written but is not a type. */
  lemma InheritedTypePasses()
    ensures PassesTypeGuard(LevelLookupAsWritten("constructor"))
    ensures LevelOf("constructor").None?
  {
    assert "constructor" in InheritedNames;
  }

  /** `c.req.query("field")?.trim()`. */
  function FieldParam(field: Option<string>): (r: Option<string>)
    ensures r.Some? <==> field.Some?
    ensures r.Some? ==> r.value == Trim(field.value)
  {
    match field
    case Some(s) => Some(Trim(s))
    case None => None
  }

  /** The name filter's prefix: only search text that is present, non-empty
      and at most ten characters long filters; other text is dropped without
      an error. */
  function NamePrefix(search: Option<string>): (r: Option<string>)
    ensures r.Some? <==> search.Some? && 0 < |search.value| <= MaxNamePrefix
    ensures r.Some? ==> r == search
  {
    match search
    case Some(s) => if s != "" && |s| <= MaxNamePrefix then Some(s) else None
    case None => None
  }

  /** A listing of one level: its parent (for the child routes), its level,
      the optional name prefix and the optional limit. */
  datatype Scope = Scope(parent: Option<real>, level: int, namePrefix: Option<string>, limit: Option<nat>)

  /** The rows a listing means: in country 1, at the level, not deleted,
      under the parent when given, and with a name matching the prefix
      pattern when given. */
  predicate InScope(s: Scope, d: AdminDivision) {
    && d.countryId == NepalId
    && d.level == s.level
    && !d.isDeleted
    && (s.parent.Some? ==> d.parentId.Some? && d.parentId.value as real == s.parent.value)
    && (s.namePrefix.Some? ==> FilterLike(s.namePrefix.value + "%", d.name))
  }

  function ParentPreds(s: Scope): seq<Pred> {
    match s.parent
    case None => []
    case Some(p) => [Eq(ParentId, Num(p))]
  }

  function NamePreds(s: Scope): seq<Pred> {
    match s.namePrefix
    case None => []
    case Some(n) => [Like(Name, n + "%")]
  }

  /** The query a listing sends, ordered by name. */
  function ScopeQuery(s: Scope, select: seq<string>): Query {
    Query(select,
          ParentPreds(s) + [Eq(Level, Num(s.level as real)), Eq(CountryId, Num(NepalId as real)), NotDeleted] + NamePreds(s),
          Some(Name), s.limit)
  }

  /** The chained filters hold of a row exactly when it is in scope. */
  lemma ScopeRow(s: Scope, select: seq<string>, d: AdminDivision)
    ensures Satisfies(ScopeQuery(s, select).where, DivisionField, d) <==> InScope(s, d)
  {
    var fixed: seq<Pred> := [Eq(Level, Num(s.level as real)), Eq(CountryId, Num(NepalId as real)), NotDeleted];
    SatisfiesAppend(ParentPreds(s) + fixed, NamePreds(s), DivisionField, d);
    SatisfiesAppend(ParentPreds(s), fixed, DivisionField, d);
    assert Satisfies(fixed, DivisionField, d) <==> d.level == s.level && d.countryId == NepalId && !d.isDeleted by {
      assert fixed[0] == Eq(Level, Num(s.level as real));
      assert fixed[1] == Eq(CountryId, Num(NepalId as real));
      assert fixed[2] == NotDeleted;
    }
    if s.parent.Some? {
      assert ParentPreds(s)[0] == Eq(ParentId, Num(s.parent.value));
    }
    if s.namePrefix.Some? {
      assert NamePreds(s)[0] == Like(Name, s.namePrefix.value + "%");
    }
  }

  /** A name prefix free of wildcards keeps exactly the names that start
      with it. */
  lemma PlainNamePrefix(s: Scope, d: AdminDivision)
    requires s.namePrefix.Some? && NoWildcards(s.namePrefix.value)
    ensures InScope(s, d) <==> InScope(s.(namePrefix := None), d) && s.namePrefix.value <= d.name
  {
    FilterLikePrefix(s.namePrefix.value, d.name);
  }

  /** What a listing returns, in terms of its scope. */
  ghost predicate Answers(s: Scope, rows: seq<AdminDivision>, found: seq<AdminDivision>) {
    // only stored rows in scope, within the limit, ordered by name
    && (forall i :: 0 <= i < |found| ==> InScope(s, found[i]))
    && (s.limit.Some? ==> |found| <= s.limit.value)
    && multiset(found) <= multiset(rows)
    && SortedOn(found, DivisionField, Name)
    // no limit, or fewer rows than the limit: every row in scope
    && (s.limit.None? || |found| < s.limit.value ==>
          forall d :: multiset(found)[d] == if InScope(s, d) then multiset(rows)[d] else 0)
    // a row in scope is left out only if its name sorts after every returned one
    && (forall d, i :: d in rows && InScope(s, d) && d !in found && 0 <= i < |found| ==>
          StrLe(found[i].name, d.name))
  }

  lemma ScopeEval(s: Scope, select: seq<string>, rows: seq<AdminDivision>)
    ensures Answers(s, rows, Eval(ScopeQuery(s, select), rows, DivisionField))
  {
    ScopeSound(s, select, rows);
    ScopeComplete(s, select, rows);
    ScopeCutAfter(s, select, rows);
  }

  lemma ScopeSound(s: Scope, select: seq<string>, rows: seq<AdminDivision>)
    ensures var found := Eval(ScopeQuery(s, select), rows, DivisionField);
            forall i :: 0 <= i < |found| ==> InScope(s, found[i])
  {
    var found := Eval(ScopeQuery(s, select), rows, DivisionField);
    forall i | 0 <= i < |found|
      ensures InScope(s, found[i])
    {
      ScopeRow(s, select, found[i]);
    }
  }

  lemma ScopeComplete(s: Scope, select: seq<string>, rows: seq<AdminDivision>)
    ensures var found := Eval(ScopeQuery(s, select), rows, DivisionField);
            s.limit.None? || |found| < s.limit.value ==>
              forall d :: multiset(found)[d] == if InScope(s, d) then multiset(rows)[d] else 0
  {
    var found := Eval(ScopeQuery(s, select), rows, DivisionField);
    forall d
      ensures s.limit.None? || |found| < s.limit.value ==>
                multiset(found)[d] == if InScope(s, d) then multiset(rows)[d] else 0
    {
      ScopeRow(s, select, d);
    }
  }

  lemma ScopeCutAfter(s: Scope, select: seq<string>, rows: seq<AdminDivision>)
    ensures var found := Eval(ScopeQuery(s, select), rows, DivisionField);
            forall d, i :: d in rows && InScope(s, d) && d !in found && 0 <= i < |found| ==>
              StrLe(found[i].name, d.name)
  {
    var q := ScopeQuery(s, select);
    var found := Eval(q, rows, DivisionField);
    forall d, i | d in rows && InScope(s, d) && d !in found && 0 <= i < |found|
      ensures StrLe(found[i].name, d.name)
    {
      ScopeRow(s, select, d);
      EvalCutAfter(q, rows, DivisionField, d, i);
      NameKey(found[i]);
      NameKey(d);
    }
  }

  /** Ordering on the name column orders by the name itself. */
  lemma NameKey(d: AdminDivision)
    ensures OrderKey(DivisionField, Name, d) == d.name
  {
  }

  /** One listing: the scoped query under a select list, with store errors
      answered as a 500. */
  function ListIn(s: Scope, select: seq<string>, db: Db): (r: Response<AdminDivision>)
    ensures db.fault.Some? ==> r == Failure(500, db.fault.value.message)
    ensures db.fault.None? ==> r.Listing? && r.columns == select
    ensures r.Listing? ==> Answers(s, db.divisions, r.rows)
  {
    ScopeEval(s, select, db.divisions);
    ListResponse(Fetch(ScopeQuery(s, select), db.divisions, DivisionField, db.fault), select)
  }

  /** The select list the store receives: `parseSelectFields`'s text split
      at its commas. */
  function Selection(input: Option<string>, fallback: seq<string>): (r: seq<string>)
    requires |fallback| > 0 && forall i :: 0 <= i < |fallback| ==> IsFieldKey(fallback[i])
    ensures r == SelectList(input, fallback)
  {
    Split(ParseSelectFields(input, fallback), ',')
  }

  function ProvinceScope(search: Option<string>): Scope {
    Scope(None, ProvinceLevel, NamePrefix(search), None)
  }

  /** `GET /province`. */
  function Province(search: Option<string>, field: Option<string>, db: Db): (r: Response<AdminDivision>)
    ensures db.fault.Some? ==> r == Failure(500, db.fault.value.message)
    // the projection is the whitelisted fields asked for, else the province default
    ensures db.fault.None? ==> r.Listing? && r.columns == SelectList(FieldParam(field), ProvinceFallback)
    // every live province of country 1 (matching the name prefix when it applies), ordered by name
    ensures r.Listing? ==> Answers(ProvinceScope(search), db.divisions, r.rows)
  {
    ListIn(ProvinceScope(search), Selection(FieldParam(field), ProvinceFallback), db)
  }

  /** `fun`: the children of `pid` at `level`, at most eight. */
  function ChildList(pid: real, level: int, search: Option<string>, fieldPrefix: Option<string>, db: Db): (r: Response<AdminDivision>)
    ensures db.fault.Some? ==> r == Failure(500, db.fault.value.message)
    ensures db.fault.None? ==> r.Listing? && r.columns == SelectList(fieldPrefix, DefaultSelect)
    ensures r.Listing? ==> Answers(Scope(Some(pid), level, NamePrefix(search), Some(Limit)), db.divisions, r.rows)
  {
    ListIn(Scope(Some(pid), level, NamePrefix(search), Some(Limit)), Selection(fieldPrefix, DefaultSelect), db)
  }

  /** `GET /district/{parentId}`. */
  function District(parentId: string, search: Option<string>, field: Option<string>, db: Db): (r: Response<AdminDivision>)
    ensures ParseNumber(parentId).None? ==> r == Failure(400, InvalidIdMessage)
    ensures ParseNumber(parentId).Some? && db.fault.Some? ==> r == Failure(500, db.fault.value.message)
    ensures ParseNumber(parentId).Some? && db.fault.None? ==>
              r.Listing? && r.columns == SelectList(FieldParam(field), DefaultSelect)
    // live districts of country 1 under that province, at most eight, ordered by name
    ensures r.Listing? ==>
              Answers(Scope(ParseNumber(parentId), DistrictLevel, NamePrefix(search), Some(Limit)), db.divisions, r.rows)
  {
    match ParseNumber(parentId)
    case None => Failure(400, InvalidIdMessage)
    case Some(pid) => ChildList(pid, DistrictLevel, search, FieldParam(field), db)
  }

  /** The city route's field text before `,rest` is appended: the trimmed
      `field`, or the default list's text when absent. */
  function CityFieldText(field: Option<string>): string {
    FieldParam(field).GetOr(DefaultSelectText)
  }

  /** `GET /city/{parentId}`. */
  function City(parentId: string, search: Option<string>, field: Option<string>, db: Db): (r: Response<AdminDivision>)
    ensures ParseNumber(parentId).None? ==> r == Failure(400, InvalidIdMessage)
    ensures ParseNumber(parentId).Some? && db.fault.Some? ==> r == Failure(500, db.fault.value.message)
    // `rest` is always selected, after the whitelisted fields asked for; the fallback never applies
    ensures ParseNumber(parentId).Some? && db.fault.None? ==>
              r.Listing? && r.columns == Admitted(Intended, Tokens(CityFieldText(field))) + ["rest"]
    ensures r.Listing? ==>
              Answers(Scope(ParseNumber(parentId), CityLevel, NamePrefix(search), Some(Limit)), db.divisions, r.rows)
  {
    match ParseNumber(parentId)
    case None => Failure(400, InvalidIdMessage)
    case Some(pid) =>
      WithRest(CityFieldText(field), DefaultSelect);
      ChildList(pid, CityLevel, search, Some(CityFieldText(field) + ",rest"), db)
  }

  /** With no `field`, a city listing selects the default fields and `rest`. */
  lemma CityDefaultColumns(parentId: string, search: Option<string>, db: Db)
    requires ParseNumber(parentId).Some? && db.fault.None?
    ensures City(parentId, search, None, db).columns == DefaultSelect + ["rest"]
  {
    DefaultTextSelectsDefault();
    TokensOfWhitelisted(DefaultSelect);
    AdmittedAll(Intended, DefaultSelect);
  }

  /** A `field` naming no whitelisted field (empty included) selects only
      `rest`. */
  lemma CityOnlyRest(parentId: string, search: Option<string>, field: string, db: Db)
    requires ParseNumber(parentId).Some? && db.fault.None?
    requires forall t :: t in Tokens(Trim(field)) ==> !IsFieldKey(t)
    ensures City(parentId, search, Some(field), db).columns == ["rest"]
  {
    AdmittedWhenSomeTokenValid(Tokens(Trim(field)));
  }

  /** A search text that does not qualify as a prefix lists as if absent. */
  lemma UnusedSearchIgnored(parentId: string, search: Option<string>, field: Option<string>, db: Db)
    requires NamePrefix(search).None?
    ensures Province(search, field, db) == Province(None, field, db)
    ensures District(parentId, search, field, db) == District(parentId, None, field, db)
    ensures City(parentId, search, field, db) == City(parentId, None, field, db)
  {
  }

  /** The default list's text selects the default list. */
  lemma DefaultTextSelectsDefault()
    ensures Tokens(DefaultSelectText) == DefaultSelect
    ensures SelectList(Some(DefaultSelectText), DefaultSelect) == DefaultSelect
  {
    DefaultTextIsJoin();
    DefaultWhitelisted();
    TokensOfWhitelisted(DefaultSelect);
    SelectAllValid(DefaultSelectText, DefaultSelect);
  }

  lemma DefaultTextIsJoin()
    ensures DefaultSelectText == Join(DefaultSelect, ',')
  {
    var xs := DefaultSelect;
    JoinCons(xs, ',');
    JoinCons(xs[1..], ',');
    JoinCons(xs[1..][1..], ',');
    assert xs[1..][1..][1..] == ["name"];
  }

  lemma DefaultWhitelisted()
    ensures forall i :: 0 <= i < |DefaultSelect| ==> IsFieldKey(DefaultSelect[i])
  {
  }

  // ---------------------------------------------------------------------
  // Search routes

  /** The arguments of the search procedures. */
  datatype SearchArgs = SearchArgs(search: string, lvl: int, cid: int, lim: nat, parent: Option<real>)

  /** A store search procedure: its rows as JSON objects, or an error. Its
      ranking and filtering are not part of this model. */
  type SearchProc = SearchArgs -> Result<seq<map<string, Value>>, StoreError>

  /** One row reduced to the keys both in the pick list and in the row. */
  function Pick(item: map<string, Value>, keys: seq<string>): (r: map<string, Value>)
    ensures forall k :: k in r <==> k in keys && k in item
    ensures forall k :: k in r ==> r[k] == item[k]
  {
    map k | k in item && k in keys :: item[k]
  }

  /** Every row, picked. */
  function PickAll(data: seq<map<string, Value>>, keys: seq<string>): (r: seq<map<string, Value>>)
    ensures |r| == |data|
    ensures forall i :: 0 <= i < |r| ==> r[i] == Pick(data[i], keys)
  {
    seq(|data|, i requires 0 <= i < |data| => Pick(data[i], keys))
  }

  /** The procedure's outcome as the response the route intends: a store
      error is a 500 carrying its message. */
  function Finish(outcome: Result<seq<map<string, Value>>, StoreError>, keys: seq<string>): (r: Response<map<string, Value>>)
    ensures outcome.Err? ==> r == Failure(500, outcome.error.message)
    ensures outcome.Ok? ==> r.Listing? && r.columns == keys && r.rows == PickAll(outcome.value, keys)
  {
    match outcome
    case Err(e) => Failure(500, e.message)
    case Ok(data) => Listing(PickAll(data, keys), keys)
  }

  /** The route's result as written: an answer, or an exception thrown out
      of the handler. */
  datatype Outcome = Answered(response: Response<map<string, Value>>) | Thrown

  /** The procedure's outcome as written: the rows are mapped before the
      error is looked at, and a failed call has no rows, so mapping them
      throws. */
  function FinishAsWritten(outcome: Result<seq<map<string, Value>>, StoreError>, keys: seq<string>): Outcome {
    match outcome
    case Err(_) => Thrown
    case Ok(data) => Answered(Listing(PickAll(data, keys), keys))
  }

  /** A failed procedure call throws as written, where a 500 is intended;
      a successful one answers the same either way. */
  lemma StoreErrorThrows(outcome: Result<seq<map<string, Value>>, StoreError>, keys: seq<string>)
    ensures outcome.Err? ==> FinishAsWritten(outcome, keys) == Thrown && Finish(outcome, keys).Failure?
    ensures outcome.Ok? ==> FinishAsWritten(outcome, keys) == Answered(Finish(outcome, keys))
  {
  }

  /** The fields picked by `/search/{type}`: `rest` in front for cities, an
      empty key (which no row has) otherwise. */
  function UnscopedKeys(kind: string, field: Option<string>): seq<string> {
    [if kind == "city" then "rest" else ""] + SelectList(FieldParam(field), DefaultSelect)
  }

  /** The fields picked by `/search/{type}/{parentId}`: always `rest` in
      front; an absent `field` is replaced by the default list's text. */
  function ScopedKeys(field: Option<string>): seq<string> {
    ["rest"] + SelectList(Some(CityFieldText(field)), DefaultSelect)
  }

  /** Unscoped search picks `rest` only for cities or when asked for; every
      other key is whitelisted or the empty key. */
  lemma UnscopedKeysFacts(kind: string, field: Option<string>)
    ensures "rest" in UnscopedKeys(kind, field) <==> kind == "city" || "rest" in SelectList(FieldParam(field), DefaultSelect)
    ensures forall k :: k in UnscopedKeys(kind, field) ==> IsFieldKey(k) || k == ""
  {
    var fields := SelectList(FieldParam(field), DefaultSelect);
    assert UnscopedKeys(kind, field)[1..] == fields;
    assert IsFieldKey("rest");
  }

  /** Scoped search always picks `rest`, and otherwise the same fields as
      unscoped search: replacing an absent `field` by the default list's text
      changes nothing. */
  lemma ScopedKeysFacts(field: Option<string>)
    ensures "rest" in ScopedKeys(field)
    ensures ScopedKeys(field) == ["rest"] + SelectList(FieldParam(field), DefaultSelect)
    ensures forall k :: k in ScopedKeys(field) ==> IsFieldKey(k)
  {
    if field.None? {
      DefaultTextSelectsDefault();
    }
    assert ScopedKeys(field)[0] == "rest";
    assert IsFieldKey("rest");
  }

  /** `GET /search/{type}`. */
  function NpSearch(kind: string, q: Option<string>, field: Option<string>, proc: SearchProc): (r: Response<map<string, Value>>)
    // the search text is checked first, the type second
    ensures SearchRoute.SearchText(q).None? ==> r == Failure(400, ShortQueryMessage)
    ensures SearchRoute.SearchText(q).Some? && LevelOf(kind).None? ==> r == Failure(400, InvalidTypeMessage)
    // the procedure gets the trimmed text, the type's level, country 1 and the limit
    ensures SearchRoute.SearchText(q).Some? && LevelOf(kind).Some? ==>
              var out := proc(SearchArgs(Trim(q.value), LevelOf(kind).value, NepalId, Limit, None));
              && (out.Err? ==> r == Failure(500, out.error.message))
              && (out.Ok? ==>
                    && r.Listing? && |r.rows| == |out.value|
                    && forall i :: 0 <= i < |r.rows| ==> r.rows[i] == Pick(out.value[i], UnscopedKeys(kind, field)))
  {
    match SearchRoute.SearchText(q)
    case None => Failure(400, ShortQueryMessage)
    case Some(t) =>
      var keys := UnscopedKeys(kind, field);
      match LevelOf(kind)
      case None => Failure(400, InvalidTypeMessage)
      case Some(level) => Finish(proc(SearchArgs(t, level, NepalId, Limit, None)), keys)
  }

  /** `GET /search/{type}/{parentId}`. */
  function NpSearchUnder(kind: string, parentId: string, q: Option<string>, field: Option<string>, proc: SearchProc): (r: Response<map<string, Value>>)
    // the parent id is checked first, then the search text, then the type
    ensures ParseNumber(parentId).None? ==> r == Failure(400, InvalidIdMessage)
    ensures ParseNumber(parentId).Some? && SearchRoute.SearchText(q).None? ==> r == Failure(400, ShortQueryMessage)
    ensures ParseNumber(parentId).Some? && SearchRoute.SearchText(q).Some? && LevelOf(kind).None? ==>
              r == Failure(400, InvalidTypeMessage)
    // the procedure also gets the parent id
    ensures ParseNumber(parentId).Some? && SearchRoute.SearchText(q).Some? && LevelOf(kind).Some? ==>
              var out := proc(SearchArgs(Trim(q.value), LevelOf(kind).value, NepalId, Limit, ParseNumber(parentId)));
              && (out.Err? ==> r == Failure(500, out.error.message))
              && (out.Ok? ==>
                    && r.Listing? && |r.rows| == |out.value|
                    && forall i :: 0 <= i < |r.rows| ==> r.rows[i] == Pick(out.value[i], ScopedKeys(field)))
  {
    match ParseNumber(parentId)
    case None => Failure(400, InvalidIdMessage)
    case Some(pid) =>
      match SearchRoute.SearchText(q)
      case None => Failure(400, ShortQueryMessage)
      case Some(t) =>
        var keys := ScopedKeys(field);
        match LevelOf(kind)
        case None => Failure(400, InvalidTypeMessage)
        case Some(level) => Finish(proc(SearchArgs(t, level, NepalId, Limit, Some(pid))), keys)
  }
}

=== FILE: numbers.dfy ===
/** The routes turn path and query parameters into numbers with JavaScript's
    `Number(...)` and reject only NaN. This module models that conversion for
    decimal text: surrounding white space is ignored, blank text is 0, an
    optional sign is followed by digits with an optional fractional part.
    Anything else is NaN (None). */
module Numbers {
  import opened Results
  import opened Text

  predicate IsDigit(c: char) {
    '0' <= c <= '9'
  }

  predicate AllDigits(s: string) {
    forall i :: 0 <= i < |s| ==> IsDigit(s[i])
  }

  function DigitValue(c: char): nat
    requires IsDigit(c)
  {
    (c as int - '0' as int) as nat
  }

  /** The value of a digit string read in base ten. */
  function DigitsValue(s: string): nat
    requires AllDigits(s)
  {
    if |s| == 0 then 0 else DigitsValue(s[..|s| - 1]) * 10 + DigitValue(s[|s| - 1])
  }

  function Pow10(n: nat): (r: nat)
    ensures r >= 1
  {
    if n == 0 then 1 else 10 * Pow10(n - 1)
  }

  /** `n / d` as a real number. */
  function Ratio(n: nat, d: nat): real
    requires d >= 1
  {
    n as real / d as real
  }

  /** Unsigned decimal text: `digits`, `digits.`, `.digits` or
      `digits.digits`. */
  function ParseUnsigned(b: string): Option<real> {
    var dot := IndexOf(b, '.');
    if dot == -1 then
      if |b| > 0 && AllDigits(b) then Some(DigitsValue(b) as real) else None
    else
      var whole := b[..dot];
      var frac := b[dot + 1..];
      if |whole| + |frac| > 0 && AllDigits(whole) && AllDigits(frac) then
        Some(DigitsValue(whole) as real + Ratio(DigitsValue(frac), Pow10(|frac|)))
      else None
  }

  /** `Number(s)`, with None for NaN. */
  function ParseNumber(s: string): Option<real> {
    var t := Trim(s);
    if t == "" then Some(0.0)
    else
      match ParseUnsigned(Unsigned(t))
      case None => None
      case Some(v) => Some(if t[0] == '-' then -v else v)
  }

  /** The text after an optional leading sign. */
  function Unsigned(t: string): (r: string)
    requires t != ""
    ensures |r| <= |t| && |t| - |r| <= 1 && r == t[|t| - |r|..]
    ensures |t| - |r| == 1 <==> t[0] == '-' || t[0] == '+'
  {
    if t[0] == '-' || t[0] == '+' then t[1..] else t
  }

  /** Blank text reads as 0; any other accepted text holds a digit, and text
      holding a letter is NaN. */
  lemma ParseNumberFacts(s: string)
    ensures Trim(s) == "" ==> ParseNumber(s) == Some(0.0)
    ensures ParseNumber(s).Some? && Trim(s) != "" ==> exists i :: 0 <= i < |Trim(s)| && IsDigit(Trim(s)[i])
    ensures (exists i :: 0 <= i < |Trim(s)| && 'a' <= Lower(Trim(s))[i] <= 'z') ==> ParseNumber(s).None?
  {
    var t := Trim(s);
    if t != "" && ParseUnsigned(Unsigned(t)).Some? {
      AcceptedChars(t);
      NoLetterLowered(t);
    }
  }

  /** `Number("")` is 0. */
  lemma ParseNumberOfBlank()
    ensures ParseNumber("") == Some(0.0)
  {
    assert Trim("") == "";
  }

  predicate IsNumberChar(c: char) {
    IsDigit(c) || c == '-' || c == '+' || c == '.'
  }

  /** Accepted text holds a digit and nothing but digits, signs and dots. */
  lemma AcceptedChars(t: string)
    requires t != "" && ParseUnsigned(Unsigned(t)).Some?
    ensures exists i :: 0 <= i < |t| && IsDigit(t[i])
    ensures forall j :: 0 <= j < |t| ==> IsNumberChar(t[j])
  {
    var body := Unsigned(t);
    var off := |t| - |body|;
    UnsignedHasDigit(body);
    NoLetterInUnsigned(body);
    var k :| 0 <= k < |body| && IsDigit(body[k]);
    assert t[k + off] == body[k];
    forall j | 0 <= j < |t|
      ensures IsNumberChar(t[j])
    {
      if j >= off {
        assert t[j] == body[j - off];
      }
    }
  }

  /** Lower-casing such text yields no letter. */
  lemma NoLetterLowered(t: string)
    requires forall j :: 0 <= j < |t| ==> IsNumberChar(t[j])
    ensures forall j :: 0 <= j < |t| ==> !('a' <= Lower(t)[j] <= 'z')
  {
  }

  /** Accepted unsigned text holds a digit. */
  lemma UnsignedHasDigit(b: string)
    requires ParseUnsigned(b).Some?
    ensures exists i :: 0 <= i < |b| && IsDigit(b[i])
  {
    var dot := IndexOf(b, '.');
    if dot == -1 {
      assert IsDigit(b[0]);
    } else if dot > 0 {
      assert IsDigit(b[..dot][0]);
    } else {
      assert IsDigit(b[dot + 1..][0]);
    }
  }

  /** Accepted unsigned text holds only digits and at most one dot. */
  lemma NoLetterInUnsigned(b: string)
    requires ParseUnsigned(b).Some?
    ensures forall i :: 0 <= i < |b| ==> IsDigit(b[i]) || b[i] == '.'
  {
    var dot := IndexOf(b, '.');
    if dot != -1 {
      forall i | 0 <= i < |b|
        ensures IsDigit(b[i]) || b[i] == '.'
      {
        if i < dot {
          assert b[i] == b[..dot][i];
        } else if i > dot {
          assert b[i] == b[dot + 1..][i - dot - 1];
        }
      }
    }
  }

  /** The decimal digits of a natural number. */
  function NatDigits(n: nat): (r: string)
    ensures |r| > 0 && AllDigits(r)
  {
    if n < 10 then [('0' as int + n) as char]
    else NatDigits(n / 10) + [('0' as int + n % 10) as char]
  }

  /** The decimal text of an integer, as `String(n)` prints it. */
  function IntText(n: int): string {
    if n < 0 then "-" + NatDigits(-n) else NatDigits(n)
  }

  lemma {:induction false} DigitsValueOfNatDigits(n: nat)
    ensures DigitsValue(NatDigits(n)) == n
  {
    if n >= 10 {
      DigitsValueOfNatDigits(n / 10);
      var s := NatDigits(n);
      assert s[..|s| - 1] == NatDigits(n / 10);
    }
  }

  /** Reading back the decimal text of any integer gives the integer. */
  lemma ParseNumberOfIntText(n: int)
    ensures ParseNumber(IntText(n)) == Some(n as real)
  {
    var m: nat := if n < 0 then -n else n;
    IntTextShape(n);
    DigitsValueOfNatDigits(m);
    ParseDigits(IntText(n), NatDigits(m));
  }

  /** The decimal text of an integer: trimmed, a minus sign exactly for a
      negative number, then the digits of its magnitude. */
  lemma IntTextShape(n: int)
    ensures var t := IntText(n);
            && t != "" && Trim(t) == t
            && (t[0] == '-' <==> n < 0)
            && Unsigned(t) == NatDigits(if n < 0 then -n else n)
  {
    var t := IntText(n);
    var body := NatDigits(if n < 0 then -n else n);
    assert !IsSpace(t[0]) && !IsSpace(t[|t| - 1]);
    TrimOfTrimmed(t);
    if n < 0 {
      assert t[1..] == body;
    } else {
      assert IsDigit(t[0]);
    }
  }

  /** Trimmed text made of an optional sign and digits reads as their value,
      negated after a minus sign. */
  lemma ParseDigits(t: string, body: string)
    requires t != "" && Trim(t) == t && Unsigned(t) == body
    requires |body| > 0 && AllDigits(body)
    ensures ParseNumber(t) == Some(if t[0] == '-' then -(DigitsValue(body) as real) else DigitsValue(body) as real)
  {
    UnsignedDigits(body);
  }

  /** Plain digits read as their value. */
  lemma UnsignedDigits(body: string)
    requires |body| > 0 && AllDigits(body)
    ensures ParseUnsigned(body) == Some(DigitsValue(body) as real)
  {
    assert IndexOf(body, '.') == -1;
  }
}

=== FILE: patterns.dfy ===
/** SQL `LIKE` and `ILIKE` pattern matching, which the store applies to the
    `path_prefix` filter (`path LIKE prefix%`) and to the search filter
    (`name ILIKE %q%`). The caller's text is placed in the pattern unescaped,
    so its own `%`, `_` and `\` act as wildcards and escapes, and the REST
    layer in front of the store reads every `*` in a `like`/`ilike` filter as
    `%` before the database sees it. */
module Patterns {
  import opened Text

  /** The characters a `like` filter gives a meaning to: `LIKE`'s own, and
      `*`, which the REST layer turns into `%`. */
  predicate IsWildcard(c: char) {
    c == '%' || c == '_' || c == '\\' || c == '*'
  }

  predicate NoWildcards(s: string) {
    forall i :: 0 <= i < |s| ==> !IsWildcard(s[i])
  }

  /** `s LIKE p`: `%` matches any run of characters, `_` any one character,
      `\` makes the next character literal, and every other character matches
      itself. A pattern ending in a lone `\` matches nothing. */
  predicate LikeMatch(p: string, s: string)
    decreases |p| + |s|
  {
    if |p| == 0 then |s| == 0
    else if p[0] == '%' then LikeMatch(p[1..], s) || (|s| > 0 && LikeMatch(p, s[1..]))
    else if p[0] == '_' then |s| > 0 && LikeMatch(p[1..], s[1..])
    else if p[0] == '\\' then |p| > 1 && |s| > 0 && s[0] == p[1] && LikeMatch(p[2..], s[1..])
    else |s| > 0 && s[0] == p[0] && LikeMatch(p[1..], s[1..])
  }

  /** `s ILIKE p`: `LIKE` after lower-casing both sides. */
  predicate ILikeMatch(p: string, s: string) {
    LikeMatch(Lower(p), Lower(s))
  }

  /** The REST layer's rewriting of a `like`/`ilike` filter value: each `*`
      becomes `%`, every other character is kept. */
  function StarAsPercent(p: string): (r: string)
    ensures |r| == |p|
    ensures forall i :: 0 <= i < |p| ==> r[i] == (if p[i] == '*' then '%' else p[i])
  {
    if |p| == 0 then ""
    else [if p[0] == '*' then '%' else p[0]] + StarAsPercent(p[1..])
  }

  /** A `like` filter as the store applies it. */
  predicate FilterLike(p: string, s: string) {
    LikeMatch(StarAsPercent(p), s)
  }

  /** An `ilike` filter as the store applies it. */
  predicate FilterILike(p: string, s: string) {
    ILikeMatch(StarAsPercent(p), s)
  }

  /** Text without `*` passes the rewriting unchanged. */
  lemma NoStarUnchanged(p: string)
    requires forall i :: 0 <= i < |p| ==> p[i] != '*'
    ensures StarAsPercent(p) == p
  {
  }

  /** `*` in the caller's text is a wildcard: the filter `k*%` keeps every
      string that starts with `k`, not only those that start with `k*`. */
  lemma StarIsPercent(s: string)
    ensures FilterLike("k*%", s) <==> "k" <= s
  {
    assert StarAsPercent("k*%") == "k%%";
    if |s| > 0 {
      PercentMatchesAll(s[1..]);
      assert LikeMatch("%%", s[1..]);
    }
  }

  lemma {:induction false} PercentMatchesAll(s: string)
    ensures LikeMatch("%", s)
  {
    if |s| > 0 {
      PercentMatchesAll(s[1..]);
    }
  }

  /** A pattern of literal text followed by `%` matches exactly the strings
      that start with that text. */
  lemma {:induction false} LikePrefix(q: string, s: string)
    requires NoWildcards(q)
    ensures LikeMatch(q + "%", s) <==> q <= s
  {
    if |q| == 0 {
      assert q + "%" == "%";
      PercentMatchesAll(s);
    } else {
      assert (q + "%")[0] == q[0] && (q + "%")[1..] == q[1..] + "%";
      assert !IsWildcard(q[0]);
      if |s| > 0 {
        LikePrefix(q[1..], s[1..]);
        assert q <= s <==> q[0] == s[0] && q[1..] <= s[1..];
      }
    }
  }

  /** Containment unrolled by one position. */
  lemma ContainsStep(s: string, q: string)
    ensures Contains(s, q) <==> q <= s || (|s| > 0 && Contains(s[1..], q))
  {
    if Contains(s, q) {
      var i :| 0 <= i <= |s| - |q| && q <= s[i..];
      if i > 0 {
        assert s[1..][i - 1..] == s[i..];
      }
    }
    if q <= s {
      assert s[0..] == s;
    }
    if |s| > 0 && Contains(s[1..], q) {
      var i :| 0 <= i <= |s[1..]| - |q| && q <= s[1..][i..];
      assert s[1..][i..] == s[i + 1..];
    }
  }

  /** Literal text between two `%` matches exactly the strings containing it. */
  lemma {:induction false} LikeContains(q: string, s: string)
    requires NoWildcards(q)
    ensures LikeMatch("%" + q + "%", s) <==> Contains(s, q)
  {
    var p := "%" + q + "%";
    assert p[0] == '%' && p[1..] == q + "%";
    LikePrefix(q, s);
    ContainsStep(s, q);
    if |s| > 0 {
      LikeContains(q, s[1..]);
    }
  }

  /** Lower-casing introduces no wildcard. */
  lemma LowerNoWildcards(q: string)
    requires NoWildcards(q)
    ensures NoWildcards(Lower(q))
  {
  }

  /** `ILIKE '%q%'` with literal `q` is case-insensitive containment. */
  lemma ILikeContains(q: string, s: string)
    requires NoWildcards(q)
    ensures ILikeMatch("%" + q + "%", s) <==> ContainsIgnoringCase(s, q)
  {
    assert Lower("%" + q + "%") == "%" + Lower(q) + "%";
    LowerNoWildcards(q);
    LikeContains(Lower(q), Lower(s));
  }

  /** The store's `like` filter with literal `q` then `%` keeps exactly the
      strings that start with `q`. */
  lemma FilterLikePrefix(q: string, s: string)
    requires NoWildcards(q)
    ensures FilterLike(q + "%", s) <==> q <= s
  {
    NoStarUnchanged(q + "%");
    LikePrefix(q, s);
  }

  /** The store's `ilike` filter `%q%` with literal `q` is case-insensitive
      containment. */
  lemma FilterILikeContains(q: string, s: string)
    requires NoWildcards(q)
    ensures FilterILike("%" + q + "%", s) <==> ContainsIgnoringCase(s, q)
  {
    NoStarUnchanged("%" + q + "%");
    ILikeContains(q, s);
  }
}

=== FILE: query.dfy ===
/** What a route asks of the store, and what the store answers: a conjunction
    of column predicates, an ordering column and an optional row limit,
    evaluated over an in-memory table as filter, then sort, then take. */
module Query {
  import opened Results
  import opened Text
  import opened Records
  import opened Patterns

  /** One filter condition on a column. */
  datatype Pred =
    | Eq(col: Column, v: Value)               // `.eq(col, v)`
    | IsNull(col: Column)                     // `.eq(col, null)`
    | Like(col: Column, pattern: string)      // `.like(col, pattern)`
    | ILike(col: Column, pattern: string)     // `col.ilike.pattern`
    | Or(left: Pred, right: Pred)             // `.or(a, b)`

  /** A select list, the conjunction of `where`, an optional ordering column
      (`.order`) and an optional `.limit`. */
  datatype Query = Query(select: seq<string>, where: seq<Pred>, order: Option<Column>, limit: Option<nat>)

  /** A view of a row as column values. */
  type FieldOf<!T> = (T, Column) -> Option<Value>

  predicate Holds<T>(p: Pred, field: FieldOf<T>, row: T) {
    match p
    case Eq(c, v) => field(row, c) == Some(v)
    case IsNull(c) => field(row, c) == Some(Null)
    case Like(c, pat) => field(row, c).Some? && field(row, c).value.Str? && FilterLike(pat, field(row, c).value.s)
    case ILike(c, pat) => field(row, c).Some? && field(row, c).value.Str? && FilterILike(pat, field(row, c).value.s)
    case Or(a, b) => Holds(a, field, row) || Holds(b, field, row)
  }

  predicate Satisfies<T>(ps: seq<Pred>, field: FieldOf<T>, row: T) {
    forall i :: 0 <= i < |ps| ==> Holds(ps[i], field, row)
  }

  /** A conjunction of two predicate lists holds iff both do. */
  lemma SatisfiesAppend<T>(a: seq<Pred>, b: seq<Pred>, field: FieldOf<T>, row: T)
    ensures Satisfies(a + b, field, row) <==> Satisfies(a, field, row) && Satisfies(b, field, row)
  {
    if Satisfies(a, field, row) && Satisfies(b, field, row) {
      forall i | 0 <= i < |a + b|
        ensures Holds((a + b)[i], field, row)
      {
        if i >= |a| {
          assert (a + b)[i] == b[i - |a|];
        }
      }
    }
    if Satisfies(a + b, field, row) {
      forall i | 0 <= i < |a|
        ensures Holds(a[i], field, row)
      {
        assert (a + b)[i] == a[i];
      }
      forall i | 0 <= i < |b|
        ensures Holds(b[i], field, row)
      {
        assert (a + b)[|a| + i] == b[i];
      }
    }
  }

  /** The rows that satisfy every predicate, in table order. */
  function Matching<T(!new)>(rows: seq<T>, ps: seq<Pred>, field: FieldOf<T>): (r: seq<T>)
    ensures forall i :: 0 <= i < |r| ==> Satisfies(ps, field, r[i])
    ensures forall x :: multiset(r)[x] == if Satisfies(ps, field, x) then multiset(rows)[x] else 0
  {
    if |rows| == 0 then []
    else
      var rest := Matching(rows[1..], ps, field);
      assert rows == [rows[0]] + rows[1..];
      if Satisfies(ps, field, rows[0]) then [rows[0]] + rest else rest
  }

  /** Code-point lexicographic order on strings: the one collation the model
      uses for `.order(...)`. */
  predicate StrLe(a: string, b: string) {
    |a| == 0 || (|b| > 0 && (a[0] < b[0] || (a[0] == b[0] && StrLe(a[1..], b[1..]))))
  }

  lemma StrLeTotal(a: string, b: string)
    ensures StrLe(a, b) || StrLe(b, a)
  {
  }

  lemma StrLeTransitive(a: string, b: string, c: string)
    requires StrLe(a, b) && StrLe(b, c)
    ensures StrLe(a, c)
  {
  }

  /** The sort key of a row: its text in the ordering column. */
  function OrderKey<T>(field: FieldOf<T>, col: Column, row: T): string {
    match field(row, col)
    case Some(Str(s)) => s
    case _ => ""
  }

  predicate SortedOn<T>(rows: seq<T>, field: FieldOf<T>, col: Column) {
    forall i, j :: 0 <= i < j < |rows| ==> StrLe(OrderKey(field, col, rows[i]), OrderKey(field, col, rows[j]))
  }

  /** Every row's key is at least `lo`. */
  predicate AllAtLeast<T>(lo: string, rows: seq<T>, field: FieldOf<T>, col: Column) {
    forall i :: 0 <= i < |rows| ==> StrLe(lo, OrderKey(field, col, rows[i]))
  }

  /** A lower bound depends only on which rows there are. */
  lemma AllAtLeastPermutation<T>(lo: string, a: seq<T>, b: seq<T>, field: FieldOf<T>, col: Column)
    requires multiset(a) == multiset(b)
    requires AllAtLeast(lo, a, field, col)
    ensures AllAtLeast(lo, b, field, col)
  {
    forall i | 0 <= i < |b|
      ensures StrLe(lo, OrderKey(field, col, b[i]))
    {
      assert b[i] in multiset(a);
      var j :| 0 <= j < |a| && a[j] == b[i];
    }
  }

  /** A row below a sorted list, on top of it, keeps it sorted. */
  lemma ConsSorted<T>(x: T, rows: seq<T>, field: FieldOf<T>, col: Column)
    requires SortedOn(rows, field, col)
    requires AllAtLeast(OrderKey(field, col, x), rows, field, col)
    ensures SortedOn([x] + rows, field, col)
  {
    var r := [x] + rows;
    forall i, j | 0 <= i < j < |r|
      ensures StrLe(OrderKey(field, col, r[i]), OrderKey(field, col, r[j]))
    {
      assert r[j] == rows[j - 1];
      if i > 0 {
        assert r[i] == rows[i - 1];
      }
    }
  }

  /** Inserts `x` into a sorted list. */
  function InsertSorted<T>(x: T, rows: seq<T>, field: FieldOf<T>, col: Column): (r: seq<T>)
    requires SortedOn(rows, field, col)
    ensures SortedOn(r, field, col)
    ensures multiset(r) == multiset(rows) + multiset{x}
  {
    if |rows| == 0 then [x]
    else
      var kx := OrderKey(field, col, x);
      var k0 := OrderKey(field, col, rows[0]);
      assert rows == [rows[0]] + rows[1..];
      if StrLe(kx, k0) then
        assert AllAtLeast(kx, rows, field, col) by {
          forall j | 0 <= j < |rows|
            ensures StrLe(kx, OrderKey(field, col, rows[j]))
          {
            if j > 0 {
              StrLeTransitive(kx, k0, OrderKey(field, col, rows[j]));
            }
          }
        }
        ConsSorted(x, rows, field, col);
        [x] + rows
      else
        StrLeTotal(kx, k0);
        var tail := InsertSorted(x, rows[1..], field, col);
        assert AllAtLeast(k0, rows[1..] + [x], field, col) by {
          forall j | 0 <= j < |rows[1..] + [x]|
            ensures StrLe(k0, OrderKey(field, col, (rows[1..] + [x])[j]))
          {
            if j < |rows| - 1 {
              assert (rows[1..] + [x])[j] == rows[j + 1];
            }
          }
        }
        AllAtLeastPermutation(k0, rows[1..] + [x], tail, field, col);
        ConsSorted(rows[0], tail, field, col);
        [rows[0]] + tail
  }

  /** `.order(col)`: a sorted permutation of the rows. */
  function SortOn<T>(rows: seq<T>, field: FieldOf<T>, col: Column): (r: seq<T>)
    ensures SortedOn(r, field, col)
    ensures multiset(r) == multiset(rows)
  {
    if |rows| == 0 then []
    else
      assert rows == [rows[0]] + rows[1..];
      InsertSorted(rows[0], SortOn(rows[1..], field, col), field, col)
  }

  /** `.limit(n)`: the first n rows. */
  function Take<T>(rows: seq<T>, limit: Option<nat>): seq<T> {
    match limit
    case Some(n) => if n < |rows| then rows[..n] else rows
    case None => rows
  }

  /** The rows the store returns for `q`: those satisfying every predicate,
      sorted on the ordering column, cut to the limit. */
  function Eval<T(!new)>(q: Query, rows: seq<T>, field: FieldOf<T>): (r: seq<T>)
    // soundness: every returned row satisfies the whole conjunction
    ensures forall i :: 0 <= i < |r| ==> Satisfies(q.where, field, r[i])
    // ordering
    ensures q.order.Some? ==> SortedOn(r, field, q.order.value)
    // bounded count
    ensures q.limit.Some? ==> |r| <= q.limit.value
    // no row is invented or duplicated
    ensures multiset(r) <= multiset(rows)
    // without a cut, every matching row is returned, as often as it is stored
    ensures q.limit.None? || |Matching(rows, q.where, field)| <= q.limit.value ==>
              forall x :: multiset(r)[x] == if Satisfies(q.where, field, x) then multiset(rows)[x] else 0
    // fewer rows than the limit: nothing was cut
    ensures q.limit.Some? && |r| < q.limit.value ==> |Matching(rows, q.where, field)| < q.limit.value
    // with a cut, a matching row is left out only if it sorts after every returned row
    ensures q.order.Some? ==>
              forall x, i :: x in rows && Satisfies(q.where, field, x) && x !in r && 0 <= i < |r| ==>
                StrLe(OrderKey(field, q.order.value, r[i]), OrderKey(field, q.order.value, x))
  {
    var m := Matching(rows, q.where, field);
    var s := if q.order.Some? then SortOn(m, field, q.order.value) else m;
    TakeFacts(s, q.limit);
    EvalCompleteness(rows, m, s, q.where, field);
    if q.order.Some? then
      SortedTakeFacts(s, q.limit, field, q.order.value);
      Take(s, q.limit)
    else
      Take(s, q.limit)
  }

  /** One instance of the cut guarantee of `Eval`. */
  lemma EvalCutAfter<T(!new)>(q: Query, rows: seq<T>, field: FieldOf<T>, x: T, i: int)
    requires q.order.Some? && x in rows && Satisfies(q.where, field, x)
    requires x !in Eval(q, rows, field) && 0 <= i < |Eval(q, rows, field)|
    ensures StrLe(OrderKey(field, q.order.value, Eval(q, rows, field)[i]), OrderKey(field, q.order.value, x))
  {
  }

  /** Without ordering or limit, a query returns exactly the matching rows in
      table order. */
  lemma EvalUnorderedUnlimited<T(!new)>(q: Query, rows: seq<T>, field: FieldOf<T>)
    requires q.order.None? && q.limit.None?
    ensures Eval(q, rows, field) == Matching(rows, q.where, field)
  {
  }

  /** Every returned row is a stored row meeting the conjunction. */
  lemma EvalMembers<T(!new)>(q: Query, rows: seq<T>, field: FieldOf<T>)
    ensures forall x :: x in Eval(q, rows, field) ==> x in rows && Satisfies(q.where, field, x)
  {
    var r := Eval(q, rows, field);
    forall x | x in r
      ensures x in rows && Satisfies(q.where, field, x)
    {
      assert multiset(r)[x] > 0;
    }
  }

  /** Every matching row of the table is in the sorted match list. */
  lemma EvalCompleteness<T(!new)>(rows: seq<T>, m: seq<T>, s: seq<T>, ps: seq<Pred>, field: FieldOf<T>)
    requires m == Matching(rows, ps, field)
    requires multiset(s) == multiset(m)
    ensures forall x :: x in rows && Satisfies(ps, field, x) ==> x in s
    ensures multiset(s) <= multiset(rows)
  {
    forall x | x in rows && Satisfies(ps, field, x)
      ensures x in s
    {
      assert multiset(rows)[x] > 0;
      assert multiset(s)[x] > 0;
    }
    forall x
      ensures multiset(s)[x] <= multiset(rows)[x]
    {
    }
  }

  /** A cut keeps a prefix of the list. */
  lemma TakeFacts<T>(s: seq<T>, limit: Option<nat>)
    ensures multiset(Take(s, limit)) <= multiset(s)
    ensures limit.None? || |s| <= limit.value ==> Take(s, limit) == s
    ensures limit.Some? ==> |Take(s, limit)| <= limit.value
    ensures limit.Some? && |Take(s, limit)| < limit.value ==> Take(s, limit) == s
    ensures forall i :: 0 <= i < |Take(s, limit)| ==> Take(s, limit)[i] == s[i]
  {
    if limit.Some? && limit.value < |s| {
      assert s == Take(s, limit) + s[limit.value..];
    }
  }

  /** A cut of a sorted list is sorted, and leaves out only rows that sort
      after every row it keeps. */
  lemma SortedTakeFacts<T>(s: seq<T>, limit: Option<nat>, field: FieldOf<T>, col: Column)
    requires SortedOn(s, field, col)
    ensures SortedOn(Take(s, limit), field, col)
    ensures forall x, i :: x in s && x !in Take(s, limit) && 0 <= i < |Take(s, limit)| ==>
              StrLe(OrderKey(field, col, Take(s, limit)[i]), OrderKey(field, col, x))
  {
    var r := Take(s, limit);
    TakeFacts(s, limit);
    forall x, i | x in s && x !in r && 0 <= i < |r|
      ensures StrLe(OrderKey(field, col, r[i]), OrderKey(field, col, x))
    {
      var j :| 0 <= j < |s| && s[j] == x;
      assert j >= |r|;
    }
  }

  /** The JSON object the store returns for a row under a select list: each
      listed name that is a column of the row, with its value. */
  function Project<T>(row: T, field: FieldOf<T>, select: seq<string>): (r: map<string, Value>)
    ensures forall k :: k in r ==> k in select
    ensures forall k :: k in select && ColumnNamed(k).Some? && field(row, ColumnNamed(k).value).Some? ==>
              k in r && Some(r[k]) == field(row, ColumnNamed(k).value)
  {
    map k | k in select && ColumnNamed(k).Some? && field(row, ColumnNamed(k).value).Some?
      :: field(row, ColumnNamed(k).value).value
  }
}

=== FILE: records.dfy ===
/** The two stored entities, `countries` and `admin_divisions`, with the
    timestamps dropped, and the column vocabulary the queries use. */
module Records {
  import opened Results

  /** A JSON value as the store returns it. */
  datatype Value =
    | Null
    | Num(n: real)
    | Str(s: string)
    | Bool(b: bool)
    | Obj(fields: map<string, Value>)

  /** One row of `countries`. */
  datatype Country = Country(
    id: int,
    name: string,
    nameLocal: Option<string>,
    isoCode: string,
    icon: string,
    structure: string,
    continent: string,
    timezone: Option<string>,
    isActive: bool,
    isDeleted: bool,
    isArchived: bool,
    rest: Option<map<string, Value>>)

  /** One row of `admin_divisions`; `kind` is the `type` column. */
  datatype AdminDivision = AdminDivision(
    id: int,
    countryId: int,
    parentId: Option<int>,
    name: string,
    nameLocal: Option<string>,
    code: Option<string>,
    kind: string,
    level: int,
    path: string,
    timezone: Option<string>,
    rest: Option<map<string, Value>>,
    isActive: bool,
    isDeleted: bool,
    isArchived: bool)

  /** Every column of either table. */
  datatype Column =
    | Id | CountryId | ParentId | Name | NameLocal | Code | Kind | Level | Path
    | Timezone | Rest | IsActive | IsDeleted | IsArchived
    | IsoCode | Icon | Structure | Continent

  /** The column's name in the store and in JSON. */
  function ColumnName(c: Column): string {
    match c
    case Id => "id"
    case CountryId => "country_id"
    case ParentId => "parent_id"
    case Name => "name"
    case NameLocal => "name_local"
    case Code => "code"
    case Kind => "type"
    case Level => "level"
    case Path => "path"
    case Timezone => "timezone"
    case Rest => "rest"
    case IsActive => "is_active"
    case IsDeleted => "is_deleted"
    case IsArchived => "is_archived"
    case IsoCode => "iso_code"
    case Icon => "icon"
    case Structure => "structure"
    case Continent => "continent"
  }

  /** The column a name denotes, if any. */
  function ColumnNamed(s: string): (r: Option<Column>)
    ensures r.Some? ==> ColumnName(r.value) == s
  {
    if s == "id" then Some(Id)
    else if s == "country_id" then Some(CountryId)
    else if s == "parent_id" then Some(ParentId)
    else if s == "name" then Some(Name)
    else if s == "name_local" then Some(NameLocal)
    else if s == "code" then Some(Code)
    else if s == "type" then Some(Kind)
    else if s == "level" then Some(Level)
    else if s == "path" then Some(Path)
    else if s == "timezone" then Some(Timezone)
    else if s == "rest" then Some(Rest)
    else if s == "is_active" then Some(IsActive)
    else if s == "is_deleted" then Some(IsDeleted)
    else if s == "is_archived" then Some(IsArchived)
    else if s == "iso_code" then Some(IsoCode)
    else if s == "icon" then Some(Icon)
    else if s == "structure" then Some(Structure)
    else if s == "continent" then Some(Continent)
    else None
  }

  /** Every column is found again under its own name. */
  lemma ColumnNamedOfName(c: Column)
    ensures ColumnNamed(ColumnName(c)) == Some(c)
  {
  }

  function OptStr(o: Option<string>): Value {
    match o
    case Some(s) => Str(s)
    case None => Null
  }

  function OptObj(o: Option<map<string, Value>>): Value {
    match o
    case Some(m) => Obj(m)
    case None => Null
  }

  /** A division's value in a column; None for a column `admin_divisions`
      does not have. */
  function DivisionField(d: AdminDivision, c: Column): Option<Value> {
    match c
    case Id => Some(Num(d.id as real))
    case CountryId => Some(Num(d.countryId as real))
    case ParentId => Some(match d.parentId case Some(p) => Num(p as real) case None => Null)
    case Name => Some(Str(d.name))
    case NameLocal => Some(OptStr(d.nameLocal))
    case Code => Some(OptStr(d.code))
    case Kind => Some(Str(d.kind))
    case Level => Some(Num(d.level as real))
    case Path => Some(Str(d.path))
    case Timezone => Some(OptStr(d.timezone))
    case Rest => Some(OptObj(d.rest))
    case IsActive => Some(Bool(d.isActive))
    case IsDeleted => Some(Bool(d.isDeleted))
    case IsArchived => Some(Bool(d.isArchived))
    case _ => None
  }

  /** A country's value in a column; None for a column `countries` does not
      have. */
  function CountryField(c: Country, col: Column): Option<Value> {
    match col
    case Id => Some(Num(c.id as real))
    case Name => Some(Str(c.name))
    case NameLocal => Some(OptStr(c.nameLocal))
    case IsoCode => Some(Str(c.isoCode))
    case Icon => Some(Str(c.icon))
    case Structure => Some(Str(c.structure))
    case Continent => Some(Str(c.continent))
    case Timezone => Some(OptStr(c.timezone))
    case IsActive => Some(Bool(c.isActive))
    case IsDeleted => Some(Bool(c.isDeleted))
    case IsArchived => Some(Bool(c.isArchived))
    case Rest => Some(OptObj(c.rest))
    case _ => None
  }
}

=== FILE: results.dfy ===
/** Failure-compatible wrappers shared by every other module: an optional value
    (JavaScript's `undefined`/`null`) and a value-or-error result. */
module Results {

  /** A value that may be absent. */
  datatype Option<+T> = None | Some(value: T) {

    predicate IsFailure() {
      None?
    }

    function PropagateFailure<U>(): Option<U>
      requires None?
    {
      None
    }

    function Extract(): T
      requires Some?
    {
      value
    }

    /** The value, or `err` in its place. */
    function ToResult<E>(err: E): Result<T, E> {
      match this
      case Some(v) => Ok(v)
      case None => Err(err)
    }

    /** The value, or `default` when absent (JavaScript's `??`). */
    function GetOr(default: T): T {
      match this
      case Some(v) => v
      case None => default
    }
  }

  /** Either a value or an error; usable with `:-`. */
  datatype Result<+T, +E> = Ok(value: T) | Err(error: E) {

    predicate IsFailure() {
      Err?
    }

    function PropagateFailure<U>(): Result<U, E>
      requires Err?
    {
      Err(error)
    }

    function Extract(): T
      requires Ok?
    {
      value
    }
  }
}

=== FILE: search.dfy ===
/** `GET /search`: divisions whose name or path contains the search text,
    ignoring case, optionally within one country, ordered by path, at most
    twenty. */
module SearchRoute {
  import opened Results
  import opened Text
  import opened Records
  import opened Numbers
  import opened Patterns
  import opened Query
  import opened Store

  const SearchColumns: seq<string> :=
    ["id", "country_id", "parent_id", "name", "name_local", "type", "level", "path"]

  const SearchLimit: nat := 20

  /** The trimmed `q`, when it has at least two characters. */
  function SearchText(q: Option<string>): (r: Option<string>)
    ensures r.Some? <==> q.Some? && |Trim(q.value)| >= 2
    ensures r.Some? ==> r.value == Trim(q.value) && |r.value| >= 2
  {
    match q
    case None => None
    case Some(s) => if |Trim(s)| < 2 then None else Some(Trim(s))
  }

  /** The country filter: applied only when `country_id` is given and
      numeric; anything else is ignored rather than rejected. */
  function CountryScope(countryId: Option<string>): (r: Option<real>)
    ensures r.Some? <==> countryId.Some? && ParseNumber(countryId.value).Some?
    ensures r.Some? ==> r == ParseNumber(countryId.value)
  {
    match countryId
    case None => None
    case Some(s) => ParseNumber(s)
  }

  /** The `ILIKE` pattern built from the search text. */
  function Pattern(q: string): string {
    "%" + q + "%"
  }

  /** The rows the search means: not deleted, with name or path matching,
      and in the country when one is given. */
  predicate InSearchScope(q: string, cid: Option<real>, d: AdminDivision) {
    && !d.isDeleted
    && (FilterILike(Pattern(q), d.name) || FilterILike(Pattern(q), d.path))
    && (cid.Some? ==> d.countryId as real == cid.value)
  }

  function CountryPreds(cid: Option<real>): seq<Pred> {
    match cid
    case None => []
    case Some(c) => [Eq(CountryId, Num(c))]
  }

  function SearchQuery(q: string, cid: Option<real>): Query {
    Query(SearchColumns,
          [NotDeleted, Or(ILike(Name, Pattern(q)), ILike(Path, Pattern(q)))] + CountryPreds(cid),
          Some(Path), Some(SearchLimit))
  }

  lemma SearchQueryScope(q: string, cid: Option<real>)
    ensures forall d :: Satisfies(SearchQuery(q, cid).where, DivisionField, d) <==> InSearchScope(q, cid, d)
  {
    forall d
      ensures Satisfies(SearchQuery(q, cid).where, DivisionField, d) <==> InSearchScope(q, cid, d)
    {
      SearchRowScope(q, cid, d);
    }
  }

  lemma SearchRowScope(q: string, cid: Option<real>, d: AdminDivision)
    ensures Satisfies(SearchQuery(q, cid).where, DivisionField, d) <==> InSearchScope(q, cid, d)
  {
    {
      var base: seq<Pred> := [NotDeleted, Or(ILike(Name, Pattern(q)), ILike(Path, Pattern(q)))];
      SatisfiesAppend(base, CountryPreds(cid), DivisionField, d);
      assert base[0] == NotDeleted && base[1] == Or(ILike(Name, Pattern(q)), ILike(Path, Pattern(q)));
      assert Holds(base[1], DivisionField, d) <==>
               Holds(ILike(Name, Pattern(q)), DivisionField, d) || Holds(ILike(Path, Pattern(q)), DivisionField, d);
      if cid.Some? {
        assert CountryPreds(cid)[0] == Eq(CountryId, Num(cid.value));
      }
    }
  }

  /** What the store returns for a search, in terms of the scope. */
  ghost predicate SearchOutcome(t: string, cid: Option<real>, rows: seq<AdminDivision>, found: seq<AdminDivision>) {
    // only stored rows in scope, at most twenty, ordered by path
    && (forall i :: 0 <= i < |found| ==> InSearchScope(t, cid, found[i]))
    && |found| <= SearchLimit
    && multiset(found) <= multiset(rows)
    && SortedOn(found, DivisionField, Path)
    // fewer than twenty: every row in scope was returned
    && (|found| < SearchLimit ==>
          forall d :: multiset(found)[d] == if InSearchScope(t, cid, d) then multiset(rows)[d] else 0)
    // a row in scope is left out only if its path sorts after every returned one
    && (forall d, i :: d in rows && InSearchScope(t, cid, d) && d !in found && 0 <= i < |found| ==>
          StrLe(found[i].path, d.path))
  }

  lemma SearchEval(t: string, cid: Option<real>, rows: seq<AdminDivision>)
    ensures SearchOutcome(t, cid, rows, Eval(SearchQuery(t, cid), rows, DivisionField))
  {
    SearchSound(t, cid, rows);
    SearchComplete(t, cid, rows);
    SearchCutAfter(t, cid, rows);
  }

  lemma SearchSound(t: string, cid: Option<real>, rows: seq<AdminDivision>)
    ensures var found := Eval(SearchQuery(t, cid), rows, DivisionField);
            forall i :: 0 <= i < |found| ==> InSearchScope(t, cid, found[i])
  {
    SearchQueryScope(t, cid);
  }

  lemma SearchComplete(t: string, cid: Option<real>, rows: seq<AdminDivision>)
    ensures var found := Eval(SearchQuery(t, cid), rows, DivisionField);
            |found| < SearchLimit ==>
              forall d :: multiset(found)[d] == if InSearchScope(t, cid, d) then multiset(rows)[d] else 0
  {
    SearchQueryScope(t, cid);
  }

  lemma SearchCutAfter(t: string, cid: Option<real>, rows: seq<AdminDivision>)
    ensures var found := Eval(SearchQuery(t, cid), rows, DivisionField);
            forall d, i :: d in rows && InSearchScope(t, cid, d) && d !in found && 0 <= i < |found| ==>
              StrLe(found[i].path, d.path)
  {
    var q := SearchQuery(t, cid);
    var found := Eval(q, rows, DivisionField);
    forall d, i | d in rows && InSearchScope(t, cid, d) && d !in found && 0 <= i < |found|
      ensures StrLe(found[i].path, d.path)
    {
      SearchRowScope(t, cid, d);
      EvalCutAfter(q, rows, DivisionField, d, i);
      PathKey(found[i]);
      PathKey(d);
    }
  }

  /** Ordering on the path column orders by the path itself. */
  lemma PathKey(d: AdminDivision)
    ensures OrderKey(DivisionField, Path, d) == d.path
  {
  }

  /** `GET /search`. */
  function Search(q: Option<string>, countryId: Option<string>, db: Db): (r: Response<AdminDivision>)
    // missing, blank or one-character text: 400
    ensures q.None? || |Trim(q.value)| < 2 ==> r == Failure(400, ShortQueryMessage)
    ensures q.Some? && |Trim(q.value)| >= 2 && db.fault.Some? ==> r == Failure(500, db.fault.value.message)
    ensures q.Some? && |Trim(q.value)| >= 2 && db.fault.None? ==> r.Listing? && r.columns == SearchColumns
    ensures r.Listing? ==> SearchOutcome(Trim(q.value), CountryScope(countryId), db.divisions, r.rows)
  {
    match SearchText(q)
    case None => Failure(400, ShortQueryMessage)
    case Some(t) =>
      var cid := CountryScope(countryId);
      SearchEval(t, cid, db.divisions);
      ListResponse(Fetch(SearchQuery(t, cid), db.divisions, DivisionField, db.fault), SearchColumns)
  }
  /** A `country_id` that is not a number answers as an absent one. */
  lemma UnparseableCountryIgnored(q: Option<string>, countryId: string, db: Db)
    requires ParseNumber(countryId).None?
    ensures Search(q, Some(countryId), db) == Search(q, None, db)
  {
    assert CountryScope(Some(countryId)) == CountryScope(None);
  }

  /** Search text free of wildcards selects by case-insensitive containment
      in the name or the path. */
  lemma PlainTextScope(q: string, cid: Option<real>, d: AdminDivision)
    requires NoWildcards(q)
    ensures InSearchScope(q, cid, d) <==>
              && !d.isDeleted
              && (ContainsIgnoringCase(d.name, q) || ContainsIgnoringCase(d.path, q))
              && (cid.Some? ==> d.countryId as real == cid.value)
  {
    FilterILikeContains(q, d.name);
    FilterILikeContains(q, d.path);
  }
}

=== FILE: seeding.dfy ===
/** The Nepal seed script: it reads credentials (from the environment or
    `.dev.vars`), makes sure the Nepal country row exists, and walks the
    local-level data set inserting each province, district and city of the
    `np>province>district>city` hierarchy once. */
module Seeding {
  import opened Results
  import opened Text
  import opened Records
  import Fields
  import DevVars

  /** One record of the data set, reduced to the fields the seed reads. */
  datatype SourceRow = SourceRow(
    provinceCode: string,
    districtCode: string,
    districtName: string,
    name: string,
    nameNative: string,
    kind: string,
    wards: Option<int>)

  /** An entry of the province table. */
  datatype Province = Province(name: string, code: string)

  /** The province table (`PROVINCES`): keys "1" to "7". */
  function ProvinceOf(key: string): (r: Option<Province>)
    ensures r.Some? <==> key in {"1", "2", "3", "4", "5", "6", "7"}
    ensures r.Some? ==> |key| == 1 && r.value.code == "NP-P" + key
    ensures r.Some? ==> r.value.name != "" && IsLower(r.value.name)
  {
    if key == "1" then Some(Province("koshi", "NP-P1"))
    else if key == "2" then Some(Province("madhesh", "NP-P2"))
    else if key == "3" then Some(Province("bagmati", "NP-P3"))
    else if key == "4" then Some(Province("gandaki", "NP-P4"))
    else if key == "5" then Some(Province("lumbini", "NP-P5"))
    else if key == "6" then Some(Province("karnali", "NP-P6"))
    else if key == "7" then Some(Province("sudurpashchim", "NP-P7"))
    else None
  }

  /** Distinct province keys have distinct codes. */
  lemma ProvinceCodesDistinct(a: string, b: string)
    requires ProvinceOf(a).Some? && ProvinceOf(b).Some?
    requires ProvinceOf(a).value.code == ProvinceOf(b).value.code
    ensures a == b
  {
    assert ("NP-P" + a)[4..] == a && ("NP-P" + b)[4..] == b;
  }

  /** What `PROVINCES[key]` yields as written: an own entry, a member
      inherited from `Object.prototype`, or undefined. */
  datatype ProvinceLookup = Own(province: Province) | Inherited | Absent

  function ProvinceLookupAsWritten(key: string): ProvinceLookup {
    match ProvinceOf(key)
    case Some(p) => Own(p)
    case None => if key in Fields.InheritedNames then Inherited else Absent
  }

  /** `if (!province) continue` skips only undefined. */
  predicate PassesProvinceGuard(l: ProvinceLookup) {
    !l.Absent?
  }

  /** As written, a row whose province code is an inherited name such as
      "toString" is not skipped, although the table has no such province. */
  lemma InheritedProvincePasses()
    ensures PassesProvinceGuard(ProvinceLookupAsWritten("toString"))
    ensures ProvinceOf("toString").None?
  {
    assert "toString" in Fields.InheritedNames;
  }

  /** A row is seeded only when its province is in the table. */
  predicate Known(row: SourceRow) {
    ProvinceOf(row.provinceCode).Some?
  }

  /** The ISO prefix of every path. */
  const Iso := "np"

  /** `${province_code}-${district_code}`. */
  function DistrictKey(row: SourceRow): string {
    row.provinceCode + "-" + row.districtCode
  }

  /** For rows with a known province, the district key determines the
      province: every province key is one character long. */
  lemma DistrictKeyProvince(a: SourceRow, b: SourceRow)
    requires Known(a) && Known(b) && DistrictKey(a) == DistrictKey(b)
    ensures a.provinceCode == b.provinceCode
  {
    assert DistrictKey(a)[..1] == a.provinceCode;
    assert DistrictKey(b)[..1] == b.provinceCode;
  }

  /** `name_native || null`. */
  function NameLocal(s: string): (r: Option<string>)
    ensures r.None? <==> s == ""
    ensures r.Some? ==> r.value == s
  {
    if s == "" then None else Some(s)
  }

  /** A city's `rest`: its ward count and administrative type. */
  function CityRest(wards: int, kind: string): (r: map<string, Value>)
    ensures r.Keys == {"wards", "admType"}
    ensures r["wards"] == Num(wards as real) && r["admType"] == Str(kind)
  {
    map["wards" := Num(wards as real), "admType" := Str(kind)]
  }

  /** The inserted province row. */
  function ProvinceRow(countryId: int, p: Province, id: int): AdminDivision {
    AdminDivision(id, countryId, None, Lower(p.name), None, Some(p.code), "province", 1,
                  Iso + ">" + p.name, None, None, true, false, false)
  }

  /** The inserted district row; `dn` is the lower-cased district name. */
  function DistrictRow(countryId: int, p: Province, dn: string, provinceId: int, id: int): AdminDivision {
    AdminDivision(id, countryId, Some(provinceId), Lower(dn), None, None, "district", 2,
                  Iso + ">" + p.name + ">" + dn, None, None, true, false, false)
  }

  /** The inserted city row. */
  function CityRow(countryId: int, p: Province, dn: string, row: SourceRow, wards: int, districtId: int, id: int): AdminDivision {
    var cityName := Lower(row.name);
    AdminDivision(id, countryId, Some(districtId), Lower(cityName), NameLocal(row.nameNative), None, "city", 3,
                  Iso + ">" + p.name + ">" + dn + ">" + cityName, None, Some(CityRest(wards, row.kind)),
                  true, false, false)
  }

  /** What the run depends on from outside: the Nepal country id, the first
      id the store hands out, and the store's verdict on each insert (a
      rejection carries the store's message). */
  datatype SeedEnv = SeedEnv(countryId: int, firstId: int, reject: AdminDivision -> Option<string>)

  /** The two key maps and the rows inserted so far, in insertion order. */
  datatype SeedState = SeedState(provinces: map<string, int>, districts: map<string, int>, inserted: seq<AdminDivision>)

  const Start := SeedState(map[], map[], [])

  /** A run either goes on or has thrown; rows inserted before the throw
      stay in the store. */
  datatype Run = Running(state: SeedState) | Aborted(message: string, inserted: seq<AdminDivision>)

  /** The id the store gives the next insert. */
  function NextId(env: SeedEnv, st: SeedState): int {
    env.firstId + |st.inserted|
  }

  /** The province of `key`, inserted unless already recorded. */
  function EnsureProvince(env: SeedEnv, st: SeedState, key: string, p: Province): (r: Result<SeedState, string>)
    ensures r.Ok? ==> key in r.value.provinces
  {
    if key in st.provinces then Ok(st)
    else
      var d := ProvinceRow(env.countryId, p, NextId(env, st));
      match env.reject(d)
      case Some(e) => Err("Insert province " + p.name + ": " + e)
      case None => Ok(SeedState(st.provinces[key := d.id], st.districts, st.inserted + [d]))
  }

  /** The district of `dk`, inserted unless already recorded, under the
      recorded province `key`. */
  function EnsureDistrict(env: SeedEnv, st: SeedState, dk: string, key: string, p: Province, dn: string): (r: Result<SeedState, string>)
    requires key in st.provinces
    ensures r.Ok? ==> dk in r.value.districts
  {
    if dk in st.districts then Ok(st)
    else
      var d := DistrictRow(env.countryId, p, dn, st.provinces[key], NextId(env, st));
      match env.reject(d)
      case Some(e) => Err("Insert district " + dn + ": " + e)
      case None => Ok(SeedState(st.provinces, st.districts[dk := d.id], st.inserted + [d]))
  }

  /** The city of `row`, always inserted, under the recorded district `dk`. */
  function AddCity(env: SeedEnv, st: SeedState, dk: string, p: Province, dn: string, row: SourceRow, wards: int): Result<SeedState, string>
    requires dk in st.districts
  {
    var d := CityRow(env.countryId, p, dn, row, wards, st.districts[dk], NextId(env, st));
    match env.reject(d)
    case Some(e) => Err("Insert city " + Lower(row.name) + ": " + e)
    case None => Ok(SeedState(st.provinces, st.districts, st.inserted + [d]))
  }

  /** One iteration of the loop. */
  function SeedRow(env: SeedEnv, st: SeedState, row: SourceRow): Run {
    match ProvinceOf(row.provinceCode)
    case None => Running(st)
    case Some(p) =>
      match EnsureProvince(env, st, row.provinceCode, p)
      case Err(e) => Aborted(e, st.inserted)
      case Ok(st1) =>
        var dn := Lower(row.districtName);
        match EnsureDistrict(env, st1, DistrictKey(row), row.provinceCode, p, dn)
        case Err(e) => Aborted(e, st1.inserted)
        case Ok(st2) =>
          match row.wards
          case None => Running(st2)
          case Some(w) =>
            match AddCity(env, st2, DistrictKey(row), p, dn, row, w)
            case Err(e) => Aborted(e, st2.inserted)
            case Ok(st3) => Running(st3)
  }

  /** The loop over the data set, from empty key maps; the first failed
      insert ends it. */
  function SeedRows(env: SeedEnv, rows: seq<SourceRow>): Run
    decreases |rows|
  {
    if |rows| == 0 then Running(Start)
    else
      match SeedRows(env, rows[..|rows| - 1])
      case Aborted(e, ins) => Aborted(e, ins)
      case Running(st) => SeedRow(env, st, rows[|rows| - 1])
  }

  /** A row outside the province table changes nothing. */
  lemma UnknownProvinceSkipped(env: SeedEnv, st: SeedState, row: SourceRow)
    requires !Known(row)
    ensures SeedRow(env, st, row) == Running(st)
  {
  }

  /** Inserts are only ever appended: a step keeps every earlier row, and a
      failed step keeps the rows inserted before it. */
  lemma SeedRowAppends(env: SeedEnv, st: SeedState, row: SourceRow)
    ensures SeedRow(env, st, row).Running? ==> st.inserted <= SeedRow(env, st, row).state.inserted
    ensures SeedRow(env, st, row).Aborted? ==> st.inserted <= SeedRow(env, st, row).inserted
    ensures SeedRow(env, st, row).Running? ==> |SeedRow(env, st, row).state.inserted| <= |st.inserted| + 3
  {
  }

  /** The message a failed step throws names what failed. */
  lemma AbortMessages(env: SeedEnv, st: SeedState, row: SourceRow)
    requires SeedRow(env, st, row).Aborted?
    ensures var m := SeedRow(env, st, row).message;
            (exists e :: m == "Insert province " + ProvinceOf(row.provinceCode).value.name + ": " + e)
            || (exists e :: m == "Insert district " + Lower(row.districtName) + ": " + e)
            || (exists e :: m == "Insert city " + Lower(row.name) + ": " + e)
  {
    var p := ProvinceOf(row.provinceCode).value;
    var dn := Lower(row.districtName);
    if EnsureProvince(env, st, row.provinceCode, p).Err? {
      var d := ProvinceRow(env.countryId, p, NextId(env, st));
      var e := env.reject(d).value;
      assert SeedRow(env, st, row).message == "Insert province " + p.name + ": " + e;
    } else {
      var st1 := EnsureProvince(env, st, row.provinceCode, p).value;
      if EnsureDistrict(env, st1, DistrictKey(row), row.provinceCode, p, dn).Err? {
        var d := DistrictRow(env.countryId, p, dn, st1.provinces[row.provinceCode], NextId(env, st1));
        var e := env.reject(d).value;
        assert SeedRow(env, st, row).message == "Insert district " + dn + ": " + e;
      } else {
        var st2 := EnsureDistrict(env, st1, DistrictKey(row), row.provinceCode, p, dn).value;
        var d := CityRow(env.countryId, p, dn, row, row.wards.value, st2.districts[DistrictKey(row)], NextId(env, st2));
        var e := env.reject(d).value;
        assert SeedRow(env, st, row).message == "Insert city " + Lower(row.name) + ": " + e;
      }
    }
  }

  // ----- The Nepal country row -----

  /** The inserted country row. */
  function NepalCountry(id: int): Country {
    Country(id, "nepal", Some("\U{0928}\U{0947}\U{092A}\U{093E}\U{0932}"), "NP", "\U{1F1F3}\U{1F1F5}",
            "province>district>city>ward", "asia", Some("Asia/Kathmandu"), true, false, false, None)
  }

  /** Countries the lookup finds: ISO code "NP" and not deleted. */
  function LiveNepal(cs: seq<Country>): (r: seq<Country>)
    ensures forall c :: c in r <==> c in cs && c.isoCode == "NP" && !c.isDeleted
    ensures |r| <= |cs|
    decreases |cs|
  {
    if |cs| == 0 then []
    else
      var last := cs[|cs| - 1];
      LiveNepal(cs[..|cs| - 1]) + (if last.isoCode == "NP" && !last.isDeleted then [last] else [])
  }

  /** `ensureNepal`: a lookup that is not a single live Nepal row with a
      truthy id (none, several, or a failed lookup: `maybeSingle`'s error is
      not read) leads to an insert, whose failure is thrown. */
  function EnsureNepal(cs: seq<Country>, nextId: int, lookupFails: bool, insertFault: Option<string>): (r: Result<(int, seq<Country>), string>)
    // a reused id is the id of the single live Nepal row
    ensures r.Ok? && r.value.1 == cs ==> |LiveNepal(cs)| == 1 && LiveNepal(cs)[0].id == r.value.0 && r.value.0 != 0
    // otherwise exactly one Nepal row is appended, carrying the returned id
    ensures r.Ok? && r.value.1 != cs ==> r.value.1 == cs + [NepalCountry(r.value.0)]
    ensures r.Err? ==> insertFault.Some? && r.error == "Insert country: " + insertFault.value
    // a lookup that finds the single live Nepal row with a non-zero id reuses it
    ensures !lookupFails && |LiveNepal(cs)| == 1 && LiveNepal(cs)[0].id != 0 ==> r == Ok((LiveNepal(cs)[0].id, cs))
    // any other lookup inserts a row with the next id, unless the insert fails
    ensures !(!lookupFails && |LiveNepal(cs)| == 1 && LiveNepal(cs)[0].id != 0) ==>
              && (r.Err? <==> insertFault.Some?)
              && (r.Ok? ==> r.value == (nextId, cs + [NepalCountry(nextId)]))
  {
    var live := LiveNepal(cs);
    if !lookupFails && |live| == 1 && live[0].id != 0 then Ok((live[0].id, cs))
    else
      match insertFault
      case Some(e) => Err("Insert country: " + e)
      case None => Ok((nextId, cs + [NepalCountry(nextId)]))
  }

  lemma LiveNepalAppend(cs: seq<Country>, c: Country)
    ensures LiveNepal(cs + [c]) == LiveNepal(cs) + (if c.isoCode == "NP" && !c.isDeleted then [c] else [])
  {
    assert (cs + [c])[..|cs|] == cs;
  }

  /** Run on a store without a live Nepal row, the seed inserts one; run
      again, it finds that row and inserts nothing. */
  lemma EnsureNepalIdempotent(cs: seq<Country>, nextId: int, nextId2: int, fault: Option<string>)
    requires |LiveNepal(cs)| == 0 && nextId != 0
    requires EnsureNepal(cs, nextId, false, None).Ok?
    ensures var (id, cs1) := EnsureNepal(cs, nextId, false, None).value;
            && id == nextId
            && LiveNepal(cs1) == [NepalCountry(id)]
            && EnsureNepal(cs1, nextId2, false, fault) == Ok((id, cs1))
  {
    LiveNepalAppend(cs, NepalCountry(nextId));
  }

  /** Once there are two live Nepal rows, every run inserts another. */
  lemma DuplicatesGrow(cs: seq<Country>, nextId: int)
    requires |LiveNepal(cs)| >= 2
    ensures EnsureNepal(cs, nextId, false, None).Ok?
    ensures |LiveNepal(EnsureNepal(cs, nextId, false, None).value.1)| == |LiveNepal(cs)| + 1
  {
    LiveNepalAppend(cs, NepalCountry(nextId));
  }

  // ----- The script -----

  /** How the script ends. */
  datatype Outcome =
    | MissingCredentials
    | CountryFailed(message: string)
    | Seeded(countries: seq<Country>, run: Run)

  /** The process exit code: 1 for missing credentials and for anything
      thrown, 0 otherwise. */
  function ExitCode(o: Outcome): (r: int)
    ensures r == 0 <==> o.Seeded? && o.run.Running?
    ensures r in {0, 1}
  {
    match o
    case Seeded(_, Running(_)) => 0
    case _ => 1
  }

  const UrlVar := "SUPABASE_URL"
  const KeyVar := "SUPABASE_SERVICE_ROLE_KEY"

  /** A variable that is set and non-empty (`!url || !key`). */
  predicate IsSet(env: DevVars.Env, k: string) {
    k in env && env[k] != ""
  }

  /** `main`: the script as a whole; the store's behaviour is given by the country table, the next
      ids, the lookup and insert faults, and the rejection oracle. */
  function RunSeed(file: Option<string>, env0: DevVars.Env, cs: seq<Country>, nextCountryId: int,
                lookupFails: bool, countryFault: Option<string>,
                firstId: int, reject: AdminDivision -> Option<string>, rows: seq<SourceRow>): (r: Outcome)
    ensures r.MissingCredentials? <==> !IsSet(DevVars.LoadDevVars(file, env0), UrlVar) || !IsSet(DevVars.LoadDevVars(file, env0), KeyVar)
    ensures r.CountryFailed? ==> countryFault.Some? && r.message == "Insert country: " + countryFault.value
    // with credentials, the country step decides whether the loop runs at all
    ensures r.CountryFailed? <==>
              && IsSet(DevVars.LoadDevVars(file, env0), UrlVar) && IsSet(DevVars.LoadDevVars(file, env0), KeyVar)
              && EnsureNepal(cs, nextCountryId, lookupFails, countryFault).Err?
    // the loop runs under the id of the country row found or inserted
    ensures r.Seeded? ==>
              var e := EnsureNepal(cs, nextCountryId, lookupFails, countryFault);
              && e.Ok? && r.countries == e.value.1
              && r.run == SeedRows(SeedEnv(e.value.0, firstId, reject), rows)
  {
    var env := DevVars.LoadDevVars(file, env0);
    if !IsSet(env, UrlVar) || !IsSet(env, KeyVar) then MissingCredentials
    else
      match EnsureNepal(cs, nextCountryId, lookupFails, countryFault)
      case Err(e) => CountryFailed(e)
      case Ok((cid, cs1)) => Seeded(cs1, SeedRows(SeedEnv(cid, firstId, reject), rows))
  }

  /** Seeding a store without a live Nepal row, then seeding again: the
      second run finds the country the first inserted, adds no country row,
      and runs its loop under the same country id. */
  lemma RerunReusesCountry(file: Option<string>, env0: DevVars.Env, cs: seq<Country>, nextId: int, nextId2: int,
                           fault2: Option<string>, firstId: int, firstId2: int,
                           reject: AdminDivision -> Option<string>, rows: seq<SourceRow>)
    requires IsSet(DevVars.LoadDevVars(file, env0), UrlVar) && IsSet(DevVars.LoadDevVars(file, env0), KeyVar)
    requires |LiveNepal(cs)| == 0 && nextId != 0
    ensures var r1 := RunSeed(file, env0, cs, nextId, false, None, firstId, reject, rows);
            && r1.Seeded?
            && r1.run == SeedRows(SeedEnv(nextId, firstId, reject), rows)
            && var r2 := RunSeed(file, env0, r1.countries, nextId2, false, fault2, firstId2, reject, rows);
               && r2.Seeded?
               && r2.countries == r1.countries
               && r2.run == SeedRows(SeedEnv(nextId, firstId2, reject), rows)
  {
    EnsureNepalIdempotent(cs, nextId, nextId2, fault2);
  }

  /** Credentials already in the environment win over the file's. */
  lemma EnvironmentWins(file: Option<string>, env0: DevVars.Env)
    requires IsSet(env0, UrlVar) && IsSet(env0, KeyVar)
    ensures IsSet(DevVars.LoadDevVars(file, env0), UrlVar) && IsSet(DevVars.LoadDevVars(file, env0), KeyVar)
    ensures DevVars.LoadDevVars(file, env0)[UrlVar] == env0[UrlVar]
    ensures DevVars.LoadDevVars(file, env0)[KeyVar] == env0[KeyVar]
  {
    if file.Some? {
      var xs := DevVars.Parsed(Split(file.value, '\n'));
      DevVars.KeepsSetVariables(env0, xs, UrlVar);
      DevVars.KeepsSetVariables(env0, xs, KeyVar);
    }
  }
}

=== FILE: seeding_proofs.dfy ===
/** What a completed seed run leaves in the store: every province and every
    district key inserted once, every row linked to an earlier parent one
    level up, one city per data row with a ward count, and, when the data
    set names each district consistently, every path extending its
    parent's. */
module SeedingProofs {
  import opened Results
  import opened Text
  import opened Records
  import opened Seeding

  predicate IsIndex(env: SeedEnv, ins: seq<AdminDivision>, id: int) {
    env.firstId <= id < env.firstId + |ins|
  }

  /** The inserted row with id `id`. */
  function At(env: SeedEnv, ins: seq<AdminDivision>, id: int): AdminDivision
    requires IsIndex(env, ins, id)
  {
    ins[id - env.firstId]
  }

  /** Row `i` has id `firstId + i`, belongs to the country, is live, and
      has a parent exactly when it is below the top level: an earlier row
      one level up. */
  predicate RowOk(env: SeedEnv, ins: seq<AdminDivision>, i: int)
    requires 0 <= i < |ins|
  {
    var d := ins[i];
    && d.id == env.firstId + i
    && d.countryId == env.countryId
    && d.isActive && !d.isDeleted
    && 1 <= d.level <= 3
    && (d.level == 1 <==> d.parentId.None?)
    && (d.parentId.Some? ==> ParentOk(env, ins, i, d.parentId.value))
  }

  predicate ParentOk(env: SeedEnv, ins: seq<AdminDivision>, i: int, pid: int)
    requires 0 <= i < |ins|
  {
    env.firstId <= pid < env.firstId + i && ins[pid - env.firstId].level == ins[i].level - 1
  }

  predicate Rows(env: SeedEnv, ins: seq<AdminDivision>) {
    forall i :: 0 <= i < |ins| ==> RowOk(env, ins, i)
  }

  /** A province's path is `np>name`; any other row's path is its parent's
      path followed by `>name`. */
  predicate PathOk(env: SeedEnv, ins: seq<AdminDivision>, i: int)
    requires 0 <= i < |ins| && RowOk(env, ins, i)
  {
    match ins[i].parentId
    case None => ins[i].path == Iso + ">" + ins[i].name
    case Some(pid) => ins[i].path == ins[pid - env.firstId].path + ">" + ins[i].name
  }

  predicate Paths(env: SeedEnv, ins: seq<AdminDivision>)
    requires Rows(env, ins)
  {
    forall i :: 0 <= i < |ins| ==> PathOk(env, ins, i)
  }

  /** The key a province code was made from. */
  function CodeKey(code: string): string {
    if |code| >= 4 then code[4..] else code
  }

  /** Each recorded province key points at its province row. */
  predicate ProvincesRecorded(env: SeedEnv, st: SeedState) {
    forall key :: key in st.provinces ==>
      && ProvinceOf(key).Some?
      && IsIndex(env, st.inserted, st.provinces[key])
      && At(env, st.inserted, st.provinces[key]) == ProvinceRow(env.countryId, ProvinceOf(key).value, st.provinces[key])
  }

  /** Each province row is the row its code's key points at. */
  predicate ProvinceRowsKeyed(env: SeedEnv, st: SeedState) {
    forall i :: 0 <= i < |st.inserted| && st.inserted[i].level == 1 ==>
      && st.inserted[i].code.Some?
      && CodeKey(st.inserted[i].code.value) in st.provinces
      && st.provinces[CodeKey(st.inserted[i].code.value)] == env.firstId + i
  }

  /** Each recorded district key points at a district row. */
  predicate DistrictsRecorded(env: SeedEnv, st: SeedState) {
    forall dk :: dk in st.districts ==>
      IsIndex(env, st.inserted, st.districts[dk]) && At(env, st.inserted, st.districts[dk]).level == 2
  }

  /** Each district row is the row of some district key. */
  predicate DistrictRowsKeyed(env: SeedEnv, st: SeedState) {
    forall i :: 0 <= i < |st.inserted| && st.inserted[i].level == 2 ==>
      exists dk :: dk in st.districts && st.districts[dk] == env.firstId + i
  }

  /** Distinct district keys point at distinct rows. */
  predicate DistrictsInjective(st: SeedState) {
    forall a, b :: a in st.districts && b in st.districts && a != b ==> st.districts[a] != st.districts[b]
  }

  /** The district path a data row implies. */
  function DistrictPath(row: SourceRow): string
    requires Known(row)
  {
    Iso + ">" + ProvinceOf(row.provinceCode).value.name + ">" + Lower(row.districtName)
  }

  /** Every data row with a recorded district key agrees with that
      district row's path. */
  predicate DistrictPaths(env: SeedEnv, all: seq<SourceRow>, st: SeedState) {
    forall j :: 0 <= j < |all| && Known(all[j]) && DistrictKey(all[j]) in st.districts ==>
      && IsIndex(env, st.inserted, st.districts[DistrictKey(all[j])])
      && At(env, st.inserted, st.districts[DistrictKey(all[j])]).path == DistrictPath(all[j])
      && At(env, st.inserted, st.districts[DistrictKey(all[j])]).name == Lower(all[j].districtName)
  }

  /** Every data row with a recorded district key has its district row
      under its own recorded province. */
  predicate DistrictParents(env: SeedEnv, all: seq<SourceRow>, st: SeedState) {
    forall j :: 0 <= j < |all| && Known(all[j]) && DistrictKey(all[j]) in st.districts ==>
      && all[j].provinceCode in st.provinces
      && IsIndex(env, st.inserted, st.districts[DistrictKey(all[j])])
      && At(env, st.inserted, st.districts[DistrictKey(all[j])]).parentId == Some(st.provinces[all[j].provinceCode])
  }

  /** Rows with the same district key name the district the same way. */
  predicate Consistent(all: seq<SourceRow>) {
    forall i, j :: 0 <= i < |all| && 0 <= j < |all| && Known(all[i]) && DistrictKey(all[i]) == DistrictKey(all[j]) ==>
      Lower(all[i].districtName) == Lower(all[j].districtName)
  }

  /** `d` is the city row of data row `j`, under the district `districts`
      records for that row's key. */
  predicate CityFrom(env: SeedEnv, all: seq<SourceRow>, districts: map<string, int>, j: int, d: AdminDivision) {
    && 0 <= j < |all| && Known(all[j]) && all[j].wards.Some? && DistrictKey(all[j]) in districts
    && d == CityRow(env.countryId, ProvinceOf(all[j].provinceCode).value, Lower(all[j].districtName), all[j],
                    all[j].wards.value, districts[DistrictKey(all[j])], d.id)
  }

  /** Every city row is the city row of some data row with a ward count. */
  predicate CityRows(env: SeedEnv, all: seq<SourceRow>, st: SeedState) {
    forall i :: 0 <= i < |st.inserted| && st.inserted[i].level == 3 ==>
      exists j | 0 <= j < |all| :: CityFrom(env, all, st.districts, j, st.inserted[i])
  }

  predicate Shaped(env: SeedEnv, all: seq<SourceRow>, st: SeedState) {
    && Rows(env, st.inserted)
    && ProvincesRecorded(env, st)
    && ProvinceRowsKeyed(env, st)
    && DistrictsRecorded(env, st)
    && DistrictRowsKeyed(env, st)
    && DistrictsInjective(st)
    && DistrictParents(env, all, st)
    && (Consistent(all) ==> Paths(env, st.inserted) && DistrictPaths(env, all, st))
  }

  /** Number of city rows. */
  function CityCount(ins: seq<AdminDivision>): nat
    decreases |ins|
  {
    if |ins| == 0 then 0
    else CityCount(ins[..|ins| - 1]) + (if ins[|ins| - 1].level == 3 then 1 else 0)
  }

  /** Number of data rows that yield a city: a known province and a ward
      count. */
  function WardRows(rows: seq<SourceRow>): nat
    decreases |rows|
  {
    if |rows| == 0 then 0
    else WardRows(rows[..|rows| - 1]) + (if Known(rows[|rows| - 1]) && rows[|rows| - 1].wards.Some? then 1 else 0)
  }

  /** The province keys of the data rows with a known province. */
  function ProvinceKeys(rows: seq<SourceRow>): set<string>
    decreases |rows|
  {
    if |rows| == 0 then {}
    else ProvinceKeys(rows[..|rows| - 1]) + (if Known(rows[|rows| - 1]) then {rows[|rows| - 1].provinceCode} else {})
  }

  /** The district keys of the data rows with a known province. */
  function DistrictKeys(rows: seq<SourceRow>): set<string>
    decreases |rows|
  {
    if |rows| == 0 then {}
    else DistrictKeys(rows[..|rows| - 1]) + (if Known(rows[|rows| - 1]) then {DistrictKey(rows[|rows| - 1])} else {})
  }

  lemma {:induction false} KeysMeaning(rows: seq<SourceRow>, key: string)
    ensures key in ProvinceKeys(rows) <==> exists i :: 0 <= i < |rows| && Known(rows[i]) && rows[i].provinceCode == key
    ensures key in DistrictKeys(rows) <==> exists i :: 0 <= i < |rows| && Known(rows[i]) && DistrictKey(rows[i]) == key
    decreases |rows|
  {
    if |rows| > 0 {
      var init := rows[..|rows| - 1];
      KeysMeaning(init, key);
      assert forall i :: 0 <= i < |init| ==> init[i] == rows[i];
    }
  }

  /** Everything a run keeps true after the first `n` data rows. */
  predicate Inv(env: SeedEnv, all: seq<SourceRow>, n: nat, st: SeedState)
    requires n <= |all|
  {
    && Shaped(env, all, st)
    && st.provinces.Keys == ProvinceKeys(all[..n])
    && st.districts.Keys == DistrictKeys(all[..n])
    && CityCount(st.inserted) == WardRows(all[..n])
  }

  // ----- Appending a row -----

  lemma RowOkAppend(env: SeedEnv, ins: seq<AdminDivision>, d: AdminDivision, i: int)
    requires 0 <= i < |ins| && RowOk(env, ins, i)
    ensures RowOk(env, ins + [d], i)
    ensures PathOk(env, ins, i) ==> PathOk(env, ins + [d], i)
  {
    assert (ins + [d])[i] == ins[i];
    if ins[i].parentId.Some? {
      assert (ins + [d])[ins[i].parentId.value - env.firstId] == ins[ins[i].parentId.value - env.firstId];
    }
  }

  lemma RowsAppend(env: SeedEnv, ins: seq<AdminDivision>, d: AdminDivision)
    requires Rows(env, ins) && RowOk(env, ins + [d], |ins|)
    ensures Rows(env, ins + [d])
    ensures Paths(env, ins) && PathOk(env, ins + [d], |ins|) ==> Paths(env, ins + [d])
  {
    forall i | 0 <= i < |ins| {
      RowOkAppend(env, ins, d, i);
    }
    if Paths(env, ins) && PathOk(env, ins + [d], |ins|) {
      forall i | 0 <= i < |ins| + 1
        ensures PathOk(env, ins + [d], i)
      {
        if i < |ins| {
          RowOkAppend(env, ins, d, i);
        }
      }
    }
  }

  lemma CityCountAppend(ins: seq<AdminDivision>, d: AdminDivision)
    ensures CityCount(ins + [d]) == CityCount(ins) + (if d.level == 3 then 1 else 0)
  {
    assert (ins + [d])[..|ins|] == ins;
  }

  lemma KeysAppend(rows: seq<SourceRow>, x: SourceRow)
    ensures ProvinceKeys(rows + [x]) == ProvinceKeys(rows) + (if Known(x) then {x.provinceCode} else {})
    ensures DistrictKeys(rows + [x]) == DistrictKeys(rows) + (if Known(x) then {DistrictKey(x)} else {})
    ensures WardRows(rows + [x]) == WardRows(rows) + (if Known(x) && x.wards.Some? then 1 else 0)
  {
    assert (rows + [x])[..|rows|] == rows;
  }

  lemma AtAppend(env: SeedEnv, ins: seq<AdminDivision>, d: AdminDivision, id: int)
    requires IsIndex(env, ins, id)
    ensures IsIndex(env, ins + [d], id) && At(env, ins + [d], id) == At(env, ins, id)
  {
  }

  // ----- Appending a row leaves the other level's bookkeeping alone -----

  /** Appending a row keeps every recorded province. */
  lemma ProvincesRecordedKept(env: SeedEnv, st: SeedState, districts: map<string, int>, d: AdminDivision)
    requires ProvincesRecorded(env, st)
    ensures ProvincesRecorded(env, SeedState(st.provinces, districts, st.inserted + [d]))
  {
    forall k | k in st.provinces {
      AtAppend(env, st.inserted, d, st.provinces[k]);
    }
  }

  /** Appending a non-province row keeps every province row keyed. */
  lemma ProvinceRowsKeyedKept(env: SeedEnv, st: SeedState, districts: map<string, int>, d: AdminDivision)
    requires ProvinceRowsKeyed(env, st) && d.level != 1
    ensures ProvinceRowsKeyed(env, SeedState(st.provinces, districts, st.inserted + [d]))
  {
    var ins1 := st.inserted + [d];
    forall i | 0 <= i < |ins1| && ins1[i].level == 1
      ensures ins1[i] == st.inserted[i]
    {
    }
  }

  /** Appending a row keeps every recorded district. */
  lemma DistrictsRecordedKept(env: SeedEnv, st: SeedState, provinces: map<string, int>, d: AdminDivision)
    requires DistrictsRecorded(env, st)
    ensures DistrictsRecorded(env, SeedState(provinces, st.districts, st.inserted + [d]))
  {
    forall dk | dk in st.districts {
      AtAppend(env, st.inserted, d, st.districts[dk]);
    }
  }

  /** Appending a non-district row keeps every district row keyed. */
  lemma DistrictRowsKeyedKept(env: SeedEnv, st: SeedState, provinces: map<string, int>, d: AdminDivision)
    requires DistrictRowsKeyed(env, st) && d.level != 2
    ensures DistrictRowsKeyed(env, SeedState(provinces, st.districts, st.inserted + [d]))
  {
    var ins1 := st.inserted + [d];
    forall i | 0 <= i < |ins1| && ins1[i].level == 2
      ensures ins1[i] == st.inserted[i]
    {
    }
  }

  /** Appending a row keeps the district paths. */
  lemma DistrictPathsKept(env: SeedEnv, all: seq<SourceRow>, st: SeedState, provinces: map<string, int>, d: AdminDivision)
    requires DistrictPaths(env, all, st)
    ensures DistrictPaths(env, all, SeedState(provinces, st.districts, st.inserted + [d]))
  {
    forall j | 0 <= j < |all| && Known(all[j]) && DistrictKey(all[j]) in st.districts {
      AtAppend(env, st.inserted, d, st.districts[DistrictKey(all[j])]);
    }
  }

  /** Appending a row, and recording at most a new province, keeps every
      district under its province. */
  lemma DistrictParentsKept(env: SeedEnv, all: seq<SourceRow>, st: SeedState, provinces: map<string, int>, d: AdminDivision)
    requires DistrictParents(env, all, st)
    requires forall k :: k in st.provinces ==> k in provinces && provinces[k] == st.provinces[k]
    ensures DistrictParents(env, all, SeedState(provinces, st.districts, st.inserted + [d]))
  {
    forall j | 0 <= j < |all| && Known(all[j]) && DistrictKey(all[j]) in st.districts {
      AtAppend(env, st.inserted, d, st.districts[DistrictKey(all[j])]);
    }
  }

  /** Appending a non-city row, and recording at most new district keys,
      keeps every city row's content. */
  lemma CityRowsKept(env: SeedEnv, all: seq<SourceRow>, st: SeedState, st1: SeedState, d: AdminDivision)
    requires CityRows(env, all, st) && st1.inserted == st.inserted + [d] && d.level != 3
    requires forall k :: k in st.districts ==> k in st1.districts && st1.districts[k] == st.districts[k]
    ensures CityRows(env, all, st1)
  {
    forall i | 0 <= i < |st1.inserted| && st1.inserted[i].level == 3
      ensures exists j :: CityFrom(env, all, st1.districts, j, st1.inserted[i])
    {
      assert st1.inserted[i] == st.inserted[i];
      var j :| 0 <= j < |all| && CityFrom(env, all, st.districts, j, st.inserted[i]);
      assert DistrictKey(all[j]) in st.districts;
      assert CityFrom(env, all, st1.districts, j, st1.inserted[i]);
    }
  }

  /** Appending a non-district row keeps the district bookkeeping. */
  lemma DistrictsKept(env: SeedEnv, all: seq<SourceRow>, st: SeedState, provinces: map<string, int>, d: AdminDivision)
    requires DistrictsRecorded(env, st) && DistrictRowsKeyed(env, st) && DistrictsInjective(st) && d.level != 2
    requires Consistent(all) ==> DistrictPaths(env, all, st)
    ensures var st1 := SeedState(provinces, st.districts, st.inserted + [d]);
            && DistrictsRecorded(env, st1) && DistrictRowsKeyed(env, st1) && DistrictsInjective(st1)
            && (Consistent(all) ==> DistrictPaths(env, all, st1))
  {
    DistrictsRecordedKept(env, st, provinces, d);
    DistrictRowsKeyedKept(env, st, provinces, d);
    if Consistent(all) {
      DistrictPathsKept(env, all, st, provinces, d);
    }
  }

  // ----- The three inserts -----

  lemma ProvinceStepRows(env: SeedEnv, st: SeedState, p: Province)
    requires Rows(env, st.inserted) && p.name != "" && IsLower(p.name)
    ensures var ins1 := st.inserted + [ProvinceRow(env.countryId, p, NextId(env, st))];
            Rows(env, ins1) && (Paths(env, st.inserted) ==> Paths(env, ins1))
  {
    var ins := st.inserted;
    var d := ProvinceRow(env.countryId, p, NextId(env, st));
    LowerFacts(p.name);
    assert RowOk(env, ins + [d], |ins|);
    assert PathOk(env, ins + [d], |ins|);
    RowsAppend(env, ins, d);
  }

  lemma ProvinceStepKeys(env: SeedEnv, st: SeedState, key: string, p: Province)
    requires ProvincesRecorded(env, st) && ProvinceRowsKeyed(env, st)
    requires ProvinceOf(key) == Some(p) && key !in st.provinces
    ensures var d := ProvinceRow(env.countryId, p, NextId(env, st));
            var st1 := SeedState(st.provinces[key := d.id], st.districts, st.inserted + [d]);
            ProvincesRecorded(env, st1) && ProvinceRowsKeyed(env, st1)
  {
    var d := ProvinceRow(env.countryId, p, NextId(env, st));
    NewProvinceRecorded(env, st, key, d);
    assert CodeKey(d.code.value) == key by {
      assert ("NP-P" + key)[4..] == key;
    }
    NewProvinceKeyed(env, st, key, d);
  }

  /** Recording a new key at the appended row keeps every key recorded. */
  lemma NewProvinceRecorded(env: SeedEnv, st: SeedState, key: string, d: AdminDivision)
    requires ProvincesRecorded(env, st) && ProvinceOf(key).Some? && key !in st.provinces
    requires d == ProvinceRow(env.countryId, ProvinceOf(key).value, NextId(env, st))
    ensures ProvincesRecorded(env, SeedState(st.provinces[key := d.id], st.districts, st.inserted + [d]))
  {
    ProvincesRecordedKept(env, st, st.districts, d);
  }

  /** Appending a province row under its own code's new key keeps every
      province row keyed. */
  lemma NewProvinceKeyed(env: SeedEnv, st: SeedState, key: string, d: AdminDivision)
    requires ProvinceRowsKeyed(env, st) && key !in st.provinces
    requires d.code.Some? && CodeKey(d.code.value) == key && d.id == NextId(env, st)
    ensures ProvinceRowsKeyed(env, SeedState(st.provinces[key := d.id], st.districts, st.inserted + [d]))
  {
    var ins := st.inserted;
    var st1 := SeedState(st.provinces[key := d.id], st.districts, ins + [d]);
    forall i | 0 <= i < |st1.inserted| && st1.inserted[i].level == 1
      ensures st1.inserted[i].code.Some? && CodeKey(st1.inserted[i].code.value) in st1.provinces
      ensures st1.provinces[CodeKey(st1.inserted[i].code.value)] == env.firstId + i
    {
      if i < |ins| {
        assert st1.inserted[i] == ins[i];
      }
    }
  }

  /** Inserting a new province keeps the shape. */
  lemma ProvinceInsert(env: SeedEnv, all: seq<SourceRow>, st: SeedState, key: string, p: Province)
    requires Shaped(env, all, st) && ProvinceOf(key) == Some(p) && key !in st.provinces
    ensures var d := ProvinceRow(env.countryId, p, NextId(env, st));
            && Shaped(env, all, SeedState(st.provinces[key := d.id], st.districts, st.inserted + [d]))
            && CityCount(st.inserted + [d]) == CityCount(st.inserted)
  {
    var d := ProvinceRow(env.countryId, p, NextId(env, st));
    var st1 := SeedState(st.provinces[key := d.id], st.districts, st.inserted + [d]);
    ProvinceStepRows(env, st, p);
    ProvinceStepKeys(env, st, key, p);
    DistrictsKept(env, all, st, st1.provinces, d);
    DistrictParentsKept(env, all, st, st1.provinces, d);
    CityCountAppend(st.inserted, d);
  }

  lemma ProvinceStep(env: SeedEnv, all: seq<SourceRow>, st: SeedState, key: string, p: Province)
    requires Shaped(env, all, st) && ProvinceOf(key) == Some(p)
    requires EnsureProvince(env, st, key, p).Ok?
    ensures var st1 := EnsureProvince(env, st, key, p).value;
            && Shaped(env, all, st1)
            && st1.provinces.Keys == st.provinces.Keys + {key}
            && st1.districts == st.districts
            && CityCount(st1.inserted) == CityCount(st.inserted)
  {
    if key !in st.provinces {
      var d := ProvinceRow(env.countryId, p, NextId(env, st));
      ProvinceInsert(env, all, st, key, p);
      assert EnsureProvince(env, st, key, p).value == SeedState(st.provinces[key := d.id], st.districts, st.inserted + [d]);
    }
  }

  /** The district row inserted for data row `n`. */
  function NewDistrict(env: SeedEnv, all: seq<SourceRow>, n: nat, st: SeedState): AdminDivision
    requires n < |all| && Known(all[n]) && all[n].provinceCode in st.provinces
  {
    DistrictRow(env.countryId, ProvinceOf(all[n].provinceCode).value, Lower(all[n].districtName),
                st.provinces[all[n].provinceCode], NextId(env, st))
  }

  lemma DistrictStepRows(env: SeedEnv, all: seq<SourceRow>, n: nat, st: SeedState)
    requires n < |all| && Known(all[n]) && all[n].provinceCode in st.provinces
    requires Rows(env, st.inserted) && ProvincesRecorded(env, st)
    ensures var ins1 := st.inserted + [NewDistrict(env, all, n, st)];
            Rows(env, ins1) && (Paths(env, st.inserted) ==> Paths(env, ins1))
  {
    var ins := st.inserted;
    var key := all[n].provinceCode;
    var d := NewDistrict(env, all, n, st);
    var pid := st.provinces[key];
    LowerFacts(all[n].districtName);
    assert At(env, ins, pid) == ins[pid - env.firstId];
    assert (ins + [d])[pid - env.firstId] == ins[pid - env.firstId];
    assert RowOk(env, ins + [d], |ins|);
    assert PathOk(env, ins + [d], |ins|);
    RowsAppend(env, ins, d);
  }

  lemma DistrictStepRecorded(env: SeedEnv, st: SeedState, dk: string, d: AdminDivision)
    requires DistrictsRecorded(env, st) && d.level == 2
    ensures DistrictsRecorded(env, SeedState(st.provinces, st.districts[dk := NextId(env, st)], st.inserted + [d]))
  {
    var ins := st.inserted;
    var st1 := SeedState(st.provinces, st.districts[dk := NextId(env, st)], ins + [d]);
    forall k | k in st1.districts
      ensures IsIndex(env, st1.inserted, st1.districts[k]) && At(env, st1.inserted, st1.districts[k]).level == 2
    {
      if k != dk {
        AtAppend(env, ins, d, st.districts[k]);
      }
    }
  }

  lemma DistrictStepKeyed(env: SeedEnv, st: SeedState, dk: string, d: AdminDivision)
    requires DistrictRowsKeyed(env, st) && dk !in st.districts
    ensures DistrictRowsKeyed(env, SeedState(st.provinces, st.districts[dk := NextId(env, st)], st.inserted + [d]))
  {
    var ins := st.inserted;
    var st1 := SeedState(st.provinces, st.districts[dk := NextId(env, st)], ins + [d]);
    forall i | 0 <= i < |st1.inserted| && st1.inserted[i].level == 2
      ensures exists k :: k in st1.districts && st1.districts[k] == env.firstId + i
    {
      if i < |ins| {
        assert st1.inserted[i] == ins[i];
        var k :| k in st.districts && st.districts[k] == env.firstId + i;
        assert k != dk && st1.districts[k] == env.firstId + i;
      } else {
        assert st1.districts[dk] == env.firstId + i;
      }
    }
  }

  lemma DistrictStepInjective(env: SeedEnv, st: SeedState, dk: string, d: AdminDivision)
    requires DistrictsRecorded(env, st) && DistrictsInjective(st) && dk !in st.districts
    ensures DistrictsInjective(SeedState(st.provinces, st.districts[dk := NextId(env, st)], st.inserted + [d]))
  {
  }

  lemma DistrictStepPaths(env: SeedEnv, all: seq<SourceRow>, n: nat, st: SeedState)
    requires n < |all| && Known(all[n]) && all[n].provinceCode in st.provinces
    requires DistrictKey(all[n]) !in st.districts
    requires Consistent(all) && DistrictPaths(env, all, st)
    ensures var d := NewDistrict(env, all, n, st);
            var st1 := SeedState(st.provinces, st.districts[DistrictKey(all[n]) := d.id], st.inserted + [d]);
            DistrictPaths(env, all, st1)
  {
    var ins := st.inserted;
    var dk := DistrictKey(all[n]);
    var d := NewDistrict(env, all, n, st);
    var st1 := SeedState(st.provinces, st.districts[dk := d.id], ins + [d]);
    forall j | 0 <= j < |all| && Known(all[j]) && DistrictKey(all[j]) in st1.districts
      ensures IsIndex(env, st1.inserted, st1.districts[DistrictKey(all[j])])
      ensures At(env, st1.inserted, st1.districts[DistrictKey(all[j])]).path == DistrictPath(all[j])
    {
      if DistrictKey(all[j]) == dk {
        DistrictKeyProvince(all[j], all[n]);
        assert Lower(all[j].districtName) == Lower(all[n].districtName);
        LowerFacts(all[n].districtName);
        assert At(env, st1.inserted, d.id) == d;
      } else {
        AtAppend(env, ins, d, st.districts[DistrictKey(all[j])]);
      }
    }
  }

  lemma DistrictStepParents(env: SeedEnv, all: seq<SourceRow>, n: nat, st: SeedState)
    requires n < |all| && Known(all[n]) && all[n].provinceCode in st.provinces
    requires DistrictKey(all[n]) !in st.districts && DistrictParents(env, all, st)
    ensures var d := NewDistrict(env, all, n, st);
            var st1 := SeedState(st.provinces, st.districts[DistrictKey(all[n]) := d.id], st.inserted + [d]);
            DistrictParents(env, all, st1)
  {
    var ins := st.inserted;
    var dk := DistrictKey(all[n]);
    var d := NewDistrict(env, all, n, st);
    var st1 := SeedState(st.provinces, st.districts[dk := d.id], ins + [d]);
    forall j | 0 <= j < |all| && Known(all[j]) && DistrictKey(all[j]) in st1.districts
      ensures all[j].provinceCode in st1.provinces
      ensures IsIndex(env, st1.inserted, st1.districts[DistrictKey(all[j])])
      ensures At(env, st1.inserted, st1.districts[DistrictKey(all[j])]).parentId == Some(st1.provinces[all[j].provinceCode])
    {
      if DistrictKey(all[j]) == dk {
        DistrictKeyProvince(all[j], all[n]);
        assert At(env, st1.inserted, d.id) == d;
      } else {
        AtAppend(env, ins, d, st.districts[DistrictKey(all[j])]);
      }
    }
  }

  /** Inserting a new district keeps the shape. */
  lemma DistrictInsert(env: SeedEnv, all: seq<SourceRow>, n: nat, st: SeedState)
    requires n < |all| && Known(all[n]) && all[n].provinceCode in st.provinces
    requires DistrictKey(all[n]) !in st.districts && Shaped(env, all, st)
    ensures var d := NewDistrict(env, all, n, st);
            Shaped(env, all, SeedState(st.provinces, st.districts[DistrictKey(all[n]) := d.id], st.inserted + [d]))
  {
    var d := NewDistrict(env, all, n, st);
    var st1 := SeedState(st.provinces, st.districts[DistrictKey(all[n]) := d.id], st.inserted + [d]);
    DistrictStepRows(env, all, n, st);
    DistrictStepRecorded(env, st, DistrictKey(all[n]), d);
    DistrictStepKeyed(env, st, DistrictKey(all[n]), d);
    DistrictStepInjective(env, st, DistrictKey(all[n]), d);
    DistrictStepParents(env, all, n, st);
    ProvincesRecordedKept(env, st, st1.districts, d);
    ProvinceRowsKeyedKept(env, st, st1.districts, d);
    if Consistent(all) {
      DistrictStepPaths(env, all, n, st);
    }
  }

  /** The district step, when the key is new. */
  lemma DistrictStepNew(env: SeedEnv, all: seq<SourceRow>, n: nat, st: SeedState)
    requires n < |all| && Known(all[n]) && all[n].provinceCode in st.provinces && Shaped(env, all, st)
    requires DistrictKey(all[n]) !in st.districts
    ensures var d := NewDistrict(env, all, n, st);
            var st2 := SeedState(st.provinces, st.districts[DistrictKey(all[n]) := d.id], st.inserted + [d]);
            && Shaped(env, all, st2)
            && st2.districts.Keys == st.districts.Keys + {DistrictKey(all[n])}
            && CityCount(st2.inserted) == CityCount(st.inserted)
  {
    DistrictInsert(env, all, n, st);
    CityCountAppend(st.inserted, NewDistrict(env, all, n, st));
  }

  lemma DistrictStep(env: SeedEnv, all: seq<SourceRow>, n: nat, st: SeedState, p: Province, dn: string)
    requires n < |all| && Known(all[n]) && all[n].provinceCode in st.provinces && Shaped(env, all, st)
    requires p == ProvinceOf(all[n].provinceCode).value && dn == Lower(all[n].districtName)
    requires EnsureDistrict(env, st, DistrictKey(all[n]), all[n].provinceCode, p, dn).Ok?
    ensures var st2 := EnsureDistrict(env, st, DistrictKey(all[n]), all[n].provinceCode, p, dn).value;
            && Shaped(env, all, st2)
            && st2.provinces == st.provinces
            && st2.districts.Keys == st.districts.Keys + {DistrictKey(all[n])}
            && CityCount(st2.inserted) == CityCount(st.inserted)
  {
    if DistrictKey(all[n]) !in st.districts {
      DistrictStepResult(env, all, n, st);
      DistrictStepNew(env, all, n, st);
    }
  }

  lemma DistrictStepResult(env: SeedEnv, all: seq<SourceRow>, n: nat, st: SeedState)
    requires n < |all| && Known(all[n]) && all[n].provinceCode in st.provinces
    requires DistrictKey(all[n]) !in st.districts
    requires EnsureDistrict(env, st, DistrictKey(all[n]), all[n].provinceCode,
                            ProvinceOf(all[n].provinceCode).value, Lower(all[n].districtName)).Ok?
    ensures var d := NewDistrict(env, all, n, st);
            EnsureDistrict(env, st, DistrictKey(all[n]), all[n].provinceCode,
                           ProvinceOf(all[n].provinceCode).value, Lower(all[n].districtName)).value
            == SeedState(st.provinces, st.districts[DistrictKey(all[n]) := d.id], st.inserted + [d])
  {
  }

  /** The city row inserted for data row `n`. */
  function NewCity(env: SeedEnv, all: seq<SourceRow>, n: nat, st: SeedState): AdminDivision
    requires n < |all| && Known(all[n]) && all[n].wards.Some? && DistrictKey(all[n]) in st.districts
  {
    CityRow(env.countryId, ProvinceOf(all[n].provinceCode).value, Lower(all[n].districtName), all[n],
            all[n].wards.value, st.districts[DistrictKey(all[n])], NextId(env, st))
  }

  lemma CityStepRows(env: SeedEnv, all: seq<SourceRow>, n: nat, st: SeedState)
    requires n < |all| && Known(all[n]) && all[n].wards.Some? && DistrictKey(all[n]) in st.districts
    requires Rows(env, st.inserted) && DistrictsRecorded(env, st)
    requires Consistent(all) ==> Paths(env, st.inserted) && DistrictPaths(env, all, st)
    ensures var ins1 := st.inserted + [NewCity(env, all, n, st)];
            Rows(env, ins1) && (Consistent(all) ==> Paths(env, ins1))
  {
    var ins := st.inserted;
    var d := NewCity(env, all, n, st);
    var did := st.districts[DistrictKey(all[n])];
    assert At(env, ins, did) == ins[did - env.firstId];
    assert (ins + [d])[did - env.firstId] == ins[did - env.firstId];
    assert RowOk(env, ins + [d], |ins|);
    if Consistent(all) {
      LowerFacts(all[n].name);
      assert PathOk(env, ins + [d], |ins|);
    }
    RowsAppend(env, ins, d);
  }

  lemma CityStepCities(env: SeedEnv, all: seq<SourceRow>, n: nat, st: SeedState)
    requires n < |all| && Known(all[n]) && all[n].wards.Some? && DistrictKey(all[n]) in st.districts
    requires CityRows(env, all, st)
    ensures CityRows(env, all, SeedState(st.provinces, st.districts, st.inserted + [NewCity(env, all, n, st)]))
  {
    var d := NewCity(env, all, n, st);
    var st1 := SeedState(st.provinces, st.districts, st.inserted + [d]);
    forall i | 0 <= i < |st1.inserted| && st1.inserted[i].level == 3
      ensures exists j :: CityFrom(env, all, st1.districts, j, st1.inserted[i])
    {
      if i < |st.inserted| {
        assert st1.inserted[i] == st.inserted[i];
        var j :| 0 <= j < |all| && CityFrom(env, all, st.districts, j, st.inserted[i]);
        assert CityFrom(env, all, st1.districts, j, st1.inserted[i]);
      } else {
        assert CityFrom(env, all, st1.districts, n, st1.inserted[i]);
      }
    }
  }

  lemma CityStep(env: SeedEnv, all: seq<SourceRow>, n: nat, st: SeedState)
    requires n < |all| && Known(all[n]) && all[n].wards.Some? && DistrictKey(all[n]) in st.districts
    requires Shaped(env, all, st)
    requires AddCity(env, st, DistrictKey(all[n]), ProvinceOf(all[n].provinceCode).value,
                     Lower(all[n].districtName), all[n], all[n].wards.value).Ok?
    ensures var st3 := AddCity(env, st, DistrictKey(all[n]), ProvinceOf(all[n].provinceCode).value,
                               Lower(all[n].districtName), all[n], all[n].wards.value).value;
            && Shaped(env, all, st3)
            && st3.provinces == st.provinces && st3.districts == st.districts
            && CityCount(st3.inserted) == CityCount(st.inserted) + 1
  {
    var d := NewCity(env, all, n, st);
    CityStepRows(env, all, n, st);
    ProvincesRecordedKept(env, st, st.districts, d);
    ProvinceRowsKeyedKept(env, st, st.districts, d);
    DistrictsKept(env, all, st, st.provinces, d);
    DistrictParentsKept(env, all, st, st.provinces, d);
    CityCountAppend(st.inserted, d);
  }

  // ----- The loop -----

  /** A known row's iteration, spelled out: the province step, the
      district step, and the city step when there is a ward count. */
  lemma SeedRowUnfold(env: SeedEnv, st: SeedState, row: SourceRow)
    requires Known(row) && SeedRow(env, st, row).Running?
    ensures var p := ProvinceOf(row.provinceCode).value;
            var dn := Lower(row.districtName);
            && EnsureProvince(env, st, row.provinceCode, p).Ok?
            && var st1 := EnsureProvince(env, st, row.provinceCode, p).value;
               && EnsureDistrict(env, st1, DistrictKey(row), row.provinceCode, p, dn).Ok?
               && var st2 := EnsureDistrict(env, st1, DistrictKey(row), row.provinceCode, p, dn).value;
                  SeedRow(env, st, row).state
                    == if row.wards.None? then st2 else AddCity(env, st2, DistrictKey(row), p, dn, row, row.wards.value).value
  {
  }

  /** A known row's iteration keeps the shape and adds its keys and its
      city. */
  lemma KnownRowStep(env: SeedEnv, all: seq<SourceRow>, n: nat, st: SeedState)
    requires n < |all| && Known(all[n]) && Shaped(env, all, st) && SeedRow(env, st, all[n]).Running?
    ensures var st3 := SeedRow(env, st, all[n]).state;
            && Shaped(env, all, st3)
            && st3.provinces.Keys == st.provinces.Keys + {all[n].provinceCode}
            && st3.districts.Keys == st.districts.Keys + {DistrictKey(all[n])}
            && CityCount(st3.inserted) == CityCount(st.inserted) + (if all[n].wards.Some? then 1 else 0)
  {
    var row := all[n];
    SeedRowUnfold(env, st, row);
    var p := ProvinceOf(row.provinceCode).value;
    ProvinceStep(env, all, st, row.provinceCode, p);
    var st1 := EnsureProvince(env, st, row.provinceCode, p).value;
    var dn := Lower(row.districtName);
    DistrictStep(env, all, n, st1, p, dn);
    var st2 := EnsureDistrict(env, st1, DistrictKey(row), row.provinceCode, p, dn).value;
    if row.wards.Some? {
      CityStep(env, all, n, st2);
    }
  }

  /** One iteration keeps the invariant, one data row further on. */
  lemma SeedRowStep(env: SeedEnv, all: seq<SourceRow>, n: nat, st: SeedState)
    requires n < |all| && Inv(env, all, n, st) && SeedRow(env, st, all[n]).Running?
    ensures Inv(env, all, n + 1, SeedRow(env, st, all[n]).state)
  {
    var row := all[n];
    RowStep(env, all, n, st);
    assert all[..n + 1] == all[..n] + [row];
    KeysAppend(all[..n], row);
  }

  /** One data row, known or not: the shape is kept and the key maps grow by
      the row's own keys. */
  lemma RowStep(env: SeedEnv, all: seq<SourceRow>, n: nat, st: SeedState)
    requires n < |all| && Shaped(env, all, st) && SeedRow(env, st, all[n]).Running?
    ensures var st3 := SeedRow(env, st, all[n]).state;
            && Shaped(env, all, st3)
            && st3.provinces.Keys == st.provinces.Keys + (if Known(all[n]) then {all[n].provinceCode} else {})
            && st3.districts.Keys == st.districts.Keys + (if Known(all[n]) then {DistrictKey(all[n])} else {})
            && CityCount(st3.inserted) == CityCount(st.inserted) + (if Known(all[n]) && all[n].wards.Some? then 1 else 0)
  {
    if Known(all[n]) {
      KnownRowStep(env, all, n, st);
    } else {
      assert SeedRow(env, st, all[n]) == Running(st);
    }
  }

  /** A run over the first `n` rows is the run over the first `n - 1` rows,
      then one more row, unless it has already aborted. */
  lemma SeedRowsPrefix(env: SeedEnv, all: seq<SourceRow>, n: nat)
    requires 0 < n <= |all|
    ensures SeedRows(env, all[..n - 1]).Aborted? ==> SeedRows(env, all[..n]) == SeedRows(env, all[..n - 1])
    ensures SeedRows(env, all[..n - 1]).Running? ==>
              SeedRows(env, all[..n]) == SeedRow(env, SeedRows(env, all[..n - 1]).state, all[n - 1])
  {
    var rows := all[..n];
    assert rows[..n - 1] == all[..n - 1];
    assert rows[n - 1] == all[n - 1];
  }

  /** The invariant holds after every prefix of the data set the run gets
      through. */
  lemma {:induction false} SeedInvariant(env: SeedEnv, all: seq<SourceRow>, n: nat)
    requires n <= |all|
    ensures SeedRows(env, all[..n]).Running? ==> Inv(env, all, n, SeedRows(env, all[..n]).state)
  {
    if n == 0 {
      assert all[..0] == [];
    } else {
      SeedInvariant(env, all, n - 1);
      SeedRowsPrefix(env, all, n);
      if SeedRows(env, all[..n - 1]).Running? {
        var st := SeedRows(env, all[..n - 1]).state;
        if SeedRow(env, st, all[n - 1]).Running? {
          SeedRowStep(env, all, n - 1, st);
        }
      }
    }
  }

  /** The invariant after the whole data set, stated on the data set. */
  lemma InvWhole(env: SeedEnv, rows: seq<SourceRow>, st: SeedState)
    requires Inv(env, rows, |rows|, st)
    ensures Shaped(env, rows, st)
    ensures st.provinces.Keys == ProvinceKeys(rows) && st.districts.Keys == DistrictKeys(rows)
    ensures CityCount(st.inserted) == WardRows(rows)
  {
    assert rows[..|rows|] == rows;
  }

  /** The invariant of a completed run. */
  lemma Completed(env: SeedEnv, rows: seq<SourceRow>)
    requires SeedRows(env, rows).Running?
    ensures Shaped(env, rows, SeedRows(env, rows).state)
    ensures SeedRows(env, rows).state.provinces.Keys == ProvinceKeys(rows)
    ensures SeedRows(env, rows).state.districts.Keys == DistrictKeys(rows)
    ensures CityCount(SeedRows(env, rows).state.inserted) == WardRows(rows)
  {
    SeedInvariant(env, rows, |rows|);
    assert rows[..|rows|] == rows;
    InvWhole(env, rows, SeedRows(env, rows).state);
  }

  // ----- The city rows -----

  /** One data row's province and district steps keep every city row's
      content: they append a province or a district row and only record new
      keys. */
  lemma CityRowsBeforeCity(env: SeedEnv, all: seq<SourceRow>, st: SeedState, row: SourceRow)
    requires Known(row) && CityRows(env, all, st)
    requires var p := ProvinceOf(row.provinceCode).value;
             && EnsureProvince(env, st, row.provinceCode, p).Ok?
             && EnsureDistrict(env, EnsureProvince(env, st, row.provinceCode, p).value, DistrictKey(row), row.provinceCode, p, Lower(row.districtName)).Ok?
    ensures var p := ProvinceOf(row.provinceCode).value;
            var st1 := EnsureProvince(env, st, row.provinceCode, p).value;
            var st2 := EnsureDistrict(env, st1, DistrictKey(row), row.provinceCode, p, Lower(row.districtName)).value;
            && CityRows(env, all, st2) && st2.provinces == st1.provinces
            && row.provinceCode in st2.provinces && DistrictKey(row) in st2.districts
  {
    var p := ProvinceOf(row.provinceCode).value;
    var dn := Lower(row.districtName);
    var st1 := EnsureProvince(env, st, row.provinceCode, p).value;
    if row.provinceCode !in st.provinces {
      CityRowsKept(env, all, st, st1, ProvinceRow(env.countryId, p, NextId(env, st)));
    }
    var st2 := EnsureDistrict(env, st1, DistrictKey(row), row.provinceCode, p, dn).value;
    if DistrictKey(row) !in st1.districts {
      CityRowsKept(env, all, st1, st2, DistrictRow(env.countryId, p, dn, st1.provinces[row.provinceCode], NextId(env, st1)));
    }
  }

  /** One iteration keeps every city row's content. */
  lemma CityRowsStep(env: SeedEnv, all: seq<SourceRow>, n: nat, st: SeedState)
    requires n < |all| && CityRows(env, all, st) && SeedRow(env, st, all[n]).Running?
    ensures CityRows(env, all, SeedRow(env, st, all[n]).state)
  {
    var row := all[n];
    if Known(row) {
      SeedRowUnfold(env, st, row);
      CityRowsBeforeCity(env, all, st, row);
      var p := ProvinceOf(row.provinceCode).value;
      var st1 := EnsureProvince(env, st, row.provinceCode, p).value;
      var st2 := EnsureDistrict(env, st1, DistrictKey(row), row.provinceCode, p, Lower(row.districtName)).value;
      if row.wards.Some? {
        CityStepCities(env, all, n, st2);
        assert AddCity(env, st2, DistrictKey(row), p, Lower(row.districtName), row, row.wards.value).value
               == SeedState(st2.provinces, st2.districts, st2.inserted + [NewCity(env, all, n, st2)]);
      }
    } else {
      assert SeedRow(env, st, row) == Running(st);
    }
  }

  /** Every prefix of the data set the run gets through leaves only city
      rows of data rows. */
  lemma {:induction false} CitiesInvariant(env: SeedEnv, all: seq<SourceRow>, n: nat)
    requires n <= |all|
    ensures SeedRows(env, all[..n]).Running? ==> CityRows(env, all, SeedRows(env, all[..n]).state)
  {
    if n > 0 {
      CitiesInvariant(env, all, n - 1);
      SeedRowsPrefix(env, all, n);
      if SeedRows(env, all[..n - 1]).Running? {
        var st := SeedRows(env, all[..n - 1]).state;
        if SeedRow(env, st, all[n - 1]).Running? {
          CityRowsStep(env, all, n - 1, st);
        }
      }
    }
  }

  // ----- The city rows, in order -----

  /** The city rows among the inserted rows, in insertion order. */
  function Cities(ins: seq<AdminDivision>): seq<AdminDivision>
    decreases |ins|
  {
    if |ins| == 0 then []
    else Cities(ins[..|ins| - 1]) + (if ins[|ins| - 1].level == 3 then [ins[|ins| - 1]] else [])
  }

  /** The data rows that yield a city, in data-set order. */
  function WardList(rows: seq<SourceRow>): seq<SourceRow>
    decreases |rows|
  {
    if |rows| == 0 then []
    else WardList(rows[..|rows| - 1])
         + (if Known(rows[|rows| - 1]) && rows[|rows| - 1].wards.Some? then [rows[|rows| - 1]] else [])
  }

  /** `d` is the city row of data row `r`, under `r`'s recorded district. */
  predicate CityOf(env: SeedEnv, districts: map<string, int>, r: SourceRow, d: AdminDivision) {
    && Known(r) && r.wards.Some? && DistrictKey(r) in districts
    && d == CityRow(env.countryId, ProvinceOf(r.provinceCode).value, Lower(r.districtName), r,
                    r.wards.value, districts[DistrictKey(r)], d.id)
  }

  /** The k-th city row is the city row of the k-th data row with a known
      province and a ward count, and there are as many of each. */
  ghost predicate CitiesInOrder(env: SeedEnv, rows: seq<SourceRow>, st: SeedState) {
    && |Cities(st.inserted)| == |WardList(rows)|
    && forall k :: 0 <= k < |WardList(rows)| ==> CityOf(env, st.districts, WardList(rows)[k], Cities(st.inserted)[k])
  }

  lemma CitiesAppend(ins: seq<AdminDivision>, d: AdminDivision)
    ensures Cities(ins + [d]) == Cities(ins) + (if d.level == 3 then [d] else [])
  {
    assert (ins + [d])[..|ins|] == ins;
  }

  lemma WardListAppend(rows: seq<SourceRow>, row: SourceRow)
    ensures WardList(rows + [row]) == WardList(rows) + (if Known(row) && row.wards.Some? then [row] else [])
  {
    assert (rows + [row])[..|rows|] == rows;
  }

  /** Appending a non-city row, and recording at most new district keys,
      keeps the cities in order. */
  lemma CitiesInOrderKept(env: SeedEnv, rows: seq<SourceRow>, st: SeedState, st1: SeedState, d: AdminDivision)
    requires CitiesInOrder(env, rows, st) && st1.inserted == st.inserted + [d] && d.level != 3
    requires forall k :: k in st.districts ==> k in st1.districts && st1.districts[k] == st.districts[k]
    ensures CitiesInOrder(env, rows, st1)
  {
    CitiesAppend(st.inserted, d);
    forall k | 0 <= k < |WardList(rows)|
      ensures CityOf(env, st1.districts, WardList(rows)[k], Cities(st1.inserted)[k])
    {
      assert CityOf(env, st.districts, WardList(rows)[k], Cities(st.inserted)[k]);
    }
  }

  /** The city row of a data row with a ward count extends both lists by
      one matching entry. */
  lemma CitiesInOrderCity(env: SeedEnv, rows: seq<SourceRow>, st: SeedState, row: SourceRow, d: AdminDivision)
    requires CitiesInOrder(env, rows, st) && Known(row) && row.wards.Some? && DistrictKey(row) in st.districts
    requires d == CityRow(env.countryId, ProvinceOf(row.provinceCode).value, Lower(row.districtName), row,
                          row.wards.value, st.districts[DistrictKey(row)], NextId(env, st))
    ensures CitiesInOrder(env, rows + [row], SeedState(st.provinces, st.districts, st.inserted + [d]))
  {
    CitiesAppend(st.inserted, d);
    WardListAppend(rows, row);
    var st1 := SeedState(st.provinces, st.districts, st.inserted + [d]);
    forall k | 0 <= k < |WardList(rows + [row])|
      ensures CityOf(env, st1.districts, WardList(rows + [row])[k], Cities(st1.inserted)[k])
    {
      if k < |WardList(rows)| {
        assert CityOf(env, st.districts, WardList(rows)[k], Cities(st.inserted)[k]);
      }
    }
  }

  /** One data row's province and district steps keep the cities in order. */
  lemma CitiesInOrderBeforeCity(env: SeedEnv, rows: seq<SourceRow>, st: SeedState, row: SourceRow)
    requires Known(row) && CitiesInOrder(env, rows, st)
    requires var p := ProvinceOf(row.provinceCode).value;
             && EnsureProvince(env, st, row.provinceCode, p).Ok?
             && EnsureDistrict(env, EnsureProvince(env, st, row.provinceCode, p).value, DistrictKey(row), row.provinceCode, p, Lower(row.districtName)).Ok?
    ensures var p := ProvinceOf(row.provinceCode).value;
            var st1 := EnsureProvince(env, st, row.provinceCode, p).value;
            var st2 := EnsureDistrict(env, st1, DistrictKey(row), row.provinceCode, p, Lower(row.districtName)).value;
            CitiesInOrder(env, rows, st2) && DistrictKey(row) in st2.districts
  {
    var p := ProvinceOf(row.provinceCode).value;
    var dn := Lower(row.districtName);
    var st1 := EnsureProvince(env, st, row.provinceCode, p).value;
    if row.provinceCode !in st.provinces {
      CitiesInOrderKept(env, rows, st, st1, ProvinceRow(env.countryId, p, NextId(env, st)));
    }
    var st2 := EnsureDistrict(env, st1, DistrictKey(row), row.provinceCode, p, dn).value;
    if DistrictKey(row) !in st1.districts {
      CitiesInOrderKept(env, rows, st1, st2, DistrictRow(env.countryId, p, dn, st1.provinces[row.provinceCode], NextId(env, st1)));
    }
  }

  /** One iteration keeps the cities in order, one data row further on. */
  lemma CitiesInOrderStep(env: SeedEnv, rows: seq<SourceRow>, st: SeedState, row: SourceRow)
    requires CitiesInOrder(env, rows, st) && SeedRow(env, st, row).Running?
    ensures CitiesInOrder(env, rows + [row], SeedRow(env, st, row).state)
  {
    if Known(row) {
      SeedRowUnfold(env, st, row);
      CitiesInOrderBeforeCity(env, rows, st, row);
      var p := ProvinceOf(row.provinceCode).value;
      var dn := Lower(row.districtName);
      var st1 := EnsureProvince(env, st, row.provinceCode, p).value;
      var st2 := EnsureDistrict(env, st1, DistrictKey(row), row.provinceCode, p, dn).value;
      if row.wards.Some? {
        var d := CityRow(env.countryId, p, dn, row, row.wards.value, st2.districts[DistrictKey(row)], NextId(env, st2));
        CitiesInOrderCity(env, rows, st2, row, d);
        assert AddCity(env, st2, DistrictKey(row), p, dn, row, row.wards.value).value
               == SeedState(st2.provinces, st2.districts, st2.inserted + [d]);
      } else {
        WardListAppend(rows, row);
      }
    } else {
      assert SeedRow(env, st, row) == Running(st);
      WardListAppend(rows, row);
    }
  }

  /** Every prefix of the data set the run gets through has its cities in
      the order of its data rows with ward counts. */
  lemma {:induction false} CitiesInOrderInvariant(env: SeedEnv, all: seq<SourceRow>, n: nat)
    requires n <= |all|
    ensures SeedRows(env, all[..n]).Running? ==> CitiesInOrder(env, all[..n], SeedRows(env, all[..n]).state)
  {
    if n == 0 {
      assert all[..0] == [];
    } else {
      CitiesInOrderInvariant(env, all, n - 1);
      SeedRowsPrefix(env, all, n);
      if SeedRows(env, all[..n - 1]).Running? {
        var st := SeedRows(env, all[..n - 1]).state;
        if SeedRow(env, st, all[n - 1]).Running? {
          CitiesInOrderStep(env, all[..n - 1], st, all[n - 1]);
          assert all[..n] == all[..n - 1] + [all[n - 1]];
        }
      }
    }
  }

  // ----- What a completed run leaves -----

  /** Every province and every district key of the data set (with a known
      province) is recorded, and no other. */
  lemma EveryKeyRecorded(env: SeedEnv, rows: seq<SourceRow>, key: string)
    requires SeedRows(env, rows).Running?
    ensures key in SeedRows(env, rows).state.provinces <==>
              exists i :: 0 <= i < |rows| && Known(rows[i]) && rows[i].provinceCode == key
    ensures key in SeedRows(env, rows).state.districts <==>
              exists i :: 0 <= i < |rows| && Known(rows[i]) && DistrictKey(rows[i]) == key
  {
    Completed(env, rows);
    KeysMeaning(rows, key);
  }

  /** Each province is inserted once, as its table entry: distinct province
      rows have distinct codes, and each recorded key's row is the table's
      province with `np>name` as its path. */
  lemma ProvincesOnce(env: SeedEnv, rows: seq<SourceRow>)
    requires SeedRows(env, rows).Running?
    ensures var ins := SeedRows(env, rows).state.inserted;
            forall i, j :: 0 <= i < j < |ins| && ins[i].level == 1 && ins[j].level == 1 ==> ins[i].code != ins[j].code
    ensures var st := SeedRows(env, rows).state;
            forall key :: key in st.provinces ==>
              ProvinceOf(key).Some? && IsIndex(env, st.inserted, st.provinces[key])
              && At(env, st.inserted, st.provinces[key]) == ProvinceRow(env.countryId, ProvinceOf(key).value, st.provinces[key])
  {
    Completed(env, rows);
  }

  /** Each district key is inserted once: every district row is the row of
      exactly one recorded key. */
  lemma DistrictsOnce(env: SeedEnv, rows: seq<SourceRow>)
    requires SeedRows(env, rows).Running?
    ensures var st := SeedRows(env, rows).state;
            forall i :: 0 <= i < |st.inserted| && st.inserted[i].level == 2 ==>
              exists dk :: dk in st.districts && st.districts[dk] == env.firstId + i
    ensures var st := SeedRows(env, rows).state;
            forall a, b :: a in st.districts && b in st.districts && st.districts[a] == st.districts[b] ==> a == b
    ensures var st := SeedRows(env, rows).state;
            forall dk :: dk in st.districts ==>
              IsIndex(env, st.inserted, st.districts[dk]) && At(env, st.inserted, st.districts[dk]).level == 2
    // each data row's district sits under that row's own province
    ensures var st := SeedRows(env, rows).state;
            forall i :: 0 <= i < |rows| && Known(rows[i]) ==>
              && DistrictKey(rows[i]) in st.districts && rows[i].provinceCode in st.provinces
              && IsIndex(env, st.inserted, st.districts[DistrictKey(rows[i])])
              && At(env, st.inserted, st.districts[DistrictKey(rows[i])]).parentId == Some(st.provinces[rows[i].provinceCode])
    // and, when the data set names each district one way, carries that name lower-cased
    ensures var st := SeedRows(env, rows).state;
            Consistent(rows) ==>
              forall i :: 0 <= i < |rows| && Known(rows[i]) ==>
                && DistrictKey(rows[i]) in st.districts
                && IsIndex(env, st.inserted, st.districts[DistrictKey(rows[i])])
                && At(env, st.inserted, st.districts[DistrictKey(rows[i])]).name == Lower(rows[i].districtName)
  {
    Completed(env, rows);
    var st := SeedRows(env, rows).state;
    forall i | 0 <= i < |rows| && Known(rows[i])
      ensures DistrictKey(rows[i]) in st.districts
    {
      KeysMeaning(rows, DistrictKey(rows[i]));
    }
  }

  /** Every inserted row has the next id, belongs to the country, is live,
      and sits under an earlier row exactly one level up (provinces at the
      top). */
  lemma EveryRowLinked(env: SeedEnv, rows: seq<SourceRow>)
    requires SeedRows(env, rows).Running?
    ensures Rows(env, SeedRows(env, rows).state.inserted)
  {
    Completed(env, rows);
  }

  /** When the data set names each district the same way on every row, the
      paths form the hierarchy: a province's path is `np>name` and every
      other row's path is its parent's followed by `>name`. */
  lemma PathsFollowParents(env: SeedEnv, rows: seq<SourceRow>)
    requires Consistent(rows) && SeedRows(env, rows).Running?
    ensures Rows(env, SeedRows(env, rows).state.inserted)
    ensures Paths(env, SeedRows(env, rows).state.inserted)
  {
    Completed(env, rows);
  }

  /** Each city row is the city row of one data row with a known province
      and a ward count: under that row's recorded district, with the id of
      its position. */
  ghost predicate CitiesFromRows(env: SeedEnv, rows: seq<SourceRow>, st: SeedState) {
    forall i :: 0 <= i < |st.inserted| && st.inserted[i].level == 3 ==>
      exists j :: && 0 <= j < |rows| && Known(rows[j]) && rows[j].wards.Some? && DistrictKey(rows[j]) in st.districts
                  && st.inserted[i] == CityRow(env.countryId, ProvinceOf(rows[j].provinceCode).value,
                                               Lower(rows[j].districtName), rows[j], rows[j].wards.value,
                                               st.districts[DistrictKey(rows[j])], env.firstId + i)
  }

  /** One city per data row with a known province and a ward count, each
      built from its data row. */
  lemma CityPerWardRow(env: SeedEnv, rows: seq<SourceRow>, st: SeedState)
    requires SeedRows(env, rows) == Running(st)
    ensures CityCount(st.inserted) == WardRows(rows)
    ensures CitiesFromRows(env, rows, st)
    ensures CitiesInOrder(env, rows, st)
  {
    Completed(env, rows);
    CitiesInvariant(env, rows, |rows|);
    CitiesInOrderInvariant(env, rows, |rows|);
    assert rows[..|rows|] == rows;
    CitiesOfShape(env, rows, st);
  }

  /** With ids in order, each city row is the city row of one data row. */
  lemma CitiesOfShape(env: SeedEnv, rows: seq<SourceRow>, st: SeedState)
    requires Rows(env, st.inserted) && CityRows(env, rows, st)
    ensures CitiesFromRows(env, rows, st)
  {
    forall i | 0 <= i < |st.inserted| && st.inserted[i].level == 3
      ensures exists j :: && 0 <= j < |rows| && Known(rows[j]) && rows[j].wards.Some? && DistrictKey(rows[j]) in st.districts
                          && st.inserted[i] == CityRow(env.countryId, ProvinceOf(rows[j].provinceCode).value,
                                                       Lower(rows[j].districtName), rows[j], rows[j].wards.value,
                                                       st.districts[DistrictKey(rows[j])], env.firstId + i)
    {
      assert RowOk(env, st.inserted, i);
      var j :| 0 <= j < |rows| && CityFrom(env, rows, st.districts, j, st.inserted[i]);
    }
  }
}

=== FILE: store.dfy ===
/** The store as the routes see it: a snapshot of both tables, a possible
    failure of the call, list and single-row fetches, and the mapping of
    their outcome to an HTTP response. */
module Store {
  import opened Results
  import opened Records
  import opened Query

  /** An error reported by the store: a code and a message. */
  datatype StoreError = StoreError(code: string, message: string)

  /** The code the store reports when `.single()` finds zero or several rows. */
  const NoSingleRow := "PGRST116"
  const NoSingleRowMessage := "JSON object requested, multiple (or no) rows returned"
  const NotFoundMessage := "Not found"
  const InvalidCountryIdMessage := "Invalid country id"
  const InvalidIdMessage := "Invalid id"
  const ShortQueryMessage := "Query 'q' required (min 2 chars)"

  /** The soft-delete filter every read applies. */
  const NotDeleted := Eq(IsDeleted, Bool(false))

  /** Both tables, and the failure (if any) the next call runs into. */
  datatype Db = Db(countries: seq<Country>, divisions: seq<AdminDivision>, fault: Option<StoreError>)

  /** A route's answer: a JSON array of rows rendered under `columns`, one
      row, or an error status with its `{ error }` message. */
  datatype Response<T> =
    | Listing(rows: seq<T>, columns: seq<string>)
    | Single(row: T, columns: seq<string>)
    | Failure(status: int, message: string)

  /** An awaited list query: the rows, or the store's error. */
  function Fetch<T(!new)>(q: Query, rows: seq<T>, field: FieldOf<T>, fault: Option<StoreError>): Result<seq<T>, StoreError> {
    match fault
    case Some(e) => Err(e)
    case None => Ok(Eval(q, rows, field))
  }

  /** An awaited `.single()` query: exactly one row, or an error. */
  function FetchSingle<T(!new)>(q: Query, rows: seq<T>, field: FieldOf<T>, fault: Option<StoreError>): (r: Result<T, StoreError>)
    ensures r.Ok? ==> fault.None? && Eval(q, rows, field) == [r.value]
    ensures fault.None? && |Eval(q, rows, field)| != 1 ==> r == Err(StoreError(NoSingleRow, NoSingleRowMessage))
  {
    match fault
    case Some(e) => Err(e)
    case None =>
      var found := Eval(q, rows, field);
      if |found| == 1 then Ok(found[0]) else Err(StoreError(NoSingleRow, NoSingleRowMessage))
  }

  /** A list outcome as a response: any store error is a 500 carrying the
      store's message. */
  function ListResponse<T>(outcome: Result<seq<T>, StoreError>, columns: seq<string>): Response<T> {
    match outcome
    case Ok(rows) => Listing(rows, columns)
    case Err(e) => Failure(500, e.message)
  }

  /** A single-row outcome as a response: PGRST116 is a 404, any other store
      error a 500 carrying the store's message. */
  function SingleResponse<T>(outcome: Result<T, StoreError>, columns: seq<string>): Response<T> {
    match outcome
    case Ok(row) => Single(row, columns)
    case Err(e) => if e.code == NoSingleRow then Failure(404, NotFoundMessage) else Failure(500, e.message)
  }

  /** The JSON body of a listing. */
  function RenderRows<T>(rows: seq<T>, field: FieldOf<T>, columns: seq<string>): (r: seq<map<string, Value>>)
    ensures |r| == |rows|
    ensures forall i :: 0 <= i < |r| ==> r[i] == Project(rows[i], field, columns)
  {
    seq(|rows|, i requires 0 <= i < |rows| => Project(rows[i], field, columns))
  }

  /** No two rows share an id. */
  predicate UniqueIds<T>(rows: seq<T>, field: FieldOf<T>) {
    forall i, j :: 0 <= i < |rows| && 0 <= j < |rows| && field(rows[i], Id) == field(rows[j], Id) ==> i == j
  }

  /** A lookup whose conjunction starts by pinning the id, with no ordering
      or limit, returns only stored rows meeting the conjunction; nothing when
      no row meets it; and, with unique ids, exactly the row that meets it. */
  lemma PinnedLookup<T(!new)>(q: Query, rows: seq<T>, field: FieldOf<T>, id: Value)
    requires q.order.None? && q.limit.None? && |q.where| > 0 && q.where[0] == Eq(Id, id)
    ensures forall x :: x in Eval(q, rows, field) ==> x in rows && Satisfies(q.where, field, x)
    ensures (forall x :: x in rows ==> !Satisfies(q.where, field, x)) ==> Eval(q, rows, field) == []
    ensures UniqueIds(rows, field) ==>
              forall x :: x in rows && Satisfies(q.where, field, x) ==> Eval(q, rows, field) == [x]
  {
    EvalMembers(q, rows, field);
    EvalUnorderedUnlimited(q, rows, field);
    if forall x :: x in rows ==> !Satisfies(q.where, field, x) {
      NoneMatching(rows, q.where, field);
    }
    if UniqueIds(rows, field) {
      forall x | x in rows && Satisfies(q.where, field, x)
        ensures Eval(q, rows, field) == [x]
      {
        MatchingPinnedId(rows, q.where, field, id, x);
      }
    }
  }

  /** With unique ids, a conjunction that pins the id is met by at most the
      one row with that id. */
  lemma {:induction false} MatchingPinnedId<T(!new)>(rows: seq<T>, ps: seq<Pred>, field: FieldOf<T>, id: Value, c: T)
    requires UniqueIds(rows, field)
    requires Eq(Id, id) in ps
    requires c in rows && Satisfies(ps, field, c)
    ensures Matching(rows, ps, field) == [c]
  {
    var t :| 0 <= t < |ps| && ps[t] == Eq(Id, id);
    assert field(c, Id) == Some(id);
    var rest := rows[1..];
    assert UniqueIds(rest, field) by {
      forall i, j | 0 <= i < |rest| && 0 <= j < |rest| && field(rest[i], Id) == field(rest[j], Id)
        ensures i == j
      {
        assert rest[i] == rows[i + 1] && rest[j] == rows[j + 1];
      }
    }
    if rows[0] == c {
      forall x | x in rest
        ensures !Satisfies(ps, field, x)
      {
        var k :| 0 <= k < |rest| && rest[k] == x;
        assert rows[k + 1] == x;
        assert field(x, Id) != Some(id);
        assert !Holds(ps[t], field, x);
      }
      NoneMatching(rest, ps, field);
    } else {
      var k :| 0 <= k < |rows| && rows[k] == c;
      assert k != 0;
      assert rest[k - 1] == c;
      assert field(rows[0], Id) != Some(id);
      assert !Holds(ps[t], field, rows[0]);
      MatchingPinnedId(rest, ps, field, id, c);
    }
  }

  /** No row meets the conjunction: nothing matches. */
  lemma NoneMatching<T(!new)>(rows: seq<T>, ps: seq<Pred>, field: FieldOf<T>)
    requires forall x :: x in rows ==> !Satisfies(ps, field, x)
    ensures Matching(rows, ps, field) == []
  {
    var m := Matching(rows, ps, field);
    forall x
      ensures multiset(m)[x] == 0
    {
      if x in rows {
        assert !Satisfies(ps, field, x);
      } else {
        assert multiset(rows)[x] == 0;
      }
    }
    assert multiset(m) == multiset{};
  }
}

=== FILE: text.dfy ===
/** String primitives the routes and the seed script rely on, written out with
    the behaviour of the JavaScript built-ins they stand for: `trim`, `split`
    and `join` on one separator character, `indexOf`, a left-anchored prefix
    test, a substring test and lower-casing. */
module Text {

  /** The characters `String.prototype.trim` removes (white space and line
      terminators). */
  predicate IsSpace(c: char) {
    || c == ' ' || c == '\t' || c == '\n' || c == '\r'
    || c == '\U{000B}' || c == '\U{000C}' || c == '\U{00A0}' || c == '\U{FEFF}'
    || c == '\U{1680}' || ('\U{2000}' <= c <= '\U{200A}')
    || c == '\U{2028}' || c == '\U{2029}' || c == '\U{202F}' || c == '\U{205F}'
    || c == '\U{3000}'
  }

  predicate AllSpace(s: string) {
    forall i :: 0 <= i < |s| ==> IsSpace(s[i])
  }

  /** Drops leading white space: the result is the longest suffix of `s` that
      does not start with white space. */
  function TrimStart(s: string): (r: string)
    ensures |r| <= |s| && r == s[|s| - |r|..]
    ensures AllSpace(s[..|s| - |r|])
    ensures |r| > 0 ==> !IsSpace(r[0])
  {
    if |s| > 0 && IsSpace(s[0]) then TrimStart(s[1..]) else s
  }

  /** Drops trailing white space: the result is the longest prefix of `s` that
      does not end with white space. */
  function TrimEnd(s: string): (r: string)
    ensures |r| <= |s| && r == s[..|r|]
    ensures AllSpace(s[|r|..])
    ensures |r| > 0 ==> !IsSpace(r[|r| - 1])
  {
    if |s| > 0 && IsSpace(s[|s| - 1]) then TrimEnd(s[..|s| - 1]) else s
  }

  /** The number of white-space characters `TrimStart` removes. */
  function Leading(s: string): nat
  {
    |s| - |TrimStart(s)|
  }

  /** `String.prototype.trim`: `s` is the result with white space around it. */
  function Trim(s: string): (r: string)
    ensures |r| <= |s| - Leading(s)
    ensures r == s[Leading(s)..Leading(s) + |r|]
    ensures AllSpace(s[..Leading(s)]) && AllSpace(s[Leading(s) + |r|..])
    ensures |r| > 0 ==> !IsSpace(r[0]) && !IsSpace(r[|r| - 1])
  {
    var t := TrimStart(s);
    var r := TrimEnd(t);
    SuffixSlices(s, Leading(s), |r|);
    r
  }

  /** Slicing a suffix is slicing the whole sequence further along. */
  lemma SuffixSlices<T>(s: seq<T>, lead: nat, n: nat)
    requires lead + n <= |s|
    ensures s[lead..][..n] == s[lead..lead + n] && s[lead..][n..] == s[lead + n..]
  {
  }

  /** Trimming twice is trimming once. */
  lemma TrimIdempotent(s: string)
    ensures Trim(Trim(s)) == Trim(s)
  {
    var r := Trim(s);
    if |r| > 0 {
      assert TrimStart(r) == r;
      assert TrimEnd(r) == r;
    }
  }

  /** A string with no white space at either end is its own trim. */
  lemma TrimOfTrimmed(s: string)
    requires |s| > 0 ==> !IsSpace(s[0]) && !IsSpace(s[|s| - 1])
    ensures Trim(s) == s
  {
    if |s| > 0 {
      assert TrimStart(s) == s;
      assert TrimEnd(s) == s;
    }
  }

  /** `s.split(c)` for a one-character separator: the pieces between the
      separators, including empty ones; the empty string splits into [""]. */
  function Split(s: string, c: char): (r: seq<string>)
    ensures |r| >= 1
    ensures forall i :: 0 <= i < |r| ==> c !in r[i]
  {
    if |s| == 0 then [""]
    else
      var rest := Split(s[1..], c);
      if s[0] == c then [""] + rest
      else [[s[0]] + rest[0]] + rest[1..]
  }

  /** `xs.join(c)`. */
  function Join(xs: seq<string>, c: char): (r: string)
    ensures |xs| > 0 ==> xs[0] <= r
  {
    if |xs| == 0 then ""
    else if |xs| == 1 then xs[0]
    else xs[0] + [c] + Join(xs[1..], c)
  }

  /** One step of a join of several pieces. */
  lemma JoinCons(xs: seq<string>, c: char)
    requires |xs| > 1
    ensures Join(xs, c) == xs[0] + [c] + Join(xs[1..], c)
  {
  }

  /** Joining the pieces of a split restores the string. */
  lemma {:induction false} JoinOfSplit(s: string, c: char)
    ensures Join(Split(s, c), c) == s
  {
    if |s| > 0 {
      var rest := Split(s[1..], c);
      JoinOfSplit(s[1..], c);
      if s[0] == c {
        assert Split(s, c) == [""] + rest;
        assert ([""] + rest)[1..] == rest;
        assert s == [c] + s[1..];
      } else if |rest| == 1 {
        assert Split(s, c) == [[s[0]] + rest[0]];
        assert s == [s[0]] + s[1..];
      } else {
        var pieces := Split(s, c);
        assert pieces == [[s[0]] + rest[0]] + rest[1..];
        assert pieces[1..] == rest[1..];
        assert Join(rest, c) == rest[0] + [c] + Join(rest[1..], c);
        assert s == [s[0]] + s[1..];
      }
    }
  }

  /** A string without the separator is a single piece. */
  lemma {:induction false} SplitWithoutSeparator(s: string, c: char)
    requires c !in s
    ensures Split(s, c) == [s]
  {
    if |s| > 0 {
      assert c !in s[1..];
      SplitWithoutSeparator(s[1..], c);
      assert s == [s[0]] + s[1..];
    }
  }

  /** Splitting `a + c + b` splits `a` and `b` independently. */
  lemma {:induction false} SplitAround(a: string, b: string, c: char)
    ensures Split(a + [c] + b, c) == Split(a, c) + Split(b, c)
  {
    if |a| == 0 {
      assert a + [c] + b == [c] + b;
      assert ([c] + b)[1..] == b;
    } else {
      var s := a + [c] + b;
      assert s[0] == a[0];
      assert s[1..] == a[1..] + [c] + b;
      SplitAround(a[1..], b, c);
    }
  }

  /** Splitting a join of separator-free pieces gives the pieces back. */
  lemma {:induction false} SplitOfJoin(xs: seq<string>, c: char)
    requires |xs| >= 1
    requires forall i :: 0 <= i < |xs| ==> c !in xs[i]
    ensures Split(Join(xs, c), c) == xs
  {
    if |xs| == 1 {
      SplitWithoutSeparator(xs[0], c);
    } else {
      SplitOfJoin(xs[1..], c);
      SplitWithoutSeparator(xs[0], c);
      SplitAround(xs[0], Join(xs[1..], c), c);
      assert [xs[0]] + xs[1..] == xs;
    }
  }

  /** `s.indexOf(c)`: the position of the first `c`, or -1. */
  function IndexOf(s: string, c: char): (r: int)
    ensures r == -1 <==> c !in s
    ensures r != -1 ==> 0 <= r < |s| && s[r] == c && c !in s[..r]
  {
    if |s| == 0 then -1
    else if s[0] == c then 0
    else
      var k := IndexOf(s[1..], c);
      assert s[1..] == s[1..];
      if k == -1 then
        assert forall i :: 0 <= i < |s| ==> s[i] == s[0] || s[i] == s[1..][i - 1];
        -1
      else
        assert s[..k + 1] == [s[0]] + s[1..][..k];
        k + 1
  }

  /** Lower-casing of one character (ASCII letters only). */
  function LowerChar(c: char): char {
    if 'A' <= c <= 'Z' then (c as int + 32) as char else c
  }

  /** `toLowerCase`, with ASCII case mapping. */
  function Lower(s: string): string {
    seq(|s|, i requires 0 <= i < |s| => LowerChar(s[i]))
  }

  predicate IsLower(s: string) {
    forall i :: 0 <= i < |s| ==> !('A' <= s[i] <= 'Z')
  }

  /** Lower-casing leaves no upper-case letter, and is the identity on text
      that has none. */
  lemma LowerFacts(s: string)
    ensures IsLower(Lower(s))
    ensures IsLower(s) ==> Lower(s) == s
    ensures Lower(Lower(s)) == Lower(s)
  {
  }

  /** `needle` occurs somewhere in `hay`. */
  predicate Contains(hay: string, needle: string) {
    exists i | 0 <= i <= |hay| - |needle| :: needle <= hay[i..]
  }

  /** Case-insensitive containment (SQL `ILIKE '%needle%'` with no wildcard
      characters in `needle`). */
  predicate ContainsIgnoringCase(hay: string, needle: string) {
    Contains(Lower(hay), Lower(needle))
  }
}
